=== FILE: README.md ===
# ReferEase in Dafny

ReferEase is a job-referral web application. Job seekers swipe through job
postings and ask the poster for a referral. Referrers swipe through the
pending requests for their jobs and accept or reject them. Everyone keeps a
profile. This project models the deterministic core of the application and
proves properties of it. The core has four parts:

- the Redux reducers of the browser client, as pure `Reduce(state, action)`
  functions (`ApplicantSlice`, `JobSlice`, `ReferralSlice`, `AuthSlice`,
  `UserSlice`);
- the three swipe-review components, each a queue with a cursor, in-flight
  flags and empty / caught-up / showing displays (`ApplicantReview`,
  `ApplicantBrowser`, `JobBrowser`, with the two browsers' shared cursor
  and button flag in `Swipe`);
- the form and page helpers (`ProfileForm`, `Forms`, `JobPost`, `JobForm`,
  `RegisterForm`, `BrowseJobs`, `Applications`, `Notifications`);
- the server's route decisions over an in-memory store, and the Mongoose
  schemas' enumerations, defaults and validators (`ReferralRoutes`,
  `JobRoutes`, `UserRoutes`, `RegisterRoute`, `ReferralModel`, `JobModel`,
  `UserModel`).

Shared vocabulary lives in `Base` (options, JSON values, JavaScript
truthiness, the outcome of a remote call), `Http` (replies with their
status), `Text` (trim, lower-case, includes, split, join) and `Lists`
(filter, subsequence, find-by-id, replace-by-id, remove-by-id).

Conventions:

- **Remote calls.** A remote call is an `Outcome`. It is either `Success`
  with the response data, or `Failure` with the response's error body and
  the thrown error's own message. The network, the clock, `localStorage`
  and the database are parameters or stores.
- **Server ids.** The server's ids are natural numbers drawn from a
  `nextId` counter.
- **Client ids.** The client's ids are strings carried in `Lists.Doc`.
- **List order.** Newest first means reverse insertion order.
- **Absent values.** JavaScript's `undefined` is `None`.
- **Render errors.** A render that reads a property of `null` or
  `undefined` throws, and React then shows nothing of the page. The model
  names that outcome (`ApplicantBrowser.Crashed`, or `None` for
  `Applications.PostedCounts`) instead of showing a value.
- **`||` fallbacks.** Where the code falls back with `||`, the empty string
  counts as false.
- **Required fields.** A form whose controls carry `required` is checked by
  the browser before its submit handler runs. A blank control blocks the
  submit: one whose value is absent, `null` or the empty string
  (`Forms.Blank`). `Submit` reports that as a blocked or unsent outcome.

## Model

| member | source | states |
|---|---|---|
| ApplicantSlice.Clamp | client/src/store/slices/applicantSlice.js:97-99 | a cursor inside the list is kept; one at or past the end becomes the last position, or 0 for an empty list |
| ApplicantSlice.Reduce | client/src/store/slices/applicantSlice.js:49-104 | `setCurrentIndex` stores the index unclamped; `clearApplicants` empties the list, resets cursor and error and keeps `loading`; pending sets loading and clears the error; a fetch replaces the list and resets the cursor; a successful update removes every applicant with the payload's id and clamps the cursor; rejections record the payload message or the operation's fallback text |
| ApplicantSlice.InitialCursorOk | client/src/store/slices/applicantSlice.js:49-54 | the initial state is empty, with cursor 0, and its cursor is in range |
| ApplicantSlice.ReduceKeepsCursorOk | client/src/store/slices/applicantSlice.js:63-104 | every action except `setCurrentIndex` keeps the cursor inside the list (or at 0) |
| ApplicantSlice.SetCurrentIndexUnclamped | client/src/store/slices/applicantSlice.js:60-62 | `setCurrentIndex` can put the cursor past the end of the list |
| ApplicantSlice.UpdateRemovesDecided | client/src/store/slices/applicantSlice.js:90-95 | after a successful update the list holds exactly the former applicants with another id, in their order |
| ApplicantSlice.UpdateDeletesPosition | client/src/store/slices/applicantSlice.js:93-95 | with unique ids, a successful update for the applicant at position i deletes exactly position i |
| JobSlice.RejectionError | client/src/store/slices/jobSlice.js:160-176 | the rejections of the two thunks without `rejectWithValue` record the error's own message; the others record the payload |
| JobSlice.Reduce | client/src/store/slices/jobSlice.js:117-264 | the reducers and every pending, fulfilled and rejected case: filters merge or reset, jobs are appended, replaced by id or removed by id in `jobs` and `myJobs` |
| JobSlice.SetFiltersOverwritesOnlyPayloadKeys | client/src/store/slices/jobSlice.js:139-141 | a filter key the payload does not mention keeps its value |
| JobSlice.ClearFiltersAfterSet | client/src/store/slices/jobSlice.js:142-144 | after any `setFilters`, `clearFilters` restores exactly the four filters, each `""` |
| JobSlice.CreatedJobAppended | client/src/store/slices/jobSlice.js:195-199 | a created job is appended at the end of both `jobs` and `myJobs`, the earlier entries kept |
| JobSlice.UpdatePreservesShape | client/src/store/slices/jobSlice.js:209-219 | an update keeps both lengths, leaves a list without the id unchanged, and puts the job into `jobs` when its id was there |
| JobSlice.DeleteAndRejectRemove | client/src/store/slices/jobSlice.js:229-260 | delete removes the id from both lists; reject removes it from `jobs` and leaves `myJobs` unchanged |
| JobSlice.DeleteUndoesCreate | client/src/store/slices/jobSlice.js:195-233 | creating a job under a fresh id and then deleting it restores both lists |
| ReferralSlice.AppendMessage | client/src/store/slices/referralSlice.js:100-105 | with a current referral, the message is appended to its messages, absent messages counting as empty, and nothing else changes; without one nothing happens |
| ReferralSlice.RefreshCurrent | client/src/store/slices/referralSlice.js:146-148 | the current referral is replaced only when its id equals the payload's |
| ReferralSlice.Reduce | client/src/store/slices/referralSlice.js:71-170 | the reducers and the fetch / create / status-update / send-message cases |
| ReferralSlice.MessageSentIsAddMessage | client/src/store/slices/referralSlice.js:159-165 | a sent message has the effect of `addMessage` and also clears `loading` |
| ReferralSlice.AddMessagesInOrder | client/src/store/slices/referralSlice.js:100-105 | two messages added one after the other end up in that order after the existing ones |
| ReferralSlice.StatusUpdateShape | client/src/store/slices/referralSlice.js:140-148 | a status update keeps the list length, leaves a list without the id unchanged, and the current referral is either kept or becomes the payload |
| ReferralSlice.CreatedReferralAppended | client/src/store/slices/referralSlice.js:127-130 | a created referral is appended at the end |
| AuthSlice.Initial | client/src/store/slices/authSlice.js:96-103 | the session starts with the stored token, no user, not authenticated, not loading and no error |
| AuthSlice.AnyMessageOr | client/src/store/slices/authSlice.js:28 | a failed call's message is the server's message if present, else the error's own message, else the fallback |
| AuthSlice.SignInThunk | client/src/store/slices/authSlice.js:4-68 | success stores the token and fulfils with the data; failure keeps storage and rejects with the message; register ignores the error's own message |
| AuthSlice.GoogleAuthThunk | client/src/store/slices/authSlice.js:34-54 | a response requiring registration rejects with `googleData` and stores nothing; any other success stores the token |
| AuthSlice.Reduce | client/src/store/slices/authSlice.js:105-217 | `logout` clears user, token, flag, error and storage and keeps `loading`; `loginSuccess` keeps the token; sign-in success sets user, token and flag; a `getCurrentUser` rejection clears the session; a profile update replaces only the user and `loading` |
| AuthSlice.RouteUser | server/routes/auth.js:103-109 | the signed-in user object carries `id`, email, names and role, and no `_id` |
| AuthSlice.GoogleRegistrationStoresNoToken | client/src/store/slices/authSlice.js:39-44 | a Google sign-in that requires registration leaves the stored token and the session's token and flag unchanged |
| AuthSlice.SignInTokenAgrees | client/src/store/slices/authSlice.js:131-181 | after any successful sign-in the stored token and the state's token are the same token, and the user is authenticated |
| AuthSlice.LogoutUndoesSignIn | client/src/store/slices/authSlice.js:108-136 | logging out after signing in leaves no token, user or stored token |
| AuthSlice.LoginFallback | client/src/store/slices/authSlice.js:27-29 | a login failure with no message at all reports 'Login failed' |
| UserSlice.Reduce | client/src/features/user/userSlice.js:53-127 | `reset` keeps the user; pending sets loading and clears the error; success sets the user to `payload.data` and signals success except for `getProfile`; rejection records the payload message or the operation's default |
| UserSlice.DefaultErrorsDistinct | client/src/features/user/userSlice.js:82-126 | the four operations have four different default error texts |
| UserSlice.ResetKeepsUser | client/src/features/user/userSlice.js:64-68 | after any action, `reset` clears loading, error and success and keeps the user |
| UserSlice.GetProfileIsSilent | client/src/features/user/userSlice.js:119-122 | after a reset, a fetched profile leaves the success flag down |
| ApplicantReview.Queue | client/src/components/jobs/ApplicantReview.jsx:52 | the queue holds only pending applicants, in their order |
| ApplicantReview.QueueMembers | client/src/components/jobs/ApplicantReview.jsx:52 | an applicant is queued exactly when it is present and pending |
| ApplicantReview.Current | client/src/components/jobs/ApplicantReview.jsx:64 | the applicant at the cursor, present exactly when the cursor is inside the queue |
| ApplicantReview.Show | client/src/components/jobs/ApplicantReview.jsx:90-165 | loading, then error, then an empty queue, then an invalid cursor or a missing referee, then the pending applicant at the cursor |
| ApplicantReview.Begin | client/src/components/jobs/ApplicantReview.jsx:63-78 | starting a decision raises only that decision's in-flight flag |
| ApplicantReview.BothDecisionsCanBeInFlight | client/src/components/jobs/ApplicantReview.jsx:231-240 | each button is disabled only by its own flag, so reject stays enabled while an accept is in flight |
| ApplicantReview.Settle | client/src/components/jobs/ApplicantReview.jsx:66-84 | a settled update is the slice's pending then fulfilled case; a failure keeps list and cursor, clears `loading` and records the payload's message or 'Failed to update applicant status' |
| ApplicantReview.DecideAsWritten | client/src/components/jobs/ApplicantReview.jsx:62-88 | a decision without an applicant at the cursor does nothing; otherwise the update settles and the cursor becomes min(cursor+1, L-1) for the queue length L before the decision |
| ApplicantReview.QueueAfterSuccess | client/src/components/jobs/ApplicantReview.jsx:52 | after a successful decision the queue has lost exactly the decided position |
| ApplicantReview.AsWrittenSkipsNext | client/src/components/jobs/ApplicantReview.jsx:71-85 | with at least two applicants after the decided one, the next one shown is two places on, and the skipped one is still pending |
| ApplicantReview.AsWrittenTwoPendingShowsInvalid | client/src/components/jobs/ApplicantReview.jsx:71-85 | deciding the first of two pending applicants leaves one in the queue and the cursor at 1, so the invalid-applicant screen shows |
| ApplicantReview.DecideCorrected | client/src/components/jobs/ApplicantReview.jsx:62-88 | the decision with the cursor kept in place and clamped to the shrunk queue |
| ApplicantReview.CorrectedShowsNext | client/src/components/jobs/ApplicantReview.jsx:62-88 | after a successful decision the next pending applicant is shown, or the previous one when the last was decided, and never the invalid screen while applicants remain |
| ApplicantReview.CorrectedKeepsApplicantOnFailure | client/src/components/jobs/ApplicantReview.jsx:62-88 | a failed decision keeps the same applicant on screen |
| ApplicantReview.Previous | client/src/components/jobs/ApplicantReview.jsx:207-208 | Previous moves to max(0, cursor-1) |
| ApplicantReview.Next | client/src/components/jobs/ApplicantReview.jsx:215-216 | Next moves to min(L-1, cursor+1) |
| ApplicantReview.NavigationStaysOnQueue | client/src/components/jobs/ApplicantReview.jsx:207-216 | from a valid cursor both buttons land on an applicant, and each undoes the other when enabled |
| ApplicantBrowser.Queue | client/src/components/jobs/ApplicantBrowser.jsx:17-19 | the queue holds only pending referrals for the job, in their order |
| ApplicantBrowser.QueueMembers | client/src/components/jobs/ApplicantBrowser.jsx:17-19 | a referral is queued exactly when it is present, for this job and pending |
| ApplicantBrowser.Show | client/src/components/jobs/ApplicantBrowser.jsx:58-118 | an empty queue shows 'No Applicants Yet' before the caught-up check; a cursor at or past the end shows 'All Caught Up'; otherwise the referral at the cursor is shown exactly when it carries an `applicant`, and the render throws exactly when it does not |
| ApplicantBrowser.Card | client/src/components/jobs/ApplicantBrowser.jsx:93-118 | the card shows the referral exactly when it has an `applicant`, and otherwise throws on `applicant.firstName` |
| ApplicantBrowser.Render | client/src/components/jobs/ApplicantBrowser.jsx:17-118 | one referral in the list whose job was deleted makes every render throw; otherwise the queue is displayed |
| ApplicantBrowser.ServerReferralsNeverShown | client/src/components/jobs/ApplicantBrowser.jsx:93-118 | with the server's referrals, which carry no `applicant`, no card is ever shown, and a cursor inside the queue always throws |
| Swipe.Begin | client/src/components/jobs/ApplicantBrowser.jsx:25-42 | a decision in flight disables both buttons and keeps the cursor |
| ApplicantBrowser.Finish | client/src/components/jobs/ApplicantBrowser.jsx:28-54 | success advances the cursor by exactly one, failure keeps it, and both re-enable the buttons |
| Swipe.StartOver | client/src/components/jobs/ApplicantBrowser.jsx:84 | Start Over puts the cursor back at 0 and leaves the flag |
| ApplicantBrowser.CursorBounded | client/src/components/jobs/ApplicantBrowser.jsx:25-55 | deciding on a shown card never moves the cursor past the queue's end |
| ApplicantBrowser.DecideAll | client/src/components/jobs/ApplicantBrowser.jsx:25-55 | n successful decisions advance the cursor by n |
| ApplicantBrowser.AllDecidedIsCaughtUp | client/src/components/jobs/ApplicantBrowser.jsx:73-91 | deciding every referral of a non-empty queue reaches 'All Caught Up' |
| ApplicantBrowser.NextReferralAfterSuccess | client/src/components/jobs/ApplicantBrowser.jsx:28-34 | after a success the card of the next referral in the queue is rendered, shown or throwing as `Card` says |
| ApplicantBrowser.AcceptNeverAdvances | client/src/components/jobs/ApplicantBrowser.jsx:28 | the 'accepted' status is refused by the server without change, so accepting never advances the browser |
| ApplicantBrowser.RejectAdvancesForReferrer | client/src/components/jobs/ApplicantBrowser.jsx:44 | the job's referrer rejecting a stored referral succeeds and advances the browser |
| JobBrowser.FindJob | client/src/components/jobs/JobBrowser.jsx:29-32 | the job with the id, found exactly when the list holds that id |
| JobBrowser.Accept | client/src/components/jobs/JobBrowser.jsx:26-49 | an unknown id sends nothing and keeps the cursor; a known one sends a pending request to the job's poster and advances only on success |
| JobBrowser.Reject | client/src/components/jobs/JobBrowser.jsx:51-57 | skipping advances the cursor by one and leaves `actionLoading` alone |
| JobBrowser.Click | client/src/components/jobs/JobBrowser.jsx:183-203 | a disabled button does nothing; an enabled reject moves on, an enabled accept puts its request in flight |
| JobBrowser.InFlightIgnoresClicks | client/src/components/jobs/JobBrowser.jsx:26-27 | while an accept is in flight neither button is enabled, and any run of clicks leaves cursor and flag unchanged |
| JobBrowser.SettledAcceptReenables | client/src/components/jobs/JobBrowser.jsx:38-47 | once an accept settles, success or failure, the buttons are enabled again |
| JobBrowser.Show | client/src/components/jobs/JobBrowser.jsx:72-105 | an empty list shows 'No Jobs Found', a cursor at or past the end shows caught-up, otherwise the job at the cursor |
| JobBrowser.AcceptShownJobSends | client/src/components/jobs/JobBrowser.jsx:34-38 | accepting the job on screen sends a request for that job to its poster |
| JobBrowser.RejectTimes | client/src/components/jobs/JobBrowser.jsx:51-57 | n skips advance the cursor by n |
| JobBrowser.RejectAllCaughtUp | client/src/components/jobs/JobBrowser.jsx:87-105 | skipping every job of a non-empty list reaches caught-up |
| JobBrowser.FormatExperience | client/src/components/jobs/JobBrowser.jsx:60-69 | five levels get fixed labels; any other text is shown unchanged |
| JobBrowser.FormatExperienceCoversSchema | client/src/components/jobs/JobBrowser.jsx:60-69 | every level the schema admits gets a label, and two of the labelled levels are not admitted by the schema |
| ProfileForm.FromUser | client/src/components/profile/Profile.jsx:35-49 | missing user fields default to `""` for texts and `[]` for lists |
| ProfileForm.InputChange | client/src/components/profile/Profile.jsx:101-107 | an input change updates exactly one named field |
| ProfileForm.RemoveAt | client/src/components/profile/Profile.jsx:120-125 | removing at i deletes exactly position i, keeping the others in order; an out-of-range i changes nothing |
| ProfileForm.RemoveAtShifts | client/src/components/profile/Profile.jsx:120-125 | after the removal, entries before i stay and entries after it move down by one |
| ProfileForm.AddSkill | client/src/components/profile/Profile.jsx:110-118 | a skill is appended trimmed and the input cleared only when the trimmed text is non-empty |
| ProfileForm.AddBlankSkill | client/src/components/profile/Profile.jsx:110-118 | a blank skill input changes nothing |
| ProfileForm.AddedSkillTrimmed | client/src/components/profile/Profile.jsx:112 | a draft that is not all whitespace adds a non-empty skill with no surrounding whitespace |
| ProfileForm.AddExperience | client/src/components/profile/Profile.jsx:136-150 | an entry is added, and the draft reset, only when role and company are filled |
| ProfileForm.AddEducation | client/src/components/profile/Profile.jsx:168-180 | an entry is added, and the draft reset, only when degree and institution are filled |
| ProfileForm.AddProject | client/src/components/profile/Profile.jsx:198-209 | an entry is added, and the draft reset, only when name and description are filled |
| ProfileForm.RemoveAtUndoesAppend | client/src/components/profile/Profile.jsx:120-125 | removing the last position of a list just extended restores the list |
| ProfileForm.RemoveUndoesAddSkill | client/src/components/profile/Profile.jsx:110-125 | removing a skill just added restores the skill list |
| ProfileForm.RemoveUndoesAddExperience | client/src/components/profile/Profile.jsx:136-157 | removing an experience entry just added restores the list |
| ProfileForm.Decide | client/src/components/profile/Profile.jsx:234-248 | a callback wins; else a set referral id gets a status update ('accepted' or 'rejected'); else nothing happens |
| Forms.SetField | client/src/components/jobs/JobPost.jsx:37-54 | a dotted name sets one field of the nested object and keeps its siblings; a plain name sets a top-level field; no other top-level field changes |
| Forms.GetAfterSet | client/src/components/jobs/JobPost.jsx:37-54 | what is set under a name reads back under that name |
| Forms.SetLeavesOthers | client/src/components/JobForm.jsx:32-49 | setting a name leaves every name addressing another place as it was |
| Forms.Change | client/src/components/JobForm.jsx:32-49 | a change puts the typed text under its name and leaves other top-level keys as they were |
| Forms.ToNumber | client/src/components/jobs/JobPost.jsx:86-87 | `Number()` on an input's text: blank is 0, decimal digits are their value, anything else is not a number |
| Forms.ToNumberOfShow | client/src/components/jobs/JobPost.jsx:86-87 | the decimal text of any natural number converts back to that number |
| Forms.NumberOf | client/src/components/jobs/JobPost.jsx:86-87 | `Number()` on a form value: text converts as above, a number is kept, `null` is 0, `undefined` is not a number |
| JobPost.InitialSelectionsAccepted | client/src/components/jobs/JobPost.jsx:18-32 | the preset job type 'full-time' and level 'entry' are ones the schema admits |
| JobPost.SelectChange | client/src/components/jobs/JobPost.jsx:56-61 | a select sets its top-level key alone |
| JobPost.SplitSkills | client/src/components/jobs/JobPost.jsx:63-69 | one skill per comma-separated piece, empty pieces kept, each trimmed and comma-free |
| JobPost.SkillsChange | client/src/components/jobs/JobPost.jsx:63-69 | the skills list becomes the split text and nothing else changes |
| JobPost.SkillsRoundTrip | client/src/components/jobs/JobPost.jsx:249 | splitting the displayed `join(', ')` of trimmed comma-free skills gives the same list |
| JobPost.SkillsStable | client/src/components/jobs/JobPost.jsx:63-69 | once typed into, the box's displayed text splits back to the list it shows |
| JobPost.Submit | client/src/components/jobs/JobPost.jsx:72-200 | nothing is sent while either salary bound is blank (the browser's `required` check) or any of title, company, location and description is empty (the handler's check); otherwise the form is sent with the salary bounds converted and every other field kept |
| JobPost.InitialNotSent | client/src/components/jobs/JobPost.jsx:18-32 | the untouched form has blank salary bounds and is never sent |
| JobPost.BlankBoundNotSent | client/src/components/jobs/JobPost.jsx:173-200 | a blank salary bound stops the submit, so no bound is ever sent as the 0 of `Number('')` |
| JobPost.TypedSalarySent | client/src/components/jobs/JobPost.jsx:81-88 | a salary bound typed as a decimal number is sent as that number |
| JobPost.ResubmitUnchanged | client/src/components/jobs/JobPost.jsx:81-88 | once both bounds are numbers, converting the sent form again changes nothing |
| JobForm.ArrayChange | client/src/components/JobForm.jsx:51-56 | only the entry at the index changes; the length and other keys are kept |
| JobForm.AddItem | client/src/components/JobForm.jsx:58-63 | exactly one `''` is appended to the named list |
| JobForm.AddThenType | client/src/components/JobForm.jsx:51-63 | adding an entry and typing into it extends the list by exactly the typed text |
| JobForm.TypeOutsideKeeps | client/src/components/JobForm.jsx:51-56 | typing at an index the list does not have changes nothing |
| JobForm.Submit | client/src/components/JobForm.jsx:65-258 | the browser blocks the submit while any required control (texts, salary bounds, both selects, every list entry) is empty; otherwise the form is sent as it stands; success resets it to the initial form and closes the dialog; failure keeps it |
| JobForm.RetryResends | client/src/components/JobForm.jsx:65-86 | after a failed or blocked submit, the next submit sends the same body or is blocked again |
| JobForm.InitialBlocked | client/src/components/JobForm.jsx:16-30 | the dialog as it opens cannot be submitted |
| JobForm.UntouchedTypeRefused | client/src/components/JobForm.jsx:172-182 | a job type left at the empty placeholder option blocks the submit, and the job schema would refuse it too |
| RegisterForm.Set | client/src/pages/auth/Register.jsx:27-31 | the edited field takes the text and every other field keeps its value |
| RegisterForm.Change | client/src/pages/auth/Register.jsx:27-37 | the password message is cleared exactly when one of the two password fields is edited |
| RegisterForm.RoleChange | client/src/pages/auth/Register.jsx:39-44 | the role select sets the role alone |
| RegisterForm.Submit | client/src/pages/auth/Register.jsx:46-173 | the browser blocks the submit while any field or the role is empty; then mismatched passwords give 'Passwords do not match' before the length is checked; a shorter password gives the length message; otherwise every field except the confirmation is sent |
| RegisterForm.InitialBlocked | client/src/pages/auth/Register.jsx:17-24 | the page as it opens cannot be submitted |
| RegisterForm.AfterSubmit | client/src/pages/auth/Register.jsx:50-59 | a refused submit shows its message and keeps the form; a blocked or sent one changes nothing |
| RegisterForm.EditClearsRefusal | client/src/pages/auth/Register.jsx:27-59 | after a refusal, editing either password field clears the message and editing any other field keeps it |
| RegisterForm.MatchingPasswordSent | client/src/pages/auth/Register.jsx:46-62 | typing the same password of at least 8 characters into both fields makes the next submit send it exactly when every other field is filled |
| RegisterRoute.FromPage | client/src/pages/auth/Register.jsx:61-62 | the page's body names neither a provider nor a Google id |
| RegisterRoute.Common | server/routes/auth.js:28-34 | every new user gets email, names, role and the provider defaulted to local |
| RegisterRoute.UserDataAsWritten | server/routes/auth.js:28-41 | the password is copied only when the body names the local provider |
| RegisterRoute.PageRegistrationNeverSavesAsWritten | server/routes/auth.js:28-44 | a body from the registration page gets the local provider but no password, so the schema refuses it whatever was typed |
| RegisterRoute.UserData | server/routes/auth.js:28-41 | the password is copied whenever the defaulted provider is local |
| RegisterRoute.PageRegistrationSaves | server/routes/auth.js:28-44 | with that, a page registration is saved exactly when a role the schema knows was chosen |
| RegisterRoute.UnchosenRoleRefused | client/src/pages/auth/Register.jsx:17-24 | the role select starts empty; the browser blocks such a form, and the schema would refuse that role too |
| RegisterRoute.GoogleUserNeverPasses | server/models/User.js:126-129 | a user registered through Google has no password and never passes the password check, whatever the hash comparison answers |
| RegisterRoute.PageUserComparesTypedPassword | server/models/User.js:126-129 | for a user registered from the page, the password check is exactly the hash comparison against the typed password |
| BrowseJobs.ClearFilters | client/src/pages/jobs/BrowseJobs.jsx:126 | Clear Filters resets all three filters to `''` |
| BrowseJobs.AnySkill | client/src/pages/jobs/BrowseJobs.jsx:37 | some skill, lower-cased, includes the lower-cased query |
| BrowseJobs.FilterJobs | client/src/pages/jobs/BrowseJobs.jsx:34-43 | the listed jobs keep their order, and a job is listed exactly when it matches search, type and experience |
| BrowseJobs.EmptySearchMatches | client/src/pages/jobs/BrowseJobs.jsx:35-37 | an empty search matches every job |
| BrowseJobs.ClearedListsAll | client/src/pages/jobs/BrowseJobs.jsx:34-43 | with the filters cleared every job is listed |
| BrowseJobs.SearchIgnoresCase | client/src/pages/jobs/BrowseJobs.jsx:35-37 | a query and its lower-case form match the same jobs |
| BrowseJobs.TypeFilterHidesUnlistedJobs | client/src/pages/jobs/BrowseJobs.jsx:39 | jobs without a `type` field are all hidden once any type is chosen |
| Applications.PostedJobs | client/src/pages/Applications.jsx:23 | a job is listed exactly when its `postedBy` equals the user's `_id` (`UserId`), absent equal to absent |
| Applications.AppliedReferrals | client/src/pages/Applications.jsx:26 | a referral is listed exactly when its `applicant` equals the user's `_id` (`UserId`) |
| Applications.UserId | client/src/pages/Applications.jsx:23-26 | `user?._id` is present exactly for a user object holding a string `_id` |
| Applications.SignedInUserHasNoId | server/routes/auth.js:59-65 | a session signed in through the routes holds a user without `_id`, so it lists no server job as posted and every applicant-less referral as applied |
| Applications.NothingAppliedForServerReferrals | client/src/pages/Applications.jsx:26 | referrals without an `applicant` field are never listed for a user object carrying an `_id` |
| Applications.EverythingAppliedWithoutUserId | client/src/pages/Applications.jsx:26 | without a user `_id`, whether signed out or signed in through the routes, every such referral is listed, since `undefined === undefined` |
| Applications.Applicants | client/src/pages/Applications.jsx:30 | a referral counts for a job exactly when it names that job |
| Applications.ApplicantCounts | client/src/pages/Applications.jsx:29-37 | pending + accepted + rejected is at most the total, with equality when every referral for the job has one of those statuses |
| Applications.PostedCounts | client/src/pages/Applications.jsx:29-84 | with at least one posted job, a referral whose job was deleted makes the tab throw; otherwise every posted job gets its counts, in order |
| Applications.ReviewDisabledIffNoReferral | client/src/pages/Applications.jsx:115 | the review button is disabled exactly when no referral names the job |
| Applications.StatusBadge | client/src/pages/Applications.jsx:44-55 | pending, accepted and rejected get their badges; anything else is Unknown |
| Applications.StoredStatusBadges | client/src/pages/Applications.jsx:44-55 | three of the five statuses the server stores show as Unknown, and none shows as Accepted |
| Applications.StoredNeverCountedAccepted | client/src/pages/Applications.jsx:34 | referrals with a stored status never count as accepted |
| Notifications.GroupIndex | client/src/pages/Notifications.jsx:27-29 | the group for a date, found exactly when one exists |
| Notifications.FirstOn | client/src/pages/Notifications.jsx:25-31 | the first notification on a date |
| Notifications.GroupByDate | client/src/pages/Notifications.jsx:22-37 | one group per date that occurs, in order of first occurrence; each group holds exactly its date's notifications in their order; the sizes add up to the input length |
| Notifications.InsertKeepsGrouped | client/src/pages/Notifications.jsx:25-31 | one step of the `forEach` keeps that invariant |
| Notifications.GroupSizesAddUp | client/src/pages/Notifications.jsx:22-37 | every notification is in exactly one group, so the sizes add up to the input length |
| Notifications.GroupsByDate | client/src/pages/Notifications.jsx:22-37 | each group is non-empty, keeps input order and shares its date, and no two groups share a date |
| Notifications.Render | client/src/pages/Notifications.jsx:42-48 | a missing field prints as "undefined" inside the message |
| Notifications.Message | client/src/pages/Notifications.jsx:39-52 | each of the four kinds gives its exact sentence, with the sender's names, the quoted job title and the company interpolated (absent ones as 'undefined'); any other kind shows its own message or 'New notification'; the message is never empty |
| Notifications.AcceptedRejectedDiffer | client/src/pages/Notifications.jsx:43-46 | the accepted and the rejected message about the same job read differently |
| Notifications.AnyUnread | client/src/pages/Notifications.jsx:67 | some notification is not marked read |
| Notifications.MarkAllEnabled | client/src/pages/Notifications.jsx:67 | "Mark all as read" is enabled exactly when the list is loaded and some notification in it is unread |
| ReferralRoutes.Find | server/routes/referrals.js:70 | the position of the referral with the id, or -1 exactly when none has it |
| ReferralRoutes.ListReferrals | server/routes/referrals.js:7-19 | exactly the referrals where the caller is referee or referrer, newest first |
| ReferralRoutes.GetReferral | server/routes/referrals.js:27-36 | 404 exactly when no referral has the id; otherwise that referral |
| ReferralRoutes.CreateReferral | server/routes/referrals.js:44-59 | the referee is the caller, the status is pending whatever the body says, and the log is the one creation entry; a missing job or referrer fails the save with no change |
| ReferralRoutes.UpdateStatus | server/routes/referrals.js:67-86 | 404 exactly for a missing id and, in a valid store, 401 exactly for a caller who is not the referrer, both without change; an enum-valid status is set, whatever the prior one, and one entry is appended to the log; any other status fails the save; no other answer is possible |
| ReferralRoutes.AddInteraction | server/routes/referrals.js:94-105 | any caller may append to an existing referral: a known interaction type always succeeds; the entry's initiator is the referee exactly when the caller is the referee; one entry is appended and nothing else changes; 404, 200 or 500 are the only answers |
| ReferralRoutes.InteractionKeepsRest | server/routes/referrals.js:94-105 | logging an interaction keeps every status and every other referral, and the referral stays listed for both its referee and its referrer |
| ReferralRoutes.AnyTransitionAllowed | server/routes/referrals.js:78 | the referrer can move a referral to any status from any status |
| ReferralRoutes.AcceptedNeverStored | server/routes/referrals.js:78-85 | the status 'accepted', which the client sends, never changes the store |
| ReferralRoutes.CreatedReferralListedFirst | server/routes/referrals.js:44-59 | a new referral heads both parties' listings |
| JobRoutes.Find | server/routes/jobs.js:58 | the position of the job with the id, or -1 exactly when none has it |
| JobRoutes.ListJobs | server/routes/jobs.js:7-10 | exactly the active jobs, newest first |
| JobRoutes.GetJob | server/routes/jobs.js:18-24 | 404 exactly when no job has the id; otherwise that job |
| JobRoutes.CreateJob | server/routes/jobs.js:32-48 | a job is created, posted by the caller and active, exactly when the body passes the schema |
| JobRoutes.ApplyPatch | server/routes/jobs.js:66-70 | `$set` overwrites the given fields, trimming title, company, location and every requirements and skills entry, and keeps the others |
| JobRoutes.EmptyPatchIsIdentity | server/routes/jobs.js:66-70 | an empty body changes nothing |
| JobRoutes.PatchIdempotent | server/routes/jobs.js:66-70 | applying the same body twice is applying it once, trims included |
| JobRoutes.UpdateJob | server/routes/jobs.js:56-71 | 404 for a missing id, 401 for a caller who is not the poster, both without change; otherwise the patched job replaces the stored one |
| JobRoutes.DeleteJob | server/routes/jobs.js:79-90 | 404 and 401 as for update; otherwise exactly that job is removed and 'Job removed' is answered |
| JobRoutes.DeletedJobIsGone | server/routes/jobs.js:79-90 | after a delete the job is not found |
| JobRoutes.OnlyPosterMutates | server/routes/jobs.js:56-90 | nobody but the poster can change or delete a job |
| JobRoutes.UpdateCanBreakSchema | server/routes/jobs.js:66-70 | an update can store a job type the schema does not admit, because the update runs no validators |
| JobRoutes.DeactivatedJobLeavesListing | server/routes/jobs.js:66-70 | a job set inactive leaves the listing and can still be fetched by id |
| UserRoutes.Merge | server/routes/users.js:29-36 | every schema key the body sets to a non-null value is overwritten, and everything else is kept |
| UserRoutes.MergeIdempotent | server/routes/users.js:29-36 | merging the same body twice is merging it once |
| UserRoutes.MergeOfNothing | server/routes/users.js:29-36 | a body whose schema keys are all null changes nothing |
| UserRoutes.UpdateProfile | server/routes/users.js:18-53 | 404 'User not found' for a missing caller; the update succeeds exactly when the merged user passes validation and holds no email or Google id another user holds; a failed validation or duplicate key answers 500 with the error's message and no change; otherwise the merged user is stored |
| UserRoutes.UpdateKeepsUnique | server/models/User.js:131-133 | a profile update keeps every email and every Google id held by at most one user |
| UserRoutes.TakenEmailRefused | server/models/User.js:5-11 | sending another user's email answers 500 and changes nothing |
| UserRoutes.OtherUsersUntouched | server/routes/users.js:18-53 | no other user's document changes |
| UserRoutes.EmptyRequiredFieldRejected | server/routes/users.js:33-48 | emptying a required name is refused and changes nothing |
| UserRoutes.NullBodyKeepsUser | server/routes/users.js:33-49 | in a duplicate-free collection, a valid user's body of nulls answers with the unchanged user |
| ReferralModel.ParseStatus | server/models/Referral.js:37-40 | a status is admitted exactly when it is one of the five spellings |
| ReferralModel.StatusRoundTrip | server/models/Referral.js:37-40 | every status reads back from its spelling |
| ReferralModel.AcceptedIsNotAStatus | server/models/Referral.js:39 | 'accepted' is not an admitted status |
| ReferralModel.ParseInteractionType | server/models/Referral.js:4-8 | an interaction type is admitted exactly when it is view, like or message |
| ReferralModel.ParseInitiator | server/models/Referral.js:13-17 | an initiator is admitted exactly when it is referee or referrer |
| ReferralModel.NewReferral | server/models/Referral.js:21-43 | a referral saves exactly when job, referee and referrer are present, and starts pending |
| JobModel.ParseJobType | server/models/Job.js:41-45 | a job type is admitted exactly when it is full-time, part-time or contract |
| JobModel.ParseExperienceLevel | server/models/Job.js:46-50 | a level is admitted exactly when it is entry, mid or senior |
| JobModel.TrimAll | server/models/Job.js:51-54 | each list entry is trimmed |
| JobModel.TrimAllIdempotent | server/models/Job.js:51-54 | trimming every entry again changes nothing |
| JobModel.NewJob | server/models/Job.js:3-63 | a job saves exactly when required paths are non-empty after trimming and the enums hold; the currency defaults to USD and the job starts active |
| UserModel.ParseRole | server/models/User.js:53-57 | a role is admitted exactly when it is jobseeker, referrer or recruiter |
| UserModel.ParseProvider | server/models/User.js:36-40 | a provider is admitted exactly when it is local or google |
| UserModel.WithDefaults | server/models/User.js:36-106 | absent provider, profile-complete and verified paths get local, false and false; present paths are kept |
| UserModel.GoogleAccountNeedsNoPassword | server/models/User.js:12-17 | the password is required only for local accounts |
| UserModel.ComparePassword | server/models/User.js:126-129 | false for a non-local account or one without a password; otherwise the hash comparison's answer |
| Text.Trim | client/src/components/profile/Profile.jsx:112 | the result neither starts nor ends with whitespace and is what remains of the input after whitespace is dropped from both ends |
| Text.TrimEmptyIffAllSpace | client/src/components/profile/Profile.jsx:112 | a text trims to empty exactly when it is all whitespace |
| Text.Includes | client/src/pages/jobs/BrowseJobs.jsx:35-37 | `includes` answers whether the needle occurs at some offset |
| Text.Split | client/src/components/jobs/JobPost.jsx:64 | at least one piece, none containing the separator, joining back to the input |
| Text.SplitJoin | client/src/components/jobs/JobPost.jsx:64 | splitting a join of separator-free pieces gives the pieces back |
| Lists.Filter | client/src/store/slices/applicantSlice.js:93-95 | `filter` keeps, in order, exactly the present elements that satisfy the predicate |
| Lists.FilterMultiplicity | client/src/store/slices/applicantSlice.js:93-95 | every satisfying element is kept as often as it occurs, and no other element is kept |
| Lists.ReplaceFirst | client/src/store/slices/jobSlice.js:209-219 | the first element with the id is replaced and every other position kept; a list without the id is unchanged |
| Lists.RemoveId | client/src/store/slices/jobSlice.js:229-233 | every element with the id is removed and every other one kept, in order |
| Lists.RemoveUniqueAt | client/src/store/slices/applicantSlice.js:93-95 | with unique ids, removing the id at position i deletes exactly position i |

## Left out

- `UserRoutes.NullBodyKeepsUser`: holds only for a collection with no duplicate email or Google id. The unique indexes keep every reachable collection that way (`UserRoutes.UpdateKeepsUnique`), and for a collection that already holds a duplicate the route answers 500.
- Network, database and browser I/O. Axios calls become `Outcome` values; MongoDB becomes an in-memory store; `localStorage` becomes the `stored` field of `AuthSlice.Session`; `setTimeout`, animations and swipe gestures are not modelled.
- Hashing, tokens and Google sign-in are not modelled: bcrypt, JWT signing and verification, and the OAuth client. `UserModel.ComparePassword` takes the hash comparison as a parameter.
- `server/routes/auth.js` is modelled only in how it assembles the new user's document. The duplicate-user lookup, token issuing and the login and Google routes are not part of this model.
- `server/routes/google.js`, `server/middleware/auth.js`, the GET /profile route and the notification slice are not part of this model.
- Timestamps and `createdAt` are not modelled. Newest-first order is taken as reverse insertion order.
- Population of referenced documents is modelled only by its result. A referral's `job._id` and a job's `postedBy` arrive as plain strings in `Views`. A referral whose job was deleted has no `jobId` (`Views.JobGone`). Deleting a job leaves its referrals, so such a referral makes `ApplicantBrowser.Render` throw on every render and `Applications.PostedCounts` throw whenever a job is posted.
- The locale date string used to group notifications is an input. Its formatting from `createdAt` is not modelled.
- Object key order: `Object.entries` lists integer-like keys first. Notification dates never look like integers, so insertion order is used.
- The user schema's `trim` and `lowercase` setters on email, names and profile texts are not applied by `UserRoutes.Merge` or `RegisterRoute.UserData`. The job schema's trim setters are applied, on creation and on update, including each entry of `requirements` and `skills`. Because email is not lower-cased, `UserRoutes.Duplicate` compares emails exactly as stored.
- `Forms.ToNumber`: decimal digits with surrounding whitespace only; signs, fractions, exponents and hexadecimal are reported as not-a-number. `NaN` is carried as JSON `null`, as `JSON.stringify` sends it.
- `Forms.NumberOf`: arrays and objects convert to not-a-number; JavaScript would convert some of them to numbers.
- `Forms.SetField`: a parent key holding something other than an object is treated as empty. JavaScript would spread a string's characters into the new object.
- `JobForm.ArrayChange`, `JobForm.AddItem`: a key not holding an array gives `None` where JavaScript throws, or for `AddItem` on a string spreads its characters.
- `RegisterForm.Submit`: password length counts characters, not UTF-16 code units. The browser's format check of the `type="email"` input is not modelled; only emptiness blocks the submit.
- `JobForm.Submit`, `JobPost.Submit`: the browser's sanitising of the `type="number"` salary inputs is not modelled; a bound counts as blank only when its value is absent, `null` or empty.
- `ReferralRoutes.UpdateStatus`: the requested status is always a string. A body without `status`, which Mongoose would save with the status unset and a log entry reading 'Status updated to undefined', is not modelled.
- `ApplicantReview.Settle`: assumes a successful reply carries the decided applicant's record. The request goes to `PUT /jobs/:jobId/applicants/:referralId` (client/src/store/slices/applicantSlice.js:41), which neither server/routes/jobs.js nor any other mounted router serves, so against this server only the failure branch is reachable.
- `JobBrowser.Click`, `JobBrowser.Reject`: the 300 ms animation delay before the cursor moves is not modelled; the cursor moves at once.
- `Text.ToLower` and `Text.Trim`: ASCII case folding and ASCII whitespace only.
- `Base.Json`: numbers are integers; fractions never arise on the modelled paths.
- Rendering, styling, routing and every component not named above are not modelled.

## Findings

| source | as written | input that shows it | evidently intended | confidence | as-written member | corrected member |
|---|---|---|---|---|---|---|
| client/src/components/jobs/ApplicantReview.jsx:71-85 | after a decision the cursor moves to min(cursor+1, L-1), where L is the queue length before the decision, but the slice has already removed the decided applicant from the queue | two pending applicants, cursor 0, accept succeeds: the queue has one applicant and the cursor is 1, so the "Invalid applicant data" screen shows; with three or more after the cursor, the next applicant is skipped | keep the cursor in place (clamped to the shorter queue) so the next pending applicant is shown | not executed; the input needs a server answering `PUT /jobs/:jobId/applicants/:referralId` (client/src/store/slices/applicantSlice.js:41), a route server/routes/jobs.js does not serve, so against this server every decision fails and the queue does not shrink | ApplicantReview.AsWrittenTwoPendingShowsInvalid | ApplicantReview.CorrectedShowsNext |
| server/routes/auth.js:28-41 | the password is copied into the new user only when the body says `authProvider: 'local'`, while the provider itself defaults to local when absent | the registration page's body (client/src/pages/auth/Register.jsx:61-62) carries no `authProvider`: the user gets the local provider, which requires a password, but no password, so `save()` fails for every registration from that page | copy the password whenever the provider, after its default, is local | not executed | RegisterRoute.PageRegistrationNeverSavesAsWritten | RegisterRoute.PageRegistrationSaves |

=== FILE: applicant_browser.dfy ===
/** The applicant browser: a swipe queue over the pending referrals of one
    job, read from the `jobs` slice, with a local cursor and one in-flight
    flag guarding both buttons. */
module ApplicantBrowser {
  import opened Base
  import opened Lists
  import opened Views
  import ReferralRoutes
  import ReferralModel
  import opened Swipe

  /** The referral belongs to the job and is still pending. */
  predicate InQueue(jobId: string, r: ReferralDoc) {
    r.body.jobId == Some(jobId) && IsPending(r)
  }

  /** The referrals of the job that are pending, in list order. */
  function Queue(referrals: seq<ReferralDoc>, jobId: string): (q: seq<ReferralDoc>)
    ensures forall k :: 0 <= k < |q| ==> InQueue(jobId, q[k])
    ensures Subseq(q, referrals)
  {
    Filter(referrals, (r: ReferralDoc) => InQueue(jobId, r))
  }

  /** Exactly the pending referrals of the job are queued. */
  lemma QueueMembers(referrals: seq<ReferralDoc>, jobId: string, x: ReferralDoc)
    ensures x in Queue(referrals, jobId) <==> x in referrals && x.body.jobId == Some(jobId) && IsPending(x)
  {
    FilterMembers(referrals, (r: ReferralDoc) => InQueue(jobId, r), x);
  }

  /** What the page renders. `Crashed` is a render that throws: React then
      shows no card and no buttons. */
  datatype Display = NoApplicants | CaughtUp | Showing(referral: ReferralDoc) | Crashed

  /** The card reads `applicant.firstName` of the referral at the cursor, so
      a referral without an `applicant` throws instead of showing. */
  function Card(r: ReferralDoc): (d: Display)
    ensures d.Showing? <==> r.body.applicant.Some?
    ensures d.Showing? ==> d.referral == r
    ensures !d.Showing? ==> d == Crashed
  {
    if r.body.applicant.Some? then Showing(r) else Crashed
  }

  /** An empty queue wins over the caught-up check; a cursor at or past the
      end is caught up; otherwise the card of the referral at the cursor,
      which shows only when that referral carries an applicant. */
  function Show(b: Browser, q: seq<ReferralDoc>): (d: Display)
    requires 0 <= b.currentIndex
    ensures d == NoApplicants <==> |q| == 0
    ensures d == CaughtUp <==> |q| > 0 && b.currentIndex >= |q|
    ensures d == Crashed <==> b.currentIndex < |q| && q[b.currentIndex].body.applicant.None?
    ensures d.Showing? <==> b.currentIndex < |q| && q[b.currentIndex].body.applicant.Some?
    ensures d.Showing? ==> d.referral == q[b.currentIndex]
  {
    if |q| == 0 then NoApplicants
    else if b.currentIndex >= |q| then CaughtUp
    else Card(q[b.currentIndex])
  }

  /** A whole render. Building the queue reads `ref.job._id` of every
      referral in the list, whatever its status, so one referral whose job
      was deleted throws before anything is shown; otherwise the queue is
      shown as above. */
  function Render(b: Browser, referrals: seq<ReferralDoc>, jobId: string): (d: Display)
    requires 0 <= b.currentIndex
    ensures (exists k :: 0 <= k < |referrals| && JobGone(referrals[k])) ==> d == Crashed
    ensures (forall k :: 0 <= k < |referrals| ==> !JobGone(referrals[k])) ==> d == Show(b, Queue(referrals, jobId))
  {
    if exists k :: 0 <= k < |referrals| && JobGone(referrals[k]) then Crashed
    else Show(b, Queue(referrals, jobId))
  }

  /** The referral documents the server sends carry no `applicant` field, so
      whenever a referral is due at the cursor the render throws: the page
      never shows a card, and therefore never offers the buttons. */
  lemma ServerReferralsNeverShown(b: Browser, referrals: seq<ReferralDoc>, jobId: string)
    requires 0 <= b.currentIndex
    requires forall k :: 0 <= k < |referrals| ==> referrals[k].body.applicant.None?
    ensures !Render(b, referrals, jobId).Showing?
    ensures var q := Queue(referrals, jobId);
            b.currentIndex < |q| ==> Render(b, referrals, jobId) == Crashed
  {
    var q := Queue(referrals, jobId);
    if b.currentIndex < |q| {
      var x := q[b.currentIndex];
      QueueMembers(referrals, jobId, x);
      var k :| 0 <= k < |referrals| && referrals[k] == x;
    }
  }

  /** The request settles: on success the cursor moves on by exactly one, on
      failure it stays; either way the flag is lowered. */
  function Finish(b: Browser, succeeded: bool): (r: Browser)
    ensures ButtonsEnabled(r)
    ensures succeeded ==> r.currentIndex == b.currentIndex + 1
    ensures !succeeded ==> r.currentIndex == b.currentIndex
  {
    Browser(if succeeded then b.currentIndex + 1 else b.currentIndex, false)
  }

  /** A decision is only possible on a shown card, so the cursor never
      passes the end of the queue: `0 <= cursor <= |q|` is kept by every
      decision and by Start Over. */
  lemma CursorBounded(b: Browser, q: seq<ReferralDoc>, succeeded: bool)
    requires 0 <= b.currentIndex && Show(b, q).Showing?
    ensures var r := Finish(Begin(b), succeeded); 0 <= r.currentIndex <= |q|
  {
  }

  /** `n` successful decisions in a row. */
  function DecideAll(b: Browser, n: nat): (r: Browser)
    ensures r.currentIndex == b.currentIndex + n
    ensures n > 0 ==> ButtonsEnabled(r)
    decreases n
  {
    if n == 0 then b else DecideAll(Finish(Begin(b), true), n - 1)
  }

  /** Deciding on every queued referral, each successfully, from the start
      reaches the caught-up screen after exactly `|q|` decisions. Each
      decision needs a shown card, so this run needs referrals that carry an
      applicant (see `ServerReferralsNeverShown`). */
  lemma AllDecidedIsCaughtUp(q: seq<ReferralDoc>)
    requires |q| > 0
    ensures Show(DecideAll(Start, |q|), q) == CaughtUp
  {
  }

  /** The updated status goes to the `referrals` slice, not to the `jobs`
      slice the queue is read from; the queue therefore does not change, and
      the cursor advancing by one is what brings up the next referral's card
      (which throws in turn when that referral has no applicant). */
  lemma NextReferralAfterSuccess(b: Browser, q: seq<ReferralDoc>)
    requires 0 <= b.currentIndex && b.currentIndex + 1 < |q|
    ensures Show(Finish(Begin(b), true), q) == Card(q[b.currentIndex + 1])
  {
  }

  /** Against the server's status route the accept button never succeeds:
      'accepted' is outside the referral status enumeration, so the answer
      is never a success, the cursor stays and the store is unchanged. */
  lemma AcceptNeverAdvances(b: Browser, st: ReferralRoutes.Store, caller: nat, id: nat)
    ensures var step := ReferralRoutes.UpdateStatus(st, caller, id, AcceptedName);
            && step.store == st
            && Finish(Begin(b), step.reply.Ok?).currentIndex == b.currentIndex
  {
    ReferralRoutes.AcceptedNeverStored(st, caller, id);
  }

  /** The reject button, by contrast, succeeds for the referral's referrer. */
  lemma RejectAdvancesForReferrer(b: Browser, st: ReferralRoutes.Store, k: nat)
    requires ReferralRoutes.Valid(st) && k < |st.referrals|
    ensures var x := st.referrals[k];
            var step := ReferralRoutes.UpdateStatus(st, x.referrer, x.id, RejectedName);
            step.reply.Ok? && Finish(Begin(b), step.reply.Ok?).currentIndex == b.currentIndex + 1
  {
    ReferralRoutes.AnyTransitionAllowed(st, st.referrals[k].referrer, k, ReferralModel.Rejected);
  }
}

=== FILE: applicant_review.dfy ===
/** The applicant review screen: the pending queue drawn from the
    `applicants` slice, the slice's cursor, one in-flight flag per decision
    button, Previous/Next, and which of five displays is shown. */
module ApplicantReview {
  import opened Base
  import opened Lists
  import opened Views
  import ApplicantSlice

  type Slice = ApplicantSlice.State

  /** The slice together with the component's two in-flight flags. */
  datatype Review = Review(slice: Slice, isAccepting: bool, isRejecting: bool)

  /** The applicants still pending, in list order. */
  function Queue(s: Slice): (q: seq<ReferralDoc>)
    ensures forall k :: 0 <= k < |q| ==> IsPending(q[k])
    ensures Subseq(q, s.applicants)
  {
    Filter(s.applicants, IsPending)
  }

  /** An applicant is pending and in the list exactly when it is in the
      queue. */
  lemma QueueMembers(s: Slice, x: ReferralDoc)
    ensures x in Queue(s) <==> x in s.applicants && x.body.status == PendingName
  {
    FilterMembers(s.applicants, IsPending, x);
  }

  /** `pendingApplicants[currentIndex]`: defined only at a position of the
      queue. */
  function Current(s: Slice): (r: Option<ReferralDoc>)
    ensures r.Some? <==> 0 <= s.currentIndex < |Queue(s)|
    ensures r.Some? ==> r.value == Queue(s)[s.currentIndex]
  {
    var q := Queue(s);
    if 0 <= s.currentIndex < |q| then Some(q[s.currentIndex]) else None
  }

  datatype Display = Loading | Failed | NoPending | Invalid | Showing(applicant: ReferralDoc)

  /** Loading first, then a (truthy) error, then an empty queue, then a
      missing applicant or one without a referee, and only then the
      applicant. */
  function Show(s: Slice): (d: Display)
    ensures s.loading <==> d == Loading
    ensures d == Failed <==> !s.loading && s.error.Some? && s.error.value != ""
    ensures d == NoPending <==> !s.loading && (s.error.None? || s.error.value == "") && |Queue(s)| == 0
    ensures d.Showing? <==>
              && !s.loading && (s.error.None? || s.error.value == "")
              && Current(s).Some? && TruthyOpt(Current(s).value.body.referee)
    ensures d.Showing? ==> d.applicant == Queue(s)[s.currentIndex] && IsPending(d.applicant)
  {
    if s.loading then Loading
    else if s.error.Some? && s.error.value != "" then Failed
    else if |Queue(s)| == 0 then NoPending
    else
      match Current(s)
      case None => Invalid
      case Some(a) => if TruthyOpt(a.body.referee) then Showing(a) else Invalid
  }

  datatype Decision = Accept | Reject

  /** The status each button sends. */
  function DecisionStatus(d: Decision): string {
    match d
    case Accept => AcceptedName
    case Reject => RejectedName
  }

  /** Pressing a button raises only its own flag. */
  function Begin(r: Review, d: Decision): (r': Review)
    ensures r'.slice == r.slice
    ensures d == Accept ==> r'.isAccepting && r'.isRejecting == r.isRejecting
    ensures d == Reject ==> r'.isRejecting && r'.isAccepting == r.isAccepting
  {
    match d
    case Accept => r.(isAccepting := true)
    case Reject => r.(isRejecting := true)
  }

  /** Each button is disabled by its own flag and by nothing else. */
  predicate Enabled(r: Review, d: Decision) {
    match d
    case Accept => !r.isAccepting
    case Reject => !r.isRejecting
  }

  /** While an accept is in flight the reject button stays enabled, so both
      requests can be in flight at once. */
  lemma BothDecisionsCanBeInFlight(r: Review)
    requires !r.isRejecting
    ensures Enabled(Begin(r, Accept), Reject)
    ensures var r2 := Begin(Begin(r, Accept), Reject); r2.isAccepting && r2.isRejecting
  {
  }

  /** The slice after the status request settles: the pending case, then the
      fulfilled case (the server answers with the decided applicant's
      record) or the rejected one. */
  function Settle(s: Slice, decided: ReferralDoc, o: Outcome<ReferralView>): (r: Slice)
    ensures o.Success? ==> r == ApplicantSlice.Reduce(ApplicantSlice.Reduce(s, ApplicantSlice.UpdatePending),
                                                      ApplicantSlice.UpdateFulfilled(Doc(decided.id, o.data)))
    ensures o.Failure? ==> && r.applicants == s.applicants && r.currentIndex == s.currentIndex && !r.loading
                           && r.error == Some(MessageOr(o.body, ApplicantSlice.UpdateFailed))
  {
    var s1 := ApplicantSlice.Reduce(s, ApplicantSlice.UpdatePending);
    match o
    case Success(data) => ApplicantSlice.Reduce(s1, ApplicantSlice.UpdateFulfilled(Doc(decided.id, data)))
    case Failure(body, _) => ApplicantSlice.Reduce(s1, ApplicantSlice.UpdateRejected(body))
  }

  /** `handleAccept` / `handleReject` as written: when an applicant is at the
      cursor, send the decision, wait, then set the cursor to
      `min(cursor + 1, L - 1)` with `L` the queue length read before the
      request; finally lower the button's flag. Without an applicant only
      the flag moves. */
  function DecideAsWritten(r: Review, d: Decision, o: Outcome<ReferralView>): (r': Review)
    ensures Current(r.slice).None? ==> r'.slice == r.slice
    ensures Current(r.slice).Some? ==>
              var ci := r.slice.currentIndex;
              var l := |Queue(r.slice)|;
              && r'.slice == Settle(r.slice, Current(r.slice).value, o).(currentIndex := if ci + 1 < l - 1 then ci + 1 else l - 1)
    ensures d == Accept ==> !r'.isAccepting && r'.isRejecting == r.isRejecting
    ensures d == Reject ==> !r'.isRejecting && r'.isAccepting == r.isAccepting
  {
    var started := Begin(r, d);
    var s := r.slice;
    var q := Queue(s);
    var slice' :=
      match Current(s)
      case None => s
      case Some(a) =>
        var settled := Settle(s, a, o);
        var next := if s.currentIndex + 1 < |q| - 1 then s.currentIndex + 1 else |q| - 1;
        ApplicantSlice.Reduce(settled, ApplicantSlice.SetCurrentIndex(next));
    match d
    case Accept => started.(slice := slice', isAccepting := false)
    case Reject => started.(slice := slice', isRejecting := false)
  }

  /** After a successful decision in a queue with distinct ids, the queue is
      the old one without the decided position. */
  lemma QueueAfterSuccess(s: Slice, data: ReferralView)
    requires UniqueIds(Queue(s)) && 0 <= s.currentIndex < |Queue(s)|
    ensures var q := Queue(s);
            var ci := s.currentIndex;
            Queue(Settle(s, q[ci], Success(data))) == q[..ci] + q[ci + 1..]
  {
    var q := Queue(s);
    var ci := s.currentIndex;
    var p := (x: ReferralDoc) => x.id != q[ci].id;
    FilterCommute(s.applicants, p, IsPending);
    RemoveUniqueAt(q, ci);
  }

  /** The defect: a successful decision with at least two applicants after
      the current one moves the view past the next applicant, whom the
      reviewer never sees at that cursor. */
  lemma AsWrittenSkipsNext(r: Review, d: Decision, data: ReferralView)
    requires UniqueIds(Queue(r.slice))
    requires 0 <= r.slice.currentIndex && r.slice.currentIndex + 2 < |Queue(r.slice)|
    ensures var q := Queue(r.slice);
            var ci := r.slice.currentIndex;
            var r' := DecideAsWritten(r, d, Success(data));
            && Current(r'.slice) == Some(q[ci + 2])
            && q[ci + 1] in Queue(r'.slice)
  {
    var q := Queue(r.slice);
    var ci := r.slice.currentIndex;
    QueueAfterSuccess(r.slice, data);
    var r' := DecideAsWritten(r, d, Success(data));
    assert Queue(r'.slice) == Queue(Settle(r.slice, q[ci], Success(data)));
    assert Queue(r'.slice)[ci + 1] == q[ci + 2];
    assert Queue(r'.slice)[ci] == q[ci + 1];
  }

  /** The defect, smallest case: with two pending applicants, deciding the
      first successfully leaves one applicant and a cursor past it, so the
      screen shows "Invalid Applicant Data". */
  lemma AsWrittenTwoPendingShowsInvalid(r: Review, d: Decision, data: ReferralView)
    requires UniqueIds(Queue(r.slice)) && |Queue(r.slice)| == 2 && r.slice.currentIndex == 0
    ensures var r' := DecideAsWritten(r, d, Success(data));
            |Queue(r'.slice)| == 1 && r'.slice.currentIndex == 1 && Show(r'.slice) == Invalid
  {
    QueueAfterSuccess(r.slice, data);
    var r' := DecideAsWritten(r, d, Success(data));
    assert Queue(r'.slice) == Queue(Settle(r.slice, Queue(r.slice)[0], Success(data)));
  }

  /** The intended behaviour: after the request settles, clamp the cursor to
      the queue as it now is, so that it stays on the position the next
      applicant has moved into. */
  function DecideCorrected(r: Review, d: Decision, o: Outcome<ReferralView>): (r': Review)
    ensures Current(r.slice).None? ==> r'.slice == r.slice
    ensures Current(r.slice).Some? ==>
              var settled := Settle(r.slice, Current(r.slice).value, o);
              r'.slice == settled.(currentIndex := ApplicantSlice.Clamp(r.slice.currentIndex, |Queue(settled)|))
    ensures d == Accept ==> !r'.isAccepting && r'.isRejecting == r.isRejecting
    ensures d == Reject ==> !r'.isRejecting && r'.isAccepting == r.isAccepting
  {
    var started := Begin(r, d);
    var s := r.slice;
    var slice' :=
      match Current(s)
      case None => s
      case Some(a) =>
        var settled := Settle(s, a, o);
        ApplicantSlice.Reduce(settled, ApplicantSlice.SetCurrentIndex(ApplicantSlice.Clamp(s.currentIndex, |Queue(settled)|)));
    match d
    case Accept => started.(slice := slice', isAccepting := false)
    case Reject => started.(slice := slice', isRejecting := false)
  }

  /** Corrected: after a successful decision the applicant at the cursor is
      the one after the decided applicant, or the one before it when the
      decided applicant was last; the cursor is on the queue whenever the
      queue is not empty. */
  lemma CorrectedShowsNext(r: Review, d: Decision, data: ReferralView)
    requires UniqueIds(Queue(r.slice)) && 0 <= r.slice.currentIndex < |Queue(r.slice)|
    ensures var q := Queue(r.slice);
            var ci := r.slice.currentIndex;
            var r' := DecideCorrected(r, d, Success(data));
            && (ci + 1 < |q| ==> Current(r'.slice) == Some(q[ci + 1]))
            && (ci + 1 == |q| && ci > 0 ==> Current(r'.slice) == Some(q[ci - 1]))
            && (|Queue(r'.slice)| > 0 ==> Current(r'.slice).Some?)
  {
    var q := Queue(r.slice);
    var ci := r.slice.currentIndex;
    QueueAfterSuccess(r.slice, data);
    var r' := DecideCorrected(r, d, Success(data));
    var settled := Settle(r.slice, q[ci], Success(data));
    assert Queue(r'.slice) == Queue(settled);
    if ci + 1 < |q| {
      assert Queue(r'.slice)[ci] == q[ci + 1];
    }
    if ci + 1 == |q| && ci > 0 {
      assert Queue(r'.slice)[ci - 1] == q[ci - 1];
    }
  }

  /** Corrected: a failed request keeps the cursor on the same applicant. */
  lemma CorrectedKeepsApplicantOnFailure(r: Review, d: Decision, body: Option<ErrorBody>, m: Option<string>)
    requires 0 <= r.slice.currentIndex < |Queue(r.slice)|
    ensures var r' := DecideCorrected(r, d, Failure(body, m));
            Current(r'.slice) == Current(r.slice)
  {
    var r' := DecideCorrected(r, d, Failure(body, m));
    var settled := Settle(r.slice, Current(r.slice).value, Failure(body, m));
    assert Queue(settled) == Queue(r.slice);
  }

  /** Previous: one step back, never below 0; disabled at 0. */
  function Previous(s: Slice): (r: Slice)
    ensures r == s.(currentIndex := if s.currentIndex - 1 > 0 then s.currentIndex - 1 else 0)
  {
    ApplicantSlice.Reduce(s, ApplicantSlice.SetCurrentIndex(if 0 > s.currentIndex - 1 then 0 else s.currentIndex - 1))
  }

  predicate PreviousEnabled(s: Slice) {
    s.currentIndex != 0
  }

  /** Next: one step on, never past the last pending applicant; disabled at
      the last one. */
  function Next(s: Slice): (r: Slice)
    ensures var l := |Queue(s)|;
            r == s.(currentIndex := if l - 1 < s.currentIndex + 1 then l - 1 else s.currentIndex + 1)
  {
    var l := |Queue(s)|;
    ApplicantSlice.Reduce(s, ApplicantSlice.SetCurrentIndex(if l - 1 < s.currentIndex + 1 then l - 1 else s.currentIndex + 1))
  }

  predicate NextEnabled(s: Slice) {
    s.currentIndex != |Queue(s)| - 1
  }

  /** From any position on a non-empty queue, Previous and Next stay on the
      queue, and an enabled Next followed by Previous comes back. */
  lemma NavigationStaysOnQueue(s: Slice)
    requires 0 <= s.currentIndex < |Queue(s)|
    ensures Current(Previous(s)).Some? && Current(Next(s)).Some?
    ensures NextEnabled(s) ==> Previous(Next(s)).currentIndex == s.currentIndex
    ensures PreviousEnabled(s) ==> Next(Previous(s)).currentIndex == s.currentIndex
  {
    assert Queue(Next(s)) == Queue(s);
    assert Queue(Previous(s)) == Queue(s);
  }
}

=== FILE: applicant_slice.dfy ===
/** The `applicants` slice: the applicant list under review, the review
    cursor, the loading flag and the error message. */
module ApplicantSlice {
  import opened Base
  import opened Lists
  import opened Views

  datatype State = State(applicants: seq<ReferralDoc>, loading: bool, error: Option<string>, currentIndex: int)

  /** An empty list, cursor 0, not loading, no error. */
  const Initial: State := State([], false, None, 0)

  const FetchFailed: string := "Failed to fetch applicants"
  const UpdateFailed: string := "Failed to update applicant status"

  datatype Action =
    | SetCurrentIndex(index: int)
    | ClearApplicants
    | FetchPending
    | FetchFulfilled(list: seq<ReferralDoc>)
    | FetchRejected(payload: Option<ErrorBody>)
    | UpdatePending
    | UpdateFulfilled(updated: ReferralDoc)
    | UpdateRejected(payload: Option<ErrorBody>)

  /** The cursor points at an applicant, or is 0 when there is none. */
  predicate CursorOk(s: State) {
    0 <= s.currentIndex && (s.currentIndex < |s.applicants| || s.currentIndex == 0)
  }

  /** The clamp after a removal: a cursor past the end moves to the last
      position (0 for an empty list); any other cursor stays. */
  function Clamp(index: int, len: nat): (r: int)
    ensures index < len ==> r == index
    ensures index >= len ==> r == if len == 0 then 0 else len - 1
    ensures 0 <= index ==> 0 <= r && (r < len || r == 0)
  {
    if index >= len then (if len - 1 > 0 then len - 1 else 0) else index
  }

  function Reduce(s: State, a: Action): (r: State)
    ensures a.SetCurrentIndex? ==> r == s.(currentIndex := a.index)
    ensures a.ClearApplicants? ==> r.applicants == [] && r.currentIndex == 0 && r.error.None?
                                   && r.loading == s.loading
    ensures a.FetchPending? || a.UpdatePending? ==>
              r == s.(loading := true, error := None)
    ensures a.FetchFulfilled? ==> r == s.(loading := false, applicants := a.list, currentIndex := 0)
    ensures a.FetchRejected? ==> r == s.(loading := false, error := Some(MessageOr(a.payload, FetchFailed)))
    ensures a.UpdateRejected? ==> r == s.(loading := false, error := Some(MessageOr(a.payload, UpdateFailed)))
    ensures a.UpdateFulfilled? ==>
              && !r.loading && r.error == s.error
              && r.applicants == RemoveId(s.applicants, a.updated.id)
              && r.currentIndex == Clamp(s.currentIndex, |r.applicants|)
  {
    match a
    case SetCurrentIndex(i) => s.(currentIndex := i)
    case ClearApplicants => s.(applicants := [], currentIndex := 0, error := None)
    case FetchPending => s.(loading := true, error := None)
    case FetchFulfilled(list) => s.(loading := false, applicants := list, currentIndex := 0)
    case FetchRejected(p) => s.(loading := false, error := Some(MessageOr(p, FetchFailed)))
    case UpdatePending => s.(loading := true, error := None)
    case UpdateFulfilled(d) =>
      var rest := Filter(s.applicants, (x: ReferralDoc) => x.id != d.id);
      var index := if s.currentIndex >= |rest| then (if |rest| - 1 > 0 then |rest| - 1 else 0) else s.currentIndex;
      s.(loading := false, applicants := rest, currentIndex := index)
    case UpdateRejected(p) => s.(loading := false, error := Some(MessageOr(p, UpdateFailed)))
  }

  /** The initial state satisfies the cursor invariant. */
  lemma InitialCursorOk()
    ensures CursorOk(Initial)
  {
  }

  /** Every action except a raw `setCurrentIndex` keeps the cursor on an
      applicant (or at 0). */
  lemma ReduceKeepsCursorOk(s: State, a: Action)
    requires CursorOk(s) && !a.SetCurrentIndex?
    ensures CursorOk(Reduce(s, a))
  {
  }

  /** `setCurrentIndex` does not clamp: it can put the cursor past the end. */
  lemma SetCurrentIndexUnclamped(s: State)
    ensures !CursorOk(Reduce(s, SetCurrentIndex(|s.applicants| + 1)))
  {
  }

  /** A successful update removes the decided applicant and keeps every other
      one, in order. */
  lemma UpdateRemovesDecided(s: State, d: ReferralDoc)
    ensures var r := Reduce(s, UpdateFulfilled(d));
            && (forall x :: x in r.applicants <==> x in s.applicants && x.id != d.id)
            && Subseq(r.applicants, s.applicants)
            && |r.applicants| <= |s.applicants|
  {
  }

  /** In a list with unique ids, a successful update of the applicant at
      position `i` deletes exactly that position. */
  lemma UpdateDeletesPosition(s: State, i: nat, d: ReferralDoc)
    requires UniqueIds(s.applicants) && i < |s.applicants| && d.id == s.applicants[i].id
    ensures Reduce(s, UpdateFulfilled(d)).applicants == s.applicants[..i] + s.applicants[i + 1..]
  {
    RemoveUniqueAt(s.applicants, i);
  }
}

=== FILE: applications.dfy ===
/** The applications page: the jobs posted by, and the referrals applied
    for by, whoever the auth slice's `user?._id` names; the per-job
    applicant counts; and the status badges. */
module Applications {
  import opened Base
  import opened Lists
  import opened Views
  import ReferralModel
  import AuthSlice

  /** `user?._id`: present only for a user object holding a string `_id`. */
  function UserId(user: Option<Json>): (r: Option<string>)
    ensures r.Some? <==> user.Some? && user.value.Obj? && "_id" in user.value.fields && user.value.fields["_id"].Str?
    ensures r.Some? ==> user.value.fields["_id"] == Str(r.value)
  {
    if user.Some? && user.value.Obj? && "_id" in user.value.fields && user.value.fields["_id"].Str?
    then Some(user.value.fields["_id"].s)
    else None
  }

  /** Signing in through the login, register or Google routes stores the
      routes' user object, which has `id` and no `_id`; nothing in the client
      replaces it with the full profile. So a freshly signed-in user's id is
      `undefined`: no server job, always posted by someone, is listed as
      theirs, and every applicant-less referral is listed as applied for. */
  lemma SignedInUserHasNoId(se: AuthSlice.Session, token: string, id: string, email: Json, firstName: Json,
                            lastName: Json, role: Json, jobs: seq<JobDoc>, referrals: seq<ReferralDoc>)
    requires forall k :: 0 <= k < |jobs| ==> jobs[k].body.postedBy.Some?
    requires forall k :: 0 <= k < |referrals| ==> referrals[k].body.applicant.None?
    ensures var u := AuthSlice.Reduce(se, AuthSlice.SignedIn(AuthSlice.AuthData(
                       AuthSlice.RouteUser(id, email, firstName, lastName, role), token))).state.user;
            && UserId(u).None?
            && PostedJobs(jobs, UserId(u)) == []
            && AppliedReferrals(referrals, UserId(u)) == referrals
  {
    FilterNone(jobs, (d: JobDoc) => d.body.postedBy == None);
    EverythingAppliedWithoutUserId(referrals);
  }

  /** `job.postedBy === user?._id`: both sides may be `undefined`, and then
      they are equal. */
  function PostedJobs(jobs: seq<JobDoc>, userId: Option<string>): (r: seq<JobDoc>)
    ensures Subseq(r, jobs)
    ensures forall d :: d in r <==> d in jobs && d.body.postedBy == userId
  {
    var p := (d: JobDoc) => d.body.postedBy == userId;
    forall d ensures d in Filter(jobs, p) <==> d in jobs && d.body.postedBy == userId {
      FilterMembers(jobs, p, d);
    }
    Filter(jobs, p)
  }

  /** `ref.applicant === user?._id`. */
  function AppliedReferrals(referrals: seq<ReferralDoc>, userId: Option<string>): (r: seq<ReferralDoc>)
    ensures Subseq(r, referrals)
    ensures forall d :: d in r <==> d in referrals && d.body.applicant == userId
  {
    var p := (d: ReferralDoc) => d.body.applicant == userId;
    forall d ensures d in Filter(referrals, p) <==> d in referrals && d.body.applicant == userId {
      FilterMembers(referrals, p, d);
    }
    Filter(referrals, p)
  }

  /** The server's referral documents have no `applicant` field: for a user
      object that does carry an `_id` (a profile fetched from the server),
      the applied list is always empty. */
  lemma NothingAppliedForServerReferrals(referrals: seq<ReferralDoc>, userId: string)
    requires forall k :: 0 <= k < |referrals| ==> referrals[k].body.applicant.None?
    ensures AppliedReferrals(referrals, Some(userId)) == []
  {
    FilterNone(referrals, (d: ReferralDoc) => d.body.applicant == Some(userId));
  }

  /** Without a user `_id` (signed out, or signed in through the routes, as
      `SignedInUserHasNoId` shows), every such referral counts as applied
      for, since `undefined === undefined`. */
  lemma EverythingAppliedWithoutUserId(referrals: seq<ReferralDoc>)
    requires forall k :: 0 <= k < |referrals| ==> referrals[k].body.applicant.None?
    ensures AppliedReferrals(referrals, None) == referrals
  {
    FilterAll(referrals, (d: ReferralDoc) => d.body.applicant == None);
  }

  datatype Counts = Counts(total: nat, pending: nat, accepted: nat, rejected: nat)

  predicate ForJob(jobId: string, r: ReferralDoc) {
    r.body.jobId == Some(jobId)
  }

  /** `referrals.filter(ref => ref.job._id === jobId)`. */
  function Applicants(referrals: seq<ReferralDoc>, jobId: string): (r: seq<ReferralDoc>)
    ensures Subseq(r, referrals)
    ensures forall d :: d in r <==> d in referrals && ForJob(jobId, d)
  {
    var f := (r: ReferralDoc) => ForJob(jobId, r);
    forall d ensures d in Filter(referrals, f) <==> d in referrals && ForJob(jobId, d) {
      FilterMembers(referrals, f, d);
    }
    Filter(referrals, f)
  }

  predicate IsAccepted(r: ReferralDoc) {
    r.body.status == AcceptedName
  }

  predicate IsRejected(r: ReferralDoc) {
    r.body.status == RejectedName
  }

  /** `getApplicantCounts`: how many referrals name the job, and how many of
      those are pending, accepted and rejected. The three never add up to
      more than the total, and add up to it exactly when every referral for
      the job has one of those three statuses. */
  function ApplicantCounts(referrals: seq<ReferralDoc>, jobId: string): (c: Counts)
    ensures c.total == |Applicants(referrals, jobId)|
    ensures c.pending + c.accepted + c.rejected <= c.total
    ensures (forall k :: 0 <= k < |referrals| && ForJob(jobId, referrals[k]) ==>
               referrals[k].body.status in {PendingName, AcceptedName, RejectedName})
            ==> c.pending + c.accepted + c.rejected == c.total
  {
    var applicants := Applicants(referrals, jobId);
    CountThree(applicants, IsPending, IsAccepted, IsRejected);
    ApplicantStatuses(referrals, jobId);
    Counts(|applicants|, Count(applicants, IsPending), Count(applicants, IsAccepted),
           Count(applicants, IsRejected))
  }

  /** When every referral for the job has one of the three statuses, so does
      every applicant the count filters out. */
  lemma ApplicantStatuses(referrals: seq<ReferralDoc>, jobId: string)
    ensures var applicants := Applicants(referrals, jobId);
            (forall k :: 0 <= k < |referrals| && ForJob(jobId, referrals[k]) ==>
               referrals[k].body.status in {PendingName, AcceptedName, RejectedName})
            ==> forall k :: 0 <= k < |applicants| ==>
                  IsPending(applicants[k]) || IsAccepted(applicants[k]) || IsRejected(applicants[k])
  {
    var applicants := Applicants(referrals, jobId);
    if forall k :: 0 <= k < |referrals| && ForJob(jobId, referrals[k]) ==>
         referrals[k].body.status in {PendingName, AcceptedName, RejectedName} {
      forall k | 0 <= k < |applicants|
        ensures IsPending(applicants[k]) || IsAccepted(applicants[k]) || IsRejected(applicants[k])
      {
        assert applicants[k] in applicants;
      }
    }
  }

  /** The "My Job Postings" tab computes the counts of every posted job in
      turn, each reading `ref.job._id` of every referral: with at least one
      posted job, one referral whose job was deleted makes the render throw
      (`None`). With no posted job nothing is counted. */
  function PostedCounts(posted: seq<JobDoc>, referrals: seq<ReferralDoc>): (r: Option<seq<Counts>>)
    ensures r.None? <==> |posted| > 0 && exists k :: 0 <= k < |referrals| && JobGone(referrals[k])
    ensures r.Some? ==> |r.value| == |posted|
    ensures r.Some? ==> forall i :: 0 <= i < |posted| ==> r.value[i] == ApplicantCounts(referrals, posted[i].id)
  {
    if |posted| > 0 && exists k :: 0 <= k < |referrals| && JobGone(referrals[k]) then None
    else Some(seq(|posted|, i requires 0 <= i < |posted| => ApplicantCounts(referrals, posted[i].id)))
  }

  /** The review button is disabled when no referral names the job. */
  predicate ReviewDisabled(c: Counts) {
    c.total == 0
  }

  /** The button is disabled exactly when the job has no referral at all. */
  lemma ReviewDisabledIffNoReferral(referrals: seq<ReferralDoc>, jobId: string)
    ensures ReviewDisabled(ApplicantCounts(referrals, jobId))
            <==> forall k :: 0 <= k < |referrals| ==> !ForJob(jobId, referrals[k])
  {
    var applicants := Applicants(referrals, jobId);
    if applicants != [] {
      assert applicants[0] in applicants;
    }
    if exists k :: 0 <= k < |referrals| && ForJob(jobId, referrals[k]) {
      var k :| 0 <= k < |referrals| && ForJob(jobId, referrals[k]);
      assert referrals[k] in applicants;
    }
  }

  datatype Badge = PendingBadge | AcceptedBadge | RejectedBadge | UnknownBadge

  /** `getStatusBadge`: three named statuses, everything else Unknown. */
  function StatusBadge(status: string): (b: Badge)
    ensures b == PendingBadge <==> status == PendingName
    ensures b == AcceptedBadge <==> status == AcceptedName
    ensures b == RejectedBadge <==> status == RejectedName
    ensures b == UnknownBadge <==> status !in {PendingName, AcceptedName, RejectedName}
  {
    if status == PendingName then PendingBadge
    else if status == AcceptedName then AcceptedBadge
    else if status == RejectedName then RejectedBadge
    else UnknownBadge
  }

  /** Of the statuses the server can store, three of five show as Unknown,
      and none shows as Accepted. */
  lemma StoredStatusBadges(s: ReferralModel.Status)
    ensures StatusBadge(ReferralModel.StatusName(s)) != AcceptedBadge
    ensures StatusBadge(ReferralModel.StatusName(s)) == UnknownBadge
            <==> s in {ReferralModel.Shortlisted, ReferralModel.Referred, ReferralModel.Hired}
  {
  }

  /** So no stored referral is ever counted as accepted. */
  lemma StoredNeverCountedAccepted(referrals: seq<ReferralDoc>, jobId: string)
    requires forall k :: 0 <= k < |referrals| ==>
               ReferralModel.ParseStatus(referrals[k].body.status).Some?
    ensures ApplicantCounts(referrals, jobId).accepted == 0
  {
    var applicants := Applicants(referrals, jobId);
    forall k | 0 <= k < |applicants| ensures !IsAccepted(applicants[k]) {
      assert applicants[k] in applicants;
      ReferralModel.AcceptedIsNotAStatus();
    }
    FilterNone(applicants, IsAccepted);
  }
}

=== FILE: auth_slice.dfy ===
/** The `auth` slice: the signed-in user, the session token, the
    authenticated flag, the loading flag and the last error; together with
    its thunks' error-message fallbacks and the token they keep in the
    browser's storage. */
module AuthSlice {
  import opened Base

  datatype State = State(
    user: Option<Json>,
    token: Option<string>,
    isAuthenticated: bool,
    loading: bool,
    error: Option<string>)

  /** The browser storage slot holding the token, next to the slice state. */
  datatype Session = Session(stored: Option<string>, state: State)

  /** On load the token is whatever storage holds; nobody is signed in yet. */
  function Initial(stored: Option<string>): (r: Session)
    ensures r.state.token == stored && r.stored == stored
    ensures r.state.user.None? && !r.state.isAuthenticated && !r.state.loading && r.state.error.None?
  {
    Session(stored, State(None, stored, false, false, None))
  }

  /** The `user` object the register and login routes answer with: the
      document's `_id` travels under the key `id`, and no `_id` is sent. */
  function RouteUser(id: string, email: Json, firstName: Json, lastName: Json, role: Json): (u: Json)
    ensures u.Obj? && "id" in u.fields && u.fields["id"] == Str(id)
    ensures "_id" !in u.fields
    ensures forall k :: k in u.fields ==> k in {"id", "email", "firstName", "lastName", "role"}
  {
    Obj(map["id" := Str(id), "email" := email, "firstName" := firstName, "lastName" := lastName, "role" := role])
  }

  /** What a successful sign-in returns. */
  datatype AuthData = AuthData(user: Json, token: string)

  /** What a Google sign-in returns: either a session, or a request to
      finish registration with the Google profile. */
  datatype GoogleData = GoogleData(requiresRegistration: bool, googleData: Option<Json>, user: Json, token: string)

  /** A rejection value: a message, or the Google registration request. */
  datatype Reject = Reject(message: Option<string>, requiresRegistration: bool, googleData: Option<Json>)

  datatype Settled<T> = Fulfilled(value: T) | Rejected(reason: Reject)

  /** A thunk's effect: the storage slot afterwards, and how it settled. */
  datatype Run<T> = Run(stored: Option<string>, settled: Settled<T>)

  const RegisterFailed: string := "Registration failed. Please try again."
  const LoginFailed: string := "Login failed"
  const GoogleFailed: string := "Google authentication failed. Please try again."
  const CompleteFailed: string := "Registration failed"
  const CurrentUserFailed: string := "Failed to get user data"
  const ProfileFailed: string := "Failed to update profile"

  /** A plain message rejection. */
  function Fail(message: string): Reject {
    Reject(Some(message), false, None)
  }

  /** The other thunks: the server's message, else the thrown error's
      message, else the fixed fallback. */
  function AnyMessageOr<T>(o: Outcome<T>, fallback: string): (r: string)
    requires o.Failure?
    ensures var m := BodyMessage(o.body);
            && (m.Some? && m.value != "" ==> r == m.value)
            && ((m.None? || m.value == "") && o.errorMessage.Some? && o.errorMessage.value != ""
                ==> r == o.errorMessage.value)
            && ((m.None? || m.value == "") && (o.errorMessage.None? || o.errorMessage.value == "")
                ==> r == fallback)
  {
    StrOr2(BodyMessage(o.body), o.errorMessage, fallback)
  }

  /** The sign-in thunks other than Google's that store the returned token on success. */
  datatype SignIn = Register | Login | CompleteGoogleRegistration

  function SignInFallback(k: SignIn): string {
    match k
    case Register => RegisterFailed
    case Login => LoginFailed
    case CompleteGoogleRegistration => CompleteFailed
  }

  /** `register`, `login` and `completeGoogleRegistration`: on success the
      token goes to storage and the data is the result; on failure storage is
      untouched and the rejection carries the thunk's message. */
  function SignInThunk(k: SignIn, stored: Option<string>, o: Outcome<AuthData>): (r: Run<AuthData>)
    ensures o.Success? ==> r == Run(Some(o.data.token), Fulfilled(o.data))
    ensures o.Failure? ==> r.stored == stored && r.settled.Rejected?
    ensures o.Failure? && k == Register ==> r.settled.reason == Fail(MessageOr(o.body, RegisterFailed))
    ensures o.Failure? && k != Register ==> r.settled.reason == Fail(AnyMessageOr(o, SignInFallback(k)))
  {
    match o
    case Success(d) => Run(Some(d.token), Fulfilled(d))
    case Failure(_, _) =>
      if k == Register then Run(stored, Rejected(Fail(MessageOr(o.body, RegisterFailed))))
      else Run(stored, Rejected(Fail(AnyMessageOr(o, SignInFallback(k)))))
  }

  /** `googleAuth`: a response asking for registration is a rejection that
      carries the Google profile and no message, and stores no token. */
  function GoogleAuthThunk(stored: Option<string>, o: Outcome<GoogleData>): (r: Run<AuthData>)
    ensures o.Success? && o.data.requiresRegistration ==>
              r == Run(stored, Rejected(Reject(None, true, o.data.googleData)))
    ensures o.Success? && !o.data.requiresRegistration ==>
              r == Run(Some(o.data.token), Fulfilled(AuthData(o.data.user, o.data.token)))
    ensures o.Failure? ==> r == Run(stored, Rejected(Fail(MessageOr(o.body, GoogleFailed))))
  {
    match o
    case Success(d) =>
      if d.requiresRegistration then Run(stored, Rejected(Reject(None, true, d.googleData)))
      else Run(Some(d.token), Fulfilled(AuthData(d.user, d.token)))
    case Failure(body, _) => Run(stored, Rejected(Fail(MessageOr(body, GoogleFailed))))
  }

  datatype Action =
    | Logout
    | ClearError
    | LoginSuccess(user: Json)
    | Pending
    | SignedIn(data: AuthData)
    | CurrentUserFetched(profile: Json)
    | CurrentUserRejected(reason: Reject)
    | ProfileUpdated(profile: Json)
    | ThunkRejected(reason: Reject)

  function Reduce(se: Session, a: Action): (r: Session)
    ensures a.Logout? ==>
              && r.stored.None?
              && r.state == se.state.(user := None, token := None, isAuthenticated := false, error := None)
    ensures a.ClearError? ==> r == se.(state := se.state.(error := None))
    ensures a.LoginSuccess? ==>
              r == se.(state := se.state.(user := Some(a.user), isAuthenticated := true, error := None))
    ensures a.Pending? ==> r == se.(state := se.state.(loading := true, error := None))
    ensures a.SignedIn? ==>
              r == se.(state := se.state.(loading := false, isAuthenticated := true,
                                         user := Some(a.data.user), token := Some(a.data.token)))
    ensures a.CurrentUserFetched? ==>
              r == se.(state := se.state.(loading := false, isAuthenticated := true, user := Some(a.profile)))
    ensures a.CurrentUserRejected? ==>
              && r.stored.None?
              && r.state == State(None, None, false, false, a.reason.message)
    ensures a.ProfileUpdated? ==> r == se.(state := se.state.(loading := false, user := Some(a.profile)))
    ensures a.ThunkRejected? ==> r == se.(state := se.state.(loading := false, error := a.reason.message))
  {
    var s := se.state;
    match a
    case Logout => Session(None, s.(user := None, token := None, isAuthenticated := false, error := None))
    case ClearError => se.(state := s.(error := None))
    case LoginSuccess(u) => se.(state := s.(user := Some(u), isAuthenticated := true, error := None))
    case Pending => se.(state := s.(loading := true, error := None))
    case SignedIn(d) =>
      se.(state := s.(loading := false, isAuthenticated := true, user := Some(d.user), token := Some(d.token)))
    case CurrentUserFetched(u) => se.(state := s.(loading := false, isAuthenticated := true, user := Some(u)))
    case CurrentUserRejected(why) =>
      Session(None, s.(loading := false, error := why.message, token := None, isAuthenticated := false, user := None))
    case ProfileUpdated(u) => se.(state := s.(loading := false, user := Some(u)))
    case ThunkRejected(why) => se.(state := s.(loading := false, error := why.message))
  }

  /** The action a settled sign-in thunk dispatches. */
  function Settle(s: Settled<AuthData>): Action {
    match s
    case Fulfilled(d) => SignedIn(d)
    case Rejected(why) => ThunkRejected(why)
  }

  /** A Google sign-in that asks for registration leaves the session token
      and the storage slot as they were, signs nobody in, and clears the
      error (the rejection has no message). */
  lemma GoogleRegistrationStoresNoToken(se: Session, g: GoogleData)
    requires g.requiresRegistration
    ensures var run := GoogleAuthThunk(se.stored, Success(g));
            var r := Reduce(se.(stored := run.stored), Settle(run.settled));
            && r.stored == se.stored && r.state.token == se.state.token
            && r.state.isAuthenticated == se.state.isAuthenticated
            && r.state.error.None?
  {
  }

  /** A successful sign-in of any kind leaves the same token in storage and
      in the state, and the user signed in. */
  lemma SignInTokenAgrees(k: SignIn, se: Session, d: AuthData)
    ensures var run := SignInThunk(k, se.stored, Success(d));
            var r := Reduce(se.(stored := run.stored), Settle(run.settled));
            r.stored == r.state.token == Some(d.token) && r.state.isAuthenticated
  {
  }

  /** Logging out after signing in forgets the user and the token, in the
      state and in storage, and keeps the loading flag. */
  lemma LogoutUndoesSignIn(se: Session, d: AuthData)
    ensures var r := Reduce(Reduce(se, SignedIn(d)), Logout);
            r.stored.None? && r.state.token.None? && r.state.user.None?
            && !r.state.isAuthenticated && !r.state.loading
  {
  }

  /** A login failure with no message anywhere reports the fixed fallback. */
  lemma LoginFallback(se: Session)
    ensures SignInThunk(Login, se.stored, Failure(None, None)).settled.reason.message == Some(LoginFailed)
  {
  }
}

=== FILE: base.dfy ===
/** Shared vocabulary: optional values, JSON values as they travel between
    the browser and the server, and JavaScript's truthiness on the values the
    application actually tests with `||` and `!`. */
module Base {

  /** `None` stands for `undefined` (an absent key or an unset variable). */
  datatype Option<+T> = None | Some(value: T) {
    function GetOr(default: T): T {
      match this
      case Some(v) => v
      case None => default
    }
  }

  /** A JSON value. Numbers are integers: the application never computes with
      fractions on the paths modelled here. */
  datatype Json =
    | Null
    | Bool(b: bool)
    | Num(n: int)
    | Str(s: string)
    | Arr(items: seq<Json>)
    | Obj(fields: map<string, Json>)

  /** A JSON object seen as a map from keys to values, as a document store or
      a form state holds it. */
  type Record = map<string, Json>

  /** JavaScript truthiness of a JSON value: `null`, `false`, `0` and `""`
      are falsy; arrays and objects are always truthy. */
  predicate Truthy(j: Json) {
    match j
    case Null => false
    case Bool(b) => b
    case Num(n) => n != 0
    case Str(s) => s != ""
    case Arr(_) => true
    case Obj(_) => true
  }

  /** Truthiness of a possibly-absent JSON value (`undefined` is falsy). */
  predicate TruthyOpt(j: Option<Json>) {
    j.Some? && Truthy(j.value)
  }

  /** The value stored under `k`, or `undefined`. */
  function Lookup(r: Record, k: string): (v: Option<Json>)
    ensures v.Some? <==> k in r
    ensures k in r ==> v.value == r[k]
  {
    if k in r then Some(r[k]) else None
  }

  /** `a || b` where `a` is a possibly-absent string: the first operand wins
      exactly when it is present and not empty. */
  function StrOr(a: Option<string>, b: string): (r: string)
    ensures a.Some? && a.value != "" ==> r == a.value
    ensures a.None? || a.value == "" ==> r == b
  {
    if a.Some? && a.value != "" then a.value else b
  }

  /** `a || b || c` over two possibly-absent strings and a fallback. */
  function StrOr2(a: Option<string>, b: Option<string>, c: string): (r: string)
    ensures a.Some? && a.value != "" ==> r == a.value
    ensures (a.None? || a.value == "") && b.Some? && b.value != "" ==> r == b.value
    ensures (a.None? || a.value == "") && (b.None? || b.value == "") ==> r == c
  {
    StrOr(a, StrOr(b, c))
  }

  /** The error body a failed request carries (`error.response.data`), of
      which the reducers only ever read `message`. */
  datatype ErrorBody = ErrorBody(message: Option<string>)

  /** `payload?.message || fallback`, the reducers' error-message idiom. */
  function MessageOr(payload: Option<ErrorBody>, fallback: string): (r: string)
    ensures payload.Some? && payload.value.message.Some? && payload.value.message.value != ""
            ==> r == payload.value.message.value
    ensures payload.None? || payload.value.message.None? || payload.value.message.value == ""
            ==> r == fallback
  {
    if payload.Some? then StrOr(payload.value.message, fallback) else fallback
  }

  /** `{ ...a, ...b }`: every key of either object, `b`'s value winning. */
  function Spread(a: Record, b: Record): (r: Record)
    ensures r.Keys == a.Keys + b.Keys
    ensures forall k :: k in b ==> r[k] == b[k]
    ensures forall k :: k in a && k !in b ==> r[k] == a[k]
  {
    a + b
  }

  /** `{ ...r, [k]: v }`: `k` set to `v`, every other key kept. */
  function Put(r: Record, k: string, v: Json): (res: Record)
    ensures res.Keys == r.Keys + {k}
    ensures res[k] == v
    ensures forall j :: j in r && j != k ==> res[j] == r[j]
  {
    r[k := v]
  }

  /** A string, or `undefined`, as a JSON-ish value a reducer stores. */
  function StrJson(s: Option<string>): (r: Option<Json>)
    ensures r.None? <==> s.None?
    ensures s.Some? ==> r.value == Str(s.value)
  {
    match s
    case None => None
    case Some(x) => Some(Str(x))
  }

  /** `error.response?.data?.message`. */
  function BodyMessage(body: Option<ErrorBody>): (r: Option<string>)
    ensures r.Some? <==> body.Some? && body.value.message.Some?
    ensures r.Some? ==> r.value == body.value.message.value
  {
    if body.Some? then body.value.message else None
  }

  /** The outcome of one remote call: the response data, or a failure with
      the response's error body (absent when no response came back) and the
      thrown error's own message. */
  datatype Outcome<T> = Success(data: T) | Failure(body: Option<ErrorBody>, errorMessage: Option<string>)
}

=== FILE: browse_jobs.dfy ===
/** The job search page: a case-insensitive search over title, company and
    skills, exact-match job type and experience filters, and the button that
    clears all three. */
module BrowseJobs {
  import opened Base
  import opened Text
  import opened Lists
  import opened Views

  /** The three filter controls; `""` is "any". */
  datatype Filters = Filters(search: string, jobType: string, experience: string)

  /** The page's first filters, and what Clear Filters sets. */
  const Cleared: Filters := Filters("", "", "")

  /** `setFilters({ search: '', type: '', experience: '' })`. */
  function ClearFilters(f: Filters): (r: Filters)
    ensures r.search == "" && r.jobType == "" && r.experience == ""
  {
    Cleared
  }

  /** The lower-cased `hay` includes the lower-cased `query`. */
  predicate Mentions(hay: string, query: string) {
    Includes(ToLower(hay), ToLower(query))
  }

  /** `skills.some(...)`: some skill mentions the query. */
  function AnySkill(skills: seq<string>, query: string): (r: bool)
    ensures r <==> exists k :: 0 <= k < |skills| && Mentions(skills[k], query)
  {
    if skills == [] then false
    else if Mentions(skills[0], query) then true
    else
      var r := AnySkill(skills[1..], query);
      assert forall k :: 1 <= k < |skills| ==> skills[k] == skills[1..][k - 1];
      r
  }

  /** The search box matches the title, the company or any skill, ignoring
      case. */
  predicate MatchesSearch(job: JobView, query: string) {
    Mentions(job.title, query) || Mentions(job.company, query) || AnySkill(job.skills, query)
  }

  /** An empty selection imposes nothing; otherwise the job's listed value
      must equal it exactly (an absent value never does). */
  predicate Selected(filter: string, listed: Option<string>) {
    filter == "" || listed == Some(filter)
  }

  predicate Matches(job: JobView, f: Filters) {
    MatchesSearch(job, f.search) && Selected(f.jobType, job.listedType)
    && Selected(f.experience, job.listedExperience)
  }

  /** `filteredJobs`: the jobs that match, each exactly when it matches, in
      their order. */
  function FilterJobs(jobs: seq<JobDoc>, f: Filters): (r: seq<JobDoc>)
    ensures Subseq(r, jobs)
    ensures forall d :: d in r <==> d in jobs && Matches(d.body, f)
  {
    var p := (d: JobDoc) => Matches(d.body, f);
    forall d ensures d in Filter(jobs, p) <==> d in jobs && Matches(d.body, f) {
      FilterMembers(jobs, p, d);
    }
    Filter(jobs, p)
  }

  /** Every string contains the empty query, so an empty search matches every
      job. */
  lemma EmptySearchMatches(job: JobView)
    ensures MatchesSearch(job, "")
  {
    IncludesEmpty(ToLower(job.title));
  }

  /** With the filters cleared every job is listed. */
  lemma ClearedListsAll(jobs: seq<JobDoc>)
    ensures FilterJobs(jobs, Cleared) == jobs
  {
    var p := (d: JobDoc) => Matches(d.body, Cleared);
    forall k | 0 <= k < |jobs| ensures p(jobs[k]) {
      EmptySearchMatches(jobs[k].body);
    }
    FilterAll(jobs, p);
  }

  /** Lower-casing twice is lower-casing once. */
  lemma ToLowerIdempotent(s: string)
    ensures ToLower(ToLower(s)) == ToLower(s)
  {
  }

  /** Searching for a query or for its lower-case form lists the same jobs. */
  lemma SearchIgnoresCase(job: JobView, query: string)
    ensures MatchesSearch(job, query) <==> MatchesSearch(job, ToLower(query))
  {
    ToLowerIdempotent(query);
  }

  /** The server's job documents carry `jobType`, not the `type` the filter
      reads: choosing any job type empties the list. */
  lemma TypeFilterHidesUnlistedJobs(jobs: seq<JobDoc>, f: Filters)
    requires f.jobType != ""
    requires forall k :: 0 <= k < |jobs| ==> jobs[k].body.listedType.None?
    ensures FilterJobs(jobs, f) == []
  {
    FilterNone(jobs, (d: JobDoc) => Matches(d.body, f));
  }
}

=== FILE: forms.dfy ===
/** What the job forms share: the `name`-addressed field update, where a
    dotted name such as `salary.min` addresses a field of a nested object,
    and `Number()` on the strings an input holds. */
module Forms {
  import opened Base
  import opened Text

  /** A name with a dot addresses a nested field. */
  predicate Dotted(name: string) {
    '.' in name
  }

  /** Splitting a string that contains the separator gives at least two
      pieces. */
  lemma SplitAtLeastTwo(s: string, sep: char)
    requires sep in s
    ensures |Split(s, sep)| >= 2
  {
    var r := Split(s, sep);
    assert Join(r[..1], [sep]) == r[0];
  }

  /** `const [parent, child] = name.split('.')`: the text before the first
      dot, and the text between the first and the second. */
  function Parent(name: string): (p: string)
    requires Dotted(name)
    ensures '.' !in p
  {
    SplitAtLeastTwo(name, '.');
    Split(name, '.')[0]
  }

  function Child(name: string): (c: string)
    requires Dotted(name)
    ensures '.' !in c
  {
    SplitAtLeastTwo(name, '.');
    Split(name, '.')[1]
  }

  /** The top-level key a name writes to. */
  function Top(name: string): (k: string)
    ensures '.' !in k
    ensures !Dotted(name) ==> k == name
  {
    if Dotted(name) then Parent(name) else name
  }

  /** The fields of the object under `k`, or none when `k` does not hold an
      object (spreading `undefined` gives `{}`). */
  function Inner(form: Record, k: string): Record {
    if k in form && form[k].Obj? then form[k].fields else map[]
  }

  /** A control marked `required` blocks its form's submit when it shows
      nothing: its value is absent, `null` or the empty string. A number
      shows its digits and is not blank. */
  predicate Blank(v: Option<Json>) {
    v.None? || v.value == Null || v.value == Str("")
  }

  /** The update `handleChange` makes: a plain name sets a top-level field; a dotted name sets
      one field of the nested object and keeps its siblings. No other
      top-level field changes. */
  function SetField(form: Record, name: string, value: Json): (r: Record)
    ensures r.Keys == form.Keys + {Top(name)}
    ensures forall k :: k in form && k != Top(name) ==> r[k] == form[k]
    ensures !Dotted(name) ==> r[name] == value
    ensures Dotted(name) ==>
              && r[Parent(name)].Obj?
              && r[Parent(name)].fields == Inner(form, Parent(name))[Child(name) := value]
  {
    if Dotted(name) then
      var p := Parent(name);
      form[p := Obj(Inner(form, p)[Child(name) := value])]
    else
      form[name := value]
  }

  /** The value a name addresses, if any. */
  function GetField(form: Record, name: string): Option<Json> {
    if Dotted(name) then
      var inner := Inner(form, Parent(name));
      if Child(name) in inner then Some(inner[Child(name)]) else None
    else Lookup(form, name)
  }

  /** What is set can be read back under the same name. */
  lemma GetAfterSet(form: Record, name: string, value: Json)
    ensures GetField(SetField(form, name, value), name) == Some(value)
  {
  }

  /** Setting one name leaves every name addressing another place as it was:
      another top-level key, or another field of the same nested object. */
  lemma SetLeavesOthers(form: Record, name: string, value: Json, other: string)
    requires Top(other) != Top(name) || (Dotted(name) && Dotted(other) && Child(other) != Child(name))
    ensures GetField(SetField(form, name, value), other) == GetField(form, other)
  {
  }

  /** `handleChange` of both job forms: an input's text under its (possibly
      dotted) name; every name addressing another top-level key reads as before. */
  function Change(form: Record, name: string, value: string): (r: Record)
    ensures GetField(r, name) == Some(Str(value))
    ensures forall other :: Top(other) != Top(name) ==> GetField(r, other) == GetField(form, other)
  {
    forall other | Top(other) != Top(name)
      ensures GetField(SetField(form, name, Str(value)), other) == GetField(form, other)
    {
      SetLeavesOthers(form, name, Str(value), other);
    }
    GetAfterSet(form, name, Str(value));
    SetField(form, name, Str(value))
  }

  predicate IsDigit(c: char) {
    '0' <= c <= '9'
  }

  predicate AllDigits(s: string) {
    forall k :: 0 <= k < |s| ==> IsDigit(s[k])
  }

  /** The value of a string of decimal digits. */
  function DigitsValue(s: string): nat
    requires AllDigits(s)
  {
    if s == [] then 0
    else DigitsValue(s[..|s| - 1]) * 10 + (s[|s| - 1] as int - '0' as int)
  }

  /** `String(n)` for a natural number. */
  function ShowNat(n: nat): (s: string)
    ensures |s| >= 1 && AllDigits(s)
    ensures s[0] != ' ' && !IsSpace(s[0]) && !IsSpace(s[|s| - 1])
  {
    var d := [('0' as int + n % 10) as char];
    if n < 10 then d else ShowNat(n / 10) + d
  }

  /** `Number(s)` on an input's text: surrounding whitespace is ignored, an
      empty or blank text is 0, a run of decimal digits is its value, and
      anything else is not a number, which the request body carries as
      `null`. */
  function ToNumber(s: string): (r: Json)
    ensures r.Num? || r == Null
    ensures AllSpace(s) ==> r == Num(0)
    ensures r.Num? ==> r.n >= 0
    ensures AllDigits(Trim(s)) && Trim(s) != "" ==> r == Num(DigitsValue(Trim(s)))
  {
    var t := Trim(s);
    TrimEmptyIffAllSpace(s);
    if t == "" then Num(0)
    else if AllDigits(t) then Num(DigitsValue(t))
    else Null
  }

  /** Reading back a number's decimal text gives the number. */
  lemma {:induction false} DigitsOfShow(n: nat)
    ensures DigitsValue(ShowNat(n)) == n
  {
    if n >= 10 {
      DigitsOfShow(n / 10);
      var s := ShowNat(n);
      assert s[..|s| - 1] == ShowNat(n / 10);
    }
  }

  /** `Number(String(n)) === n` for every natural number. */
  lemma ToNumberOfShow(n: nat)
    ensures ToNumber(ShowNat(n)) == Num(n)
  {
    TrimOfTrimmed(ShowNat(n));
    DigitsOfShow(n);
  }

  /** `Number(v)` for a value the form may hold: text as above, a number
      unchanged, `null` 0, a boolean 0 or 1, and `undefined` (or any other
      value) not a number. */
  function NumberOf(v: Option<Json>): (r: Json)
    ensures r.Num? || r == Null
    ensures v.Some? && v.value.Str? ==> r == ToNumber(v.value.s)
    ensures v.Some? && v.value.Num? ==> r == v.value
    ensures v == Some(Null) ==> r == Num(0)
    ensures v.None? ==> r == Null
  {
    match v
    case None => Null
    case Some(Str(s)) => ToNumber(s)
    case Some(Num(n)) => Num(n)
    case Some(Null) => Num(0)
    case Some(Bool(b)) => Num(if b then 1 else 0)
    case Some(_) => Null
  }
}

=== FILE: http.dfy ===
/** The outcome of an Express route handler: the status code it answers with
    and the JSON body it sends. */
module Http {

  datatype Reply<T> =
    | Ok(body: T)
    | Created(body: T)
    | NotFound(message: string)
    | Unauthorized(message: string)
    | ServerError(message: string)
  {
    /** The HTTP status code of the reply. */
    function Code(): int {
      match this
      case Ok(_) => 200
      case Created(_) => 201
      case NotFound(_) => 404
      case Unauthorized(_) => 401
      case ServerError(_) => 500
    }

    predicate Succeeded() {
      Ok? || Created?
    }
  }

  /** The message every handler's `catch` block answers with. */
  const ServerErrorMessage: string := "Server error"
  const NotAuthorizedMessage: string := "Not authorized"
}

=== FILE: job_browser.dfy ===
/** The job browser: a swipe queue over every fetched job, where accepting
    asks the poster for a referral and rejecting only moves on. */
module JobBrowser {
  import opened Base
  import opened Lists
  import opened Views
  import JobModel
  import opened Swipe

  /** The referral request an accept sends. */
  datatype ReferralRequest = ReferralRequest(jobId: string, referrerId: Option<string>, status: string)

  /** `jobs.find(j => j._id === jobId)`. */
  function FindJob(jobs: seq<JobDoc>, jobId: string): (r: Option<JobDoc>)
    ensures r.Some? <==> jobId in IdsOf(jobs)
    ensures r.Some? ==> r.value == jobs[IndexOfId(jobs, jobId)] && r.value.id == jobId
  {
    var i := IndexOfId(jobs, jobId);
    if i == -1 then None else Some(jobs[i])
  }

  /** The effect of an accept: the browser afterwards and the request sent,
      if any. */
  datatype Accepted = Accepted(browser: Browser, sent: Option<ReferralRequest>)

  /** Accept: a job id that is not in the list throws before any request and
      leaves the cursor; otherwise a pending referral to the job's poster is
      requested, and the cursor moves on by one exactly when it succeeds.
      The flag is lowered in every case. */
  function Accept(b: Browser, jobs: seq<JobDoc>, jobId: string, succeeded: bool): (r: Accepted)
    ensures !r.browser.actionLoading
    ensures r.sent.None? <==> jobId !in IdsOf(jobs)
    ensures r.sent.Some? ==>
              && r.sent.value.jobId == jobId
              && r.sent.value.referrerId == FindJob(jobs, jobId).value.body.postedBy
              && r.sent.value.status == PendingName
    ensures r.browser.currentIndex == if r.sent.Some? && succeeded then b.currentIndex + 1 else b.currentIndex
  {
    match FindJob(jobs, jobId)
    case None => Accepted(b.(actionLoading := false), None)
    case Some(j) =>
      var req := ReferralRequest(jobId, j.body.postedBy, PendingName);
      Accepted(Browser(if succeeded then b.currentIndex + 1 else b.currentIndex, false), Some(req))
  }

  /** Reject: no request, the cursor moves on by one, and the flag is left
      as it is. */
  function Reject(b: Browser): (r: Browser)
    ensures r.currentIndex == b.currentIndex + 1 && r.actionLoading == b.actionLoading
  {
    b.(currentIndex := b.currentIndex + 1)
  }

  datatype Button = AcceptButton | RejectButton

  /** A click: a disabled button does nothing; an enabled reject moves on at
      once, an enabled accept puts its request in flight. */
  function Click(b: Browser, button: Button): (r: Browser)
    ensures !ButtonsEnabled(b) ==> r == b
    ensures ButtonsEnabled(b) && button == RejectButton ==> r == Reject(b) && ButtonsEnabled(r)
    ensures ButtonsEnabled(b) && button == AcceptButton ==> r == Begin(b)
  {
    if b.actionLoading then b
    else match button
      case RejectButton => Reject(b)
      case AcceptButton => Begin(b)
  }

  /** A run of clicks, in order. */
  function Clicks(b: Browser, buttons: seq<Button>): Browser
    decreases |buttons|
  {
    if buttons == [] then b else Clicks(Click(b, buttons[0]), buttons[1..])
  }

  /** While an accept is in flight neither button is enabled, so any run of
      clicks on them leaves the cursor and the flag as they are. */
  lemma {:induction false} InFlightIgnoresClicks(b: Browser, buttons: seq<Button>)
    ensures !ButtonsEnabled(Begin(b))
    ensures Clicks(Begin(b), buttons) == Begin(b)
    decreases |buttons|
  {
    if buttons != [] {
      InFlightIgnoresClicks(b, buttons[1..]);
    }
  }

  /** Once the accept settles, whatever its outcome, the buttons work again. */
  lemma SettledAcceptReenables(b: Browser, jobs: seq<JobDoc>, jobId: string, succeeded: bool)
    ensures ButtonsEnabled(Accept(Begin(b), jobs, jobId, succeeded).browser)
  {
  }

  datatype Display = NoJobs | CaughtUp | Showing(job: JobDoc)

  function Show(b: Browser, jobs: seq<JobDoc>): (d: Display)
    requires 0 <= b.currentIndex
    ensures d == NoJobs <==> |jobs| == 0
    ensures d == CaughtUp <==> |jobs| > 0 && b.currentIndex >= |jobs|
    ensures d.Showing? ==> b.currentIndex < |jobs| && d.job == jobs[b.currentIndex]
  {
    if |jobs| == 0 then NoJobs
    else if b.currentIndex >= |jobs| then CaughtUp
    else Showing(jobs[b.currentIndex])
  }

  /** Accepting the shown job always finds it, and asks that job's poster. */
  lemma AcceptShownJobSends(b: Browser, jobs: seq<JobDoc>, succeeded: bool)
    requires 0 <= b.currentIndex < |jobs| && UniqueIds(jobs)
    ensures var r := Accept(b, jobs, jobs[b.currentIndex].id, succeeded);
            r.sent == Some(ReferralRequest(jobs[b.currentIndex].id, jobs[b.currentIndex].body.postedBy, PendingName))
  {
    var i := b.currentIndex;
    assert jobs[i].id in IdsOf(jobs);
    var k := IndexOfId(jobs, jobs[i].id);
    assert k == i;
  }

  /** `n` rejects in a row: the cursor moves on by `n`, the flag stays. */
  function RejectTimes(b: Browser, n: nat): (r: Browser)
    ensures r.currentIndex == b.currentIndex + n
    ensures r.actionLoading == b.actionLoading
    decreases n
  {
    if n == 0 then b else RejectTimes(Reject(b), n - 1)
  }

  /** Skipping every job from the start reaches the caught-up screen. */
  lemma RejectAllCaughtUp(jobs: seq<JobDoc>)
    requires |jobs| > 0
    ensures Show(RejectTimes(Start, |jobs|), jobs) == CaughtUp
  {
  }

  /** `formatExperience`: five levels get a label; anything else is shown as
      it is. */
  function FormatExperience(e: string): (r: string)
    ensures e == "entry" ==> r == "Entry Level (0-2 years)"
    ensures e == "mid" ==> r == "Mid Level (3-5 years)"
    ensures e == "senior" ==> r == "Senior Level (5+ years)"
    ensures e == "lead" ==> r == "Lead/Manager"
    ensures e == "executive" ==> r == "Executive"
    ensures e !in {"entry", "mid", "senior", "lead", "executive"} ==> r == e
  {
    match e
    case "entry" => "Entry Level (0-2 years)"
    case "mid" => "Mid Level (3-5 years)"
    case "senior" => "Senior Level (5+ years)"
    case "lead" => "Lead/Manager"
    case "executive" => "Executive"
    case _ => e
  }

  /** Every level the job schema admits gets a label different from the raw
      value; two of the labelled values are not levels the schema admits. */
  lemma FormatExperienceCoversSchema(l: JobModel.ExperienceLevel)
    ensures FormatExperience(JobModel.ExperienceLevelName(l)) != JobModel.ExperienceLevelName(l)
    ensures JobModel.ParseExperienceLevel("lead").None? && JobModel.ParseExperienceLevel("executive").None?
  {
  }
}

=== FILE: job_form.dfy ===
/** The "Post New Job" dialog: the form state with its editable lists of
    requirements and skills, and the reset after a successful submit. */
module JobForm {
  import opened Base
  import opened Forms
  import JobModel

  /** The form as the dialog opens it, and as a successful submit leaves it:
      empty texts, no job type or experience level chosen, one empty
      requirement and one empty skill. */
  const Initial: Record := map[
    "title" := Str(""), "company" := Str(""), "location" := Str(""),
    "description" := Str(""), "requirements" := Arr([Str("")]),
    "salary" := Obj(map["min" := Str(""), "max" := Str(""), "currency" := Str("USD")]),
    "jobType" := Str(""), "experienceLevel" := Str(""), "skills" := Arr([Str("")])]

  /** `s` with position `index` holding `v`; an index outside the list changes
      nothing. */
  function ReplaceAt<T>(s: seq<T>, index: int, v: T): (r: seq<T>)
    ensures |r| == |s|
    ensures forall k :: 0 <= k < |s| ==> r[k] == if k == index then v else s[k]
  {
    if 0 <= index < |s| then s[index := v] else s
  }

  /** `handleArrayChange`: position `index` of the list under `key` holds the
      typed text and every other position and key is kept. `None` when the key
      does not hold a list (`map` of a non-array throws). */
  function ArrayChange(form: Record, key: string, index: int, value: string): (r: Option<Record>)
    ensures r.Some? <==> key in form && form[key].Arr?
    ensures r.Some? ==> r.value.Keys == form.Keys
    ensures r.Some? ==> forall k :: k in form && k != key ==> r.value[k] == form[k]
    ensures r.Some? ==>
              && r.value[key].Arr? && |r.value[key].items| == |form[key].items|
              && (forall k :: 0 <= k < |form[key].items| && k != index ==>
                    r.value[key].items[k] == form[key].items[k])
              && (0 <= index < |form[key].items| ==> r.value[key].items[index] == Str(value))
    ensures r.Some? && !(0 <= index < |form[key].items|) ==> r.value == form
  {
    if key in form && form[key].Arr? then
      var items := form[key].items;
      if 0 <= index < |items| then Some(Put(form, key, Arr(ReplaceAt(items, index, Str(value)))))
      else Some(form)
    else None
  }

  /** `handleAddItem`: one more empty entry at the end of the list under
      `key`; `None` when the key does not hold a list. */
  function AddItem(form: Record, key: string): (r: Option<Record>)
    ensures r.Some? <==> key in form && form[key].Arr?
    ensures r.Some? ==> r.value.Keys == form.Keys
    ensures r.Some? ==> forall k :: k in form && k != key ==> r.value[k] == form[k]
    ensures r.Some? ==> r.value[key] == Arr(form[key].items + [Str("")])
  {
    if key in form && form[key].Arr? then Some(Put(form, key, Arr(form[key].items + [Str("")])))
    else None
  }

  /** Adding an entry and typing into it extends the list by exactly the
      typed text. */
  lemma AddThenType(form: Record, key: string, value: string)
    requires key in form && form[key].Arr?
    ensures AddItem(form, key).Some?
    ensures ArrayChange(AddItem(form, key).value, key, |form[key].items|, value)
            == Some(form[key := Arr(form[key].items + [Str(value)])])
  {
    var added := AddItem(form, key).value;
    var typed := ArrayChange(added, key, |form[key].items|, value).value;
    assert typed[key].items == form[key].items + [Str(value)];
    assert typed == form[key := Arr(form[key].items + [Str(value)])];
  }

  /** Typing into an entry the list does not have changes nothing. */
  lemma TypeOutsideKeeps(form: Record, key: string, index: int, value: string)
    requires key in form && form[key].Arr?
    requires index < 0 || index >= |form[key].items|
    ensures ArrayChange(form, key, index, value) == Some(form)
  {
  }

  /** Every entry of the list under `key` is filled in. */
  predicate AllEntries(form: Record, key: string) {
    key in form && form[key].Arr?
    && forall k :: 0 <= k < |form[key].items| ==> !Blank(Some(form[key].items[k]))
  }

  /** Every control of the dialog is marked `required`: the four texts, both
      salary bounds, both selects (whose placeholder options have the empty
      value), and every requirement and skill entry. */
  predicate Complete(form: Record) {
    && (forall key :: key in RequiredKeys ==> !Blank(Lookup(form, key)))
    && !Blank(Lookup(Inner(form, "salary"), "min"))
    && !Blank(Lookup(Inner(form, "salary"), "max"))
    && AllEntries(form, "requirements") && AllEntries(form, "skills")
  }

  const RequiredKeys: set<string> :=
    {"title", "company", "location", "description", "jobType", "experienceLevel"}

  /** What a submit leaves behind: the body that was sent (none when the
      browser blocked the submit), the form shown afterwards and whether the
      dialog closed. */
  datatype Submission = Submission(sent: Option<Record>, after: Record, closed: bool)

  /** Pressing "Post Job": the browser's constraint validation blocks the
      submit while a required control is empty, and `handleSubmit` never
      runs. Otherwise the form is sent as it stands, and only a request that
      did not fail resets the form and closes the dialog. */
  function Submit(form: Record, succeeded: bool): (r: Submission)
    ensures r.sent.Some? <==> Complete(form)
    ensures r.sent.Some? ==> r.sent.value == form
    ensures r.closed <==> Complete(form) && succeeded
    ensures r.closed ==> r.after == Initial
    ensures !r.closed ==> r.after == form
  {
    if !Complete(form) then Submission(None, form, false)
    else if succeeded then Submission(Some(form), Initial, true)
    else Submission(Some(form), form, false)
  }

  /** A failed or blocked submit keeps everything typed, so submitting
      again sends the same body, or is blocked again. */
  lemma RetryResends(form: Record)
    ensures Submit(Submit(form, false).after, true).sent == Submit(form, false).sent
  {
  }

  /** The dialog as it opens cannot be submitted: its texts, job type and
      single entries are empty. */
  lemma InitialBlocked(succeeded: bool)
    ensures Submit(Initial, succeeded) == Submission(None, Initial, false)
  {
    assert Blank(Lookup(Initial, "title"));
  }

  /** A job type left at the placeholder blocks the submit in the browser;
      had it been sent, the server's schema would refuse it too. */
  lemma UntouchedTypeRefused(form: Record, succeeded: bool, id: JobModel.Id, b: JobModel.JobInput, postedBy: JobModel.Id)
    requires "jobType" in form && form["jobType"] == Initial["jobType"]
    requires b.jobType == Some(Initial["jobType"].s)
    ensures Submit(form, succeeded).sent.None?
    ensures JobModel.NewJob(id, b, postedBy).None?
  {
    assert "jobType" in RequiredKeys && Blank(Lookup(form, "jobType"));
  }
}

=== FILE: job_model.dfy ===
/** The Job document: job type and experience level enumerations, the salary
    record with its default currency, the active flag, and the validation a
    new posting must pass before it is saved. */
module JobModel {
  import opened Base
  import opened Text

  type Id = nat

  datatype JobType = FullTime | PartTime | Contract

  function JobTypeName(t: JobType): string {
    match t
    case FullTime => "full-time"
    case PartTime => "part-time"
    case Contract => "contract"
  }

  function ParseJobType(t: string): (r: Option<JobType>)
    ensures r.Some? ==> JobTypeName(r.value) == t
    ensures r.None? ==> forall k: JobType :: JobTypeName(k) != t
  {
    if t == "full-time" then Some(FullTime)
    else if t == "part-time" then Some(PartTime)
    else if t == "contract" then Some(Contract)
    else None
  }

  datatype ExperienceLevel = Entry | Mid | Senior

  function ExperienceLevelName(e: ExperienceLevel): string {
    match e
    case Entry => "entry"
    case Mid => "mid"
    case Senior => "senior"
  }

  function ParseExperienceLevel(t: string): (r: Option<ExperienceLevel>)
    ensures r.Some? ==> ExperienceLevelName(r.value) == t
    ensures r.None? ==> forall e: ExperienceLevel :: ExperienceLevelName(e) != t
  {
    if t == "entry" then Some(Entry)
    else if t == "mid" then Some(Mid)
    else if t == "senior" then Some(Senior)
    else None
  }

  const DefaultCurrency: string := "USD"

  datatype Salary = Salary(min: int, max: int, currency: string)

  /** A stored job. The enumerated fields are kept as the strings the store
      holds, since an update can write any string into them. */
  datatype Job = Job(
    id: Id,
    title: string,
    company: string,
    location: string,
    description: string,
    requirements: seq<string>,
    salary: Salary,
    jobType: string,
    experienceLevel: string,
    skills: seq<string>,
    postedBy: Id,
    isActive: bool)

  /** What the schema's validators demand of a saved job. */
  predicate SchemaValid(j: Job) {
    && j.title != "" && j.company != "" && j.location != "" && j.description != ""
    && ParseJobType(j.jobType).Some?
    && ParseExperienceLevel(j.experienceLevel).Some?
  }

  datatype SalaryInput = SalaryInput(min: Option<int>, max: Option<int>, currency: Option<string>)

  /** The fields of a request body that the create handler reads; `None`
      means the key is absent. */
  datatype JobInput = JobInput(
    title: Option<string>,
    company: Option<string>,
    location: Option<string>,
    description: Option<string>,
    requirements: Option<seq<string>>,
    salary: Option<SalaryInput>,
    jobType: Option<string>,
    experienceLevel: Option<string>,
    skills: Option<seq<string>>)

  /** A `required` string path survives its `trim` setter non-empty. */
  predicate RequiredTrimmed(v: Option<string>) {
    v.Some? && Trim(v.value) != ""
  }

  /** The body passes every validator of the schema. */
  predicate Admissible(b: JobInput) {
    && RequiredTrimmed(b.title) && RequiredTrimmed(b.company) && RequiredTrimmed(b.location)
    && b.description.Some? && b.description.value != ""
    && b.salary.Some? && b.salary.value.min.Some? && b.salary.value.max.Some?
    && b.jobType.Some? && ParseJobType(b.jobType.value).Some?
    && b.experienceLevel.Some? && ParseExperienceLevel(b.experienceLevel.value).Some?
  }

  function TrimAll(xs: seq<string>): (r: seq<string>)
    ensures |r| == |xs|
    ensures forall k :: 0 <= k < |xs| ==> r[k] == Trim(xs[k])
  {
    if xs == [] then [] else [Trim(xs[0])] + TrimAll(xs[1..])
  }

  /** Trimming every entry twice is trimming it once. */
  lemma TrimAllIdempotent(xs: seq<string>)
    ensures TrimAll(TrimAll(xs)) == TrimAll(xs)
  {
    var once := TrimAll(xs);
    forall k | 0 <= k < |xs| ensures TrimAll(once)[k] == once[k] {
      TrimIdempotent(xs[k]);
    }
  }

  /** `new Job({...}).save()`: the document that is stored, or `None` when a
      validator rejects it. Trimmed paths are trimmed, absent arrays become
      empty, the currency defaults to USD and the job starts active. */
  function NewJob(id: Id, b: JobInput, postedBy: Id): (r: Option<Job>)
    ensures r.Some? <==> Admissible(b)
    ensures r.Some? ==> SchemaValid(r.value)
    ensures r.Some? ==> r.value.id == id && r.value.postedBy == postedBy && r.value.isActive
    ensures r.Some? ==> r.value.title == Trim(b.title.value)
                        && r.value.company == Trim(b.company.value)
                        && r.value.location == Trim(b.location.value)
                        && r.value.description == b.description.value
    ensures r.Some? ==> r.value.salary.min == b.salary.value.min.value
                        && r.value.salary.max == b.salary.value.max.value
                        && r.value.salary.currency == b.salary.value.currency.GetOr(DefaultCurrency)
    ensures r.Some? ==> r.value.jobType == b.jobType.value
                        && r.value.experienceLevel == b.experienceLevel.value
  {
    if Admissible(b) then
      var s := b.salary.value;
      Some(Job(id, Trim(b.title.value), Trim(b.company.value), Trim(b.location.value),
               b.description.value, TrimAll(b.requirements.GetOr([])),
               Salary(s.min.value, s.max.value, s.currency.GetOr(DefaultCurrency)),
               b.jobType.value, b.experienceLevel.value, TrimAll(b.skills.GetOr([])),
               postedBy, true))
    else None
  }
}

=== FILE: job_post.dfy ===
/** The job posting form of the employer dashboard: its initial state, the
    field and select handlers, the comma-separated skills box, and the submit
    check with the salary conversion to numbers. */
module JobPost {
  import opened Base
  import opened Text
  import opened Forms
  import JobModel

  /** The form as it first appears: empty texts, full-time entry-level, an
      empty salary range in USD, no skills and one empty requirement. */
  const Initial: Record := map[
    "title" := Str(""), "company" := Str(""), "location" := Str(""),
    "jobType" := Str("full-time"), "experienceLevel" := Str("entry"),
    "salary" := Obj(map["min" := Str(""), "max" := Str(""), "currency" := Str("USD")]),
    "skills" := Arr([]), "description" := Str(""), "requirements" := Arr([Str("")])]

  /** The preset job type and experience level are ones the server accepts. */
  lemma InitialSelectionsAccepted()
    ensures Initial["jobType"].Str? && JobModel.ParseJobType(Initial["jobType"].s).Some?
    ensures Initial["experienceLevel"].Str?
            && JobModel.ParseExperienceLevel(Initial["experienceLevel"].s).Some?
  {
  }

  /** `handleSelectChange`: the selected value under the given name, taken
      as a top-level key even when it contains a dot. */
  function SelectChange(form: Record, value: string, name: string): (r: Record)
    ensures r.Keys == form.Keys + {name}
    ensures r[name] == Str(value)
    ensures forall k :: k in form && k != name ==> r[k] == form[k]
  {
    Put(form, name, Str(value))
  }

  /** The skills box's text split at commas, each piece trimmed. */
  function SplitSkills(input: string): (r: seq<string>)
    ensures |r| >= 1
    ensures |r| == |Split(input, ',')|
    ensures forall k :: 0 <= k < |r| ==> ',' !in r[k] && Trimmed(r[k])
  {
    var pieces := Split(input, ',');
    var r := JobModel.TrimAll(pieces);
    forall k | 0 <= k < |r| ensures ',' !in r[k] && Trimmed(r[k]) {
      TrimInfix(pieces[k], ',');
    }
    r
  }

  /** Trimming keeps out every character the untrimmed string lacks. */
  lemma TrimInfix(s: string, c: char)
    requires c !in s
    ensures c !in Trim(s)
  {
  }

  /** `handleSkillsChange`: the skills list becomes the split text; nothing
      else changes. */
  function SkillsChange(form: Record, input: string): (r: Record)
    ensures r.Keys == form.Keys + {"skills"}
    ensures r["skills"] == Arr(StrItems(SplitSkills(input)))
    ensures forall k :: k in form && k != "skills" ==> r[k] == form[k]
  {
    Put(form, "skills", Arr(StrItems(SplitSkills(input))))
  }

  /** A list of strings as JSON strings. */
  function StrItems(xs: seq<string>): (r: seq<Json>)
    ensures |r| == |xs|
    ensures forall k :: 0 <= k < |xs| ==> r[k] == Str(xs[k])
  {
    if xs == [] then [] else [Str(xs[0])] + StrItems(xs[1..])
  }

  /** The skills box shows the list joined with a comma and a space. */
  function DisplaySkills(skills: seq<string>): string {
    Join(skills, ", ")
  }

  /** Every piece but the first with a space in front. */
  function Spaced(xs: seq<string>): (r: seq<string>)
    ensures |r| == |xs|
    ensures forall k :: 0 <= k < |xs| ==> r[k] == " " + xs[k]
  {
    if xs == [] then [] else [" " + xs[0]] + Spaced(xs[1..])
  }

  /** Joining with ", " is joining with "," after putting a space in front of
      every piece but the first. */
  lemma {:induction false} JoinCommaSpace(xs: seq<string>)
    requires |xs| >= 1
    ensures Join(xs, ", ") == Join([xs[0]] + Spaced(xs[1..]), ",")
    decreases |xs|
  {
    if |xs| > 1 {
      var tail := xs[1..];
      JoinCommaSpace(tail);
      var inner := [tail[0]] + Spaced(tail[1..]);
      assert Spaced(tail) == [" " + tail[0]] + Spaced(tail[1..]);
      JoinConsFirst(inner, " ", ",");
      assert [" " + inner[0]] + inner[1..] == Spaced(tail);
      var whole := [xs[0]] + Spaced(tail);
      assert whole[1..] == Spaced(tail);
      assert Join(whole, ",") == xs[0] + "," + Join(Spaced(tail), ",");
    }
  }

  /** Editing the skills box without changing what it shows gives back the
      list it shows, for any list of trimmed, comma-free skills. */
  lemma SkillsRoundTrip(xs: seq<string>)
    requires |xs| >= 1
    requires forall k :: 0 <= k < |xs| ==> ',' !in xs[k] && Trimmed(xs[k])
    ensures SplitSkills(DisplaySkills(xs)) == xs
  {
    JoinCommaSpace(xs);
    var pieces := [xs[0]] + Spaced(xs[1..]);
    forall k | 0 <= k < |pieces| ensures ',' !in pieces[k] {
      if k > 0 {
        assert pieces[k] == " " + xs[k];
        assert ',' !in xs[k];
      }
    }
    SplitJoin(pieces, ',');
    var r := SplitSkills(DisplaySkills(xs));
    forall k | 0 <= k < |xs| ensures r[k] == xs[k] {
      if k > 0 {
        assert pieces[k] == " " + xs[k];
        TrimLeadingSpace(xs[k]);
      }
    }
  }

  /** Once the box has been typed into, what it shows splits back to the
      same list. */
  lemma SkillsStable(input: string)
    ensures SplitSkills(DisplaySkills(SplitSkills(input))) == SplitSkills(input)
  {
    SkillsRoundTrip(SplitSkills(input));
  }

  /** What must hold for anything to be sent. The browser first blocks the
      submit while a `required` control is blank: the two salary bounds, and
      the four texts `handleSubmit` then checks again. `handleSubmit` itself
      returns unless title, company, location and description are all
      truthy, which also makes them non-blank. */
  predicate Complete(form: Record) {
    && !Blank(Lookup(Inner(form, "salary"), "min"))
    && !Blank(Lookup(Inner(form, "salary"), "max"))
    && TruthyOpt(Lookup(form, "title"))
    && TruthyOpt(Lookup(form, "company"))
    && TruthyOpt(Lookup(form, "location"))
    && TruthyOpt(Lookup(form, "description"))
  }

  /** Pressing "Post Job": nothing is sent unless the form is complete; otherwise
      the form is sent with the salary bounds converted by `Number()`, every
      other salary field and every other key kept. */
  function Submit(form: Record): (r: Option<Record>)
    ensures r.Some? <==> Complete(form)
    ensures r.Some? ==> r.value.Keys == form.Keys + {"salary"}
    ensures r.Some? ==> forall k :: k in form && k != "salary" ==> r.value[k] == form[k]
    ensures r.Some? ==>
              && r.value["salary"].Obj?
              && r.value["salary"].fields.Keys == Inner(form, "salary").Keys + {"min", "max"}
              && r.value["salary"].fields["min"] == NumberOf(Lookup(Inner(form, "salary"), "min"))
              && r.value["salary"].fields["max"] == NumberOf(Lookup(Inner(form, "salary"), "max"))
              && (forall k :: k in Inner(form, "salary") && k != "min" && k != "max" ==>
                    r.value["salary"].fields[k] == Inner(form, "salary")[k])
  {
    if !Complete(form) then None
    else
      var salary := Inner(form, "salary");
      Some(form["salary" := Obj(salary["min" := NumberOf(Lookup(salary, "min"))]
                                      ["max" := NumberOf(Lookup(salary, "max"))])])
  }

  /** The untouched form is never sent: the browser already stops it at the
      blank salary bounds. */
  lemma InitialNotSent()
    ensures Blank(Lookup(Inner(Initial, "salary"), "min"))
    ensures Submit(Initial).None?
  {
    assert Inner(Initial, "salary")["min"] == Str("");
  }

  /** A blank salary bound stops the submit whatever else was typed, so a
      bound is never sent as the `0` that `Number('')` would give. */
  lemma BlankBoundNotSent(form: Record, field: string)
    requires field == "min" || field == "max"
    requires Blank(Lookup(Inner(form, "salary"), field))
    ensures Submit(form).None?
  {
  }

  /** A salary bound typed as a decimal number is sent as that number. */
  lemma TypedSalarySent(form: Record, field: string, n: nat)
    requires Complete(form) && (field == "min" || field == "max")
    requires GetField(form, "salary." + field) == Some(Str(ShowNat(n)))
    ensures GetField(Submit(form).value, "salary." + field) == Some(Num(n))
  {
    SalaryPath(field);
    var inner := Inner(form, "salary");
    assert Lookup(inner, field) == Some(Str(ShowNat(n)));
    ToNumberOfShow(n);
    var sent := Submit(form).value;
    assert sent["salary"].fields[field] == Num(n);
  }

  /** `salary.<field>` names the field of the salary object. */
  lemma SalaryPath(field: string)
    requires '.' !in field
    ensures Dotted("salary." + field)
    ensures Parent("salary." + field) == "salary" && Child("salary." + field) == field
  {
    assert "salary." + field == Join(["salary", field], ['.']);
    SplitJoin(["salary", field], '.');
  }

  /** Once both bounds are numbers, submitting the sent form again sends it
      unchanged. */
  lemma ResubmitUnchanged(form: Record)
    requires Submit(form).Some?
    requires Submit(form).value["salary"].fields["min"].Num?
    requires Submit(form).value["salary"].fields["max"].Num?
    ensures Submit(Submit(form).value) == Submit(form)
  {
    var sent := Submit(form).value;
    assert Complete(sent) by {
      assert Lookup(sent, "title") == Lookup(form, "title");
      assert Lookup(sent, "company") == Lookup(form, "company");
      assert Lookup(sent, "location") == Lookup(form, "location");
      assert Lookup(sent, "description") == Lookup(form, "description");
    }
    var again := Submit(sent).value;
    assert again["salary"] == sent["salary"];
    assert again == sent;
  }
}

=== FILE: job_routes.dfy ===
/** The `/api/jobs` handlers as pure functions over an in-memory job store:
    the active listing, lookup, creation, owner-only update and owner-only
    removal. */
module JobRoutes {
  import opened Base
  import opened Http
  import opened Lists
  import opened Text
  import opened JobModel

  /** The job collection in creation order, and the next fresh id. */
  datatype JobStore = JobStore(jobs: seq<Job>, nextId: Id)

  /** Ids are distinct and all below the next fresh id. */
  predicate Valid(st: JobStore) {
    && (forall i, j :: 0 <= i < j < |st.jobs| ==> st.jobs[i].id != st.jobs[j].id)
    && (forall k :: 0 <= k < |st.jobs| ==> st.jobs[k].id < st.nextId)
  }

  datatype Step<T> = Step(store: JobStore, reply: Reply<T>)

  const JobNotFound: string := "Job not found"
  const JobRemoved: string := "Job removed"

  function Find(st: JobStore, id: Id): (r: int)
    ensures -1 <= r < |st.jobs|
    ensures r >= 0 ==> st.jobs[r].id == id
    ensures r == -1 <==> forall k :: 0 <= k < |st.jobs| ==> st.jobs[k].id != id
    decreases |st.jobs|
  {
    if st.jobs == [] then -1
    else
      var last := |st.jobs| - 1;
      if st.jobs[last].id == id then last
      else Find(JobStore(st.jobs[..last], st.nextId), id)
  }

  /** GET /: the active jobs, newest first. */
  function ListJobs(st: JobStore): (r: seq<Job>)
    ensures forall x :: x in r <==> x in st.jobs && x.isActive
    ensures Subseq(Reverse(r), st.jobs)
  {
    var active := Filter(st.jobs, IsActive);
    forall x ensures x in Reverse(active) <==> x in st.jobs && x.isActive {
      FilterMembers(st.jobs, IsActive, x);
      ReverseIn(active, x);
    }
    ReverseReverse(active);
    Reverse(active)
  }

  /** The listing's filter: `{ isActive: true }`. */
  predicate IsActive(j: Job) {
    j.isActive
  }

  /** GET /:id: any stored job, active or not. */
  function GetJob(st: JobStore, id: Id): (r: Reply<Job>)
    ensures r.NotFound? <==> forall k :: 0 <= k < |st.jobs| ==> st.jobs[k].id != id
    ensures r.Ok? ==> r.body in st.jobs && r.body.id == id
    ensures r.Ok? || r.NotFound?
  {
    var i := Find(st, id);
    if i == -1 then NotFound(JobNotFound) else Ok(st.jobs[i])
  }

  /** POST /: the caller becomes the poster; a body the schema rejects is a
      500 and nothing is stored. */
  function CreateJob(st: JobStore, caller: Id, b: JobInput): (r: Step<Job>)
    ensures r.reply.Created? <==> Admissible(b)
    ensures r.reply.Created? || r.reply.ServerError?
    ensures r.reply.ServerError? ==> r.store == st
    ensures r.reply.Created? ==> r.reply.body.postedBy == caller && r.reply.body.isActive
                                 && SchemaValid(r.reply.body)
                                 && r.store.jobs == st.jobs + [r.reply.body]
    ensures Valid(st) ==> Valid(r.store)
  {
    match NewJob(st.nextId, b, caller)
    case None => Step(st, ServerError(ServerErrorMessage))
    case Some(j) => Step(JobStore(st.jobs + [j], st.nextId + 1), Created(j))
  }

  /** The body of an update, written with `$set`: every present key replaces
      the stored field, including the poster and the active flag; the salary
      is replaced as a whole. */
  datatype JobPatch = JobPatch(
    title: Option<string>,
    company: Option<string>,
    location: Option<string>,
    description: Option<string>,
    requirements: Option<seq<string>>,
    salary: Option<Salary>,
    jobType: Option<string>,
    experienceLevel: Option<string>,
    skills: Option<seq<string>>,
    postedBy: Option<Id>,
    isActive: Option<bool>)

  /** `$set` without validators: present keys overwrite (the trimmed paths,
      and each entry of the two trimmed string arrays, through their `trim`
      setter), absent keys keep the stored value, and the enumerations are
      not checked. */
  function ApplyPatch(j: Job, p: JobPatch): (r: Job)
    ensures r.id == j.id
    ensures p.title.None? ==> r.title == j.title
    ensures p.title.Some? ==> r.title == Trim(p.title.value)
    ensures p.company.None? ==> r.company == j.company
    ensures p.company.Some? ==> r.company == Trim(p.company.value)
    ensures p.location.None? ==> r.location == j.location
    ensures p.location.Some? ==> r.location == Trim(p.location.value)
    ensures r.description == p.description.GetOr(j.description)
    ensures p.requirements.None? ==> r.requirements == j.requirements
    ensures p.requirements.Some? ==>
              && |r.requirements| == |p.requirements.value|
              && forall k :: 0 <= k < |r.requirements| ==> r.requirements[k] == Trim(p.requirements.value[k])
    ensures r.salary == p.salary.GetOr(j.salary)
    ensures r.jobType == p.jobType.GetOr(j.jobType)
    ensures r.experienceLevel == p.experienceLevel.GetOr(j.experienceLevel)
    ensures p.skills.None? ==> r.skills == j.skills
    ensures p.skills.Some? ==>
              && |r.skills| == |p.skills.value|
              && forall k :: 0 <= k < |r.skills| ==> r.skills[k] == Trim(p.skills.value[k])
    ensures r.postedBy == p.postedBy.GetOr(j.postedBy)
    ensures r.isActive == p.isActive.GetOr(j.isActive)
  {
    Job(j.id,
        if p.title.Some? then Trim(p.title.value) else j.title,
        if p.company.Some? then Trim(p.company.value) else j.company,
        if p.location.Some? then Trim(p.location.value) else j.location,
        p.description.GetOr(j.description),
        if p.requirements.Some? then TrimAll(p.requirements.value) else j.requirements,
        p.salary.GetOr(j.salary),
        p.jobType.GetOr(j.jobType),
        p.experienceLevel.GetOr(j.experienceLevel),
        if p.skills.Some? then TrimAll(p.skills.value) else j.skills,
        p.postedBy.GetOr(j.postedBy),
        p.isActive.GetOr(j.isActive))
  }

  const EmptyPatch: JobPatch := JobPatch(None, None, None, None, None, None, None, None, None, None, None)

  /** An empty update changes nothing. */
  lemma EmptyPatchIsIdentity(j: Job)
    ensures ApplyPatch(j, EmptyPatch) == j
  {
  }

  /** Applying the same update twice is the same as applying it once. */
  lemma PatchIdempotent(j: Job, p: JobPatch)
    ensures ApplyPatch(ApplyPatch(j, p), p) == ApplyPatch(j, p)
  {
    var once := ApplyPatch(j, p);
    var twice := ApplyPatch(once, p);
    if p.title.Some? { TrimIdempotent(p.title.value); }
    if p.company.Some? { TrimIdempotent(p.company.value); }
    if p.location.Some? { TrimIdempotent(p.location.value); }
    if p.requirements.Some? { TrimAllIdempotent(p.requirements.value); }
    if p.skills.Some? { TrimAllIdempotent(p.skills.value); }
    assert twice.title == once.title && twice.company == once.company && twice.location == once.location;
    assert twice.requirements == once.requirements && twice.skills == once.skills;
  }

  /** PUT /:id: 404 for an unknown id, 401 unless the caller posted the job,
      otherwise the patch is applied in place and the new document returned. */
  function UpdateJob(st: JobStore, caller: Id, id: Id, p: JobPatch): (r: Step<Job>)
    ensures r.reply.NotFound? <==> forall k :: 0 <= k < |st.jobs| ==> st.jobs[k].id != id
    ensures r.reply.Ok? || r.reply.NotFound? || r.reply.Unauthorized?
    ensures !r.reply.Ok? ==> r.store == st
    ensures r.reply.Unauthorized? ==> exists k :: 0 <= k < |st.jobs| && st.jobs[k].id == id
                                                 && st.jobs[k].postedBy != caller
    ensures r.reply.Ok? ==>
              exists k :: 0 <= k < |st.jobs| && st.jobs[k].id == id
                && st.jobs[k].postedBy == caller
                && r.reply.body == ApplyPatch(st.jobs[k], p)
                && r.store == st.(jobs := st.jobs[k := r.reply.body])
    ensures Valid(st) ==> Valid(r.store)
  {
    var i := Find(st, id);
    if i == -1 then Step(st, NotFound(JobNotFound))
    else if st.jobs[i].postedBy != caller then Step(st, Unauthorized(NotAuthorizedMessage))
    else
      var j := ApplyPatch(st.jobs[i], p);
      Step(st.(jobs := st.jobs[i := j]), Ok(j))
  }

  /** DELETE /:id: 404 for an unknown id, 401 unless the caller posted the
      job, otherwise the job is removed and every other job kept in order. */
  function DeleteJob(st: JobStore, caller: Id, id: Id): (r: Step<string>)
    ensures r.reply.NotFound? <==> forall k :: 0 <= k < |st.jobs| ==> st.jobs[k].id != id
    ensures r.reply.Ok? || r.reply.NotFound? || r.reply.Unauthorized?
    ensures !r.reply.Ok? ==> r.store == st
    ensures r.reply.Ok? ==> r.reply.body == JobRemoved
    ensures r.reply.Ok? ==>
              exists k :: 0 <= k < |st.jobs| && st.jobs[k].id == id
                && st.jobs[k].postedBy == caller
                && r.store.jobs == st.jobs[..k] + st.jobs[k + 1..]
    ensures Valid(st) ==> Valid(r.store)
  {
    var i := Find(st, id);
    if i == -1 then Step(st, NotFound(JobNotFound))
    else if st.jobs[i].postedBy != caller then Step(st, Unauthorized(NotAuthorizedMessage))
    else
      RemoveAtKeepsValid(st, i);
      Step(st.(jobs := st.jobs[..i] + st.jobs[i + 1..]), Ok(JobRemoved))
  }

  /** Deleting one position keeps the ids distinct and below the counter. */
  lemma RemoveAtKeepsValid(st: JobStore, i: nat)
    requires i < |st.jobs|
    ensures Valid(st) ==> Valid(st.(jobs := st.jobs[..i] + st.jobs[i + 1..]))
  {
    var rest := st.jobs[..i] + st.jobs[i + 1..];
    assert forall k :: 0 <= k < |rest| ==> rest[k] == st.jobs[if k < i then k else k + 1];
  }

  /** In a valid store, a removed job can no longer be fetched. */
  lemma DeletedJobIsGone(st: JobStore, caller: Id, id: Id)
    requires Valid(st)
    ensures var r := DeleteJob(st, caller, id);
            r.reply.Ok? ==> GetJob(r.store, id).NotFound?
  {
    var r := DeleteJob(st, caller, id);
    if r.reply.Ok? {
      var k := Find(st, id);
      var rest := r.store.jobs;
      forall m | 0 <= m < |rest| ensures rest[m].id != id {
        if m < k { assert rest[m] == st.jobs[m]; } else { assert rest[m] == st.jobs[m + 1]; }
      }
    }
  }

  /** Only the poster can change or remove a job: for anyone else both
      requests leave the store exactly as it was. */
  lemma OnlyPosterMutates(st: JobStore, caller: Id, id: Id, p: JobPatch)
    requires forall k :: 0 <= k < |st.jobs| && st.jobs[k].id == id ==> st.jobs[k].postedBy != caller
    ensures UpdateJob(st, caller, id, p).store == st
    ensures DeleteJob(st, caller, id).store == st
  {
  }

  /** Because the update runs no validators, the poster of a valid job can
      store a job type outside the schema's enumeration. */
  lemma UpdateCanBreakSchema(st: JobStore, k: nat)
    requires Valid(st) && k < |st.jobs| && SchemaValid(st.jobs[k])
    ensures var p := EmptyPatch.(jobType := Some("internship"));
            var r := UpdateJob(st, st.jobs[k].postedBy, st.jobs[k].id, p);
            r.reply.Ok? && !SchemaValid(r.reply.body)
  {
    var p := EmptyPatch.(jobType := Some("internship"));
    assert Find(st, st.jobs[k].id) == k;
    assert ParseJobType("internship").None?;
  }

  /** A poster can hide a job from the listing by updating its active flag,
      and it stays retrievable by id. */
  lemma DeactivatedJobLeavesListing(st: JobStore, k: nat)
    requires Valid(st) && k < |st.jobs|
    ensures var p := EmptyPatch.(isActive := Some(false));
            var r := UpdateJob(st, st.jobs[k].postedBy, st.jobs[k].id, p);
            r.reply.Ok? && r.reply.body !in ListJobs(r.store) && GetJob(r.store, st.jobs[k].id).Ok?
  {
    var p := EmptyPatch.(isActive := Some(false));
    var r := UpdateJob(st, st.jobs[k].postedBy, st.jobs[k].id, p);
    assert Find(st, st.jobs[k].id) == k;
    assert r.store.jobs[k] == r.reply.body;
    assert !r.reply.body.isActive;
  }
}

=== FILE: job_slice.dfy ===
/** The `jobs` slice: the job list, the caller's own jobs, the referral list
    it fetches, the job being viewed, the loading flag, the last error and
    the search filters. */
module JobSlice {
  import opened Base
  import opened Lists
  import opened Views

  datatype State = State(
    jobs: seq<JobDoc>,
    myJobs: seq<JobDoc>,
    referrals: seq<ReferralDoc>,
    currentJob: Option<JobDoc>,
    loading: bool,
    error: Option<Json>,
    filters: Record)

  /** Four empty filter strings. */
  const InitialFilters: Record :=
    map["search" := Str(""), "location" := Str(""), "jobType" := Str(""), "experienceLevel" := Str("")]

  const Initial: State := State([], [], [], None, false, None, InitialFilters)

  /** The thunks whose life cycle the slice follows. */
  datatype Thunk = FetchJobs | FetchMyJobs | FetchReferrals | CreateJob | UpdateJob | DeleteJob | FetchJobById | RejectJob

  /** The two thunks that do not catch their own errors; their rejection
      carries only the thrown error's message. */
  predicate Uncaught(t: Thunk) {
    t == FetchJobs || t == FetchJobById
  }

  datatype Action =
    | SetCurrentJob(current: Option<JobDoc>)
    | SetFilters(changes: Record)
    | ClearFilters
    | ClearError
    | Pending(thunk: Thunk)
    | JobsFetched(jobs: seq<JobDoc>)
    | MyJobsFetched(jobs: seq<JobDoc>)
    | ReferralsFetched(referrals: seq<ReferralDoc>)
    | JobCreated(job: JobDoc)
    | JobUpdated(job: JobDoc)
    | JobDeleted(id: string)
    | JobFetched(job: JobDoc)
    | JobRejected(id: string)
    | Rejected(thunk: Thunk, errorMessage: Option<string>, payload: Option<Json>)

  /** What a rejection records: the thrown error's message for the uncaught
      thunks, the rejection payload for the others. */
  function RejectionError(t: Thunk, errorMessage: Option<string>, payload: Option<Json>): (r: Option<Json>)
    ensures Uncaught(t) ==> r == StrJson(errorMessage)
    ensures !Uncaught(t) ==> r == payload
  {
    if Uncaught(t) then StrJson(errorMessage) else payload
  }

  function Reduce(s: State, a: Action): (r: State)
    ensures a.SetCurrentJob? ==> r == s.(currentJob := a.current)
    ensures a.SetFilters? ==> r == s.(filters := Spread(s.filters, a.changes))
    ensures a.ClearFilters? ==> r == s.(filters := InitialFilters)
    ensures a.ClearError? ==> r == s.(error := None)
    ensures a.Pending? ==> r == s.(loading := true, error := None)
    ensures a.JobsFetched? ==> r == s.(loading := false, jobs := a.jobs)
    ensures a.MyJobsFetched? ==> r == s.(loading := false, myJobs := a.jobs)
    ensures a.ReferralsFetched? ==> r == s.(loading := false, referrals := a.referrals)
    ensures a.JobCreated? ==> r == s.(loading := false, jobs := s.jobs + [a.job], myJobs := s.myJobs + [a.job])
    ensures a.JobUpdated? ==>
              r == s.(loading := false, jobs := ReplaceFirst(s.jobs, a.job), myJobs := ReplaceFirst(s.myJobs, a.job))
    ensures a.JobDeleted? ==>
              r == s.(loading := false, jobs := RemoveId(s.jobs, a.id), myJobs := RemoveId(s.myJobs, a.id))
    ensures a.JobFetched? ==> r == s.(loading := false, currentJob := Some(a.job))
    ensures a.JobRejected? ==> r == s.(loading := false, jobs := RemoveId(s.jobs, a.id))
    ensures a.Rejected? ==> r == s.(loading := false, error := RejectionError(a.thunk, a.errorMessage, a.payload))
  {
    match a
    case SetCurrentJob(j) => s.(currentJob := j)
    case SetFilters(p) => s.(filters := s.filters + p)
    case ClearFilters => s.(filters := InitialFilters)
    case ClearError => s.(error := None)
    case Pending(_) => s.(loading := true, error := None)
    case JobsFetched(js) => s.(loading := false, jobs := js)
    case MyJobsFetched(js) => s.(loading := false, myJobs := js)
    case ReferralsFetched(rs) => s.(loading := false, referrals := rs)
    case JobCreated(j) => s.(loading := false, jobs := s.jobs + [j], myJobs := s.myJobs + [j])
    case JobUpdated(j) => s.(loading := false, jobs := ReplaceFirst(s.jobs, j), myJobs := ReplaceFirst(s.myJobs, j))
    case JobDeleted(id) => s.(loading := false, jobs := RemoveId(s.jobs, id), myJobs := RemoveId(s.myJobs, id))
    case JobFetched(j) => s.(loading := false, currentJob := Some(j))
    case JobRejected(id) => s.(loading := false, jobs := RemoveId(s.jobs, id))
    case Rejected(t, m, p) => s.(loading := false, error := RejectionError(t, m, p))
  }

  /** `setFilters` overwrites exactly the keys in the payload. */
  lemma SetFiltersOverwritesOnlyPayloadKeys(s: State, payload: Record, k: string)
    requires k in s.filters && k !in payload
    ensures Reduce(s, SetFilters(payload)).filters[k] == s.filters[k]
  {
  }

  /** After `clearFilters`, every one of the four filters is the empty string,
      whatever was set before. */
  lemma ClearFiltersAfterSet(s: State, payload: Record)
    ensures var r := Reduce(Reduce(s, SetFilters(payload)), ClearFilters);
            r.filters.Keys == {"search", "location", "jobType", "experienceLevel"}
            && forall k :: k in r.filters ==> r.filters[k] == Str("")
  {
  }

  /** A created job ends both lists, after everything that was there. */
  lemma CreatedJobAppended(s: State, j: JobDoc)
    ensures var r := Reduce(s, JobCreated(j));
            && r.jobs[..|s.jobs|] == s.jobs && r.jobs[|s.jobs|] == j && |r.jobs| == |s.jobs| + 1
            && r.myJobs[..|s.myJobs|] == s.myJobs && r.myJobs[|s.myJobs|] == j
  {
    var r := Reduce(s, JobCreated(j));
    assert r.jobs[..|s.jobs|] == s.jobs;
    assert r.myJobs[..|s.myJobs|] == s.myJobs;
  }

  /** Updating keeps the length of both lists and leaves a list without the
      job's id as it was. */
  lemma UpdatePreservesShape(s: State, j: JobDoc)
    ensures var r := Reduce(s, JobUpdated(j));
            && |r.jobs| == |s.jobs| && |r.myJobs| == |s.myJobs|
            && (j.id !in IdsOf(s.jobs) ==> r.jobs == s.jobs)
            && (j.id !in IdsOf(s.myJobs) ==> r.myJobs == s.myJobs)
            && (j.id in IdsOf(s.jobs) ==> j in r.jobs)
  {
  }

  /** After deleting, no job with the id is left in either list; after
      rejecting, none is left in `jobs` and `myJobs` is untouched. */
  lemma DeleteAndRejectRemove(s: State, id: string)
    ensures var r := Reduce(s, JobDeleted(id));
            id !in IdsOf(r.jobs) && id !in IdsOf(r.myJobs)
    ensures var r := Reduce(s, JobRejected(id));
            id !in IdsOf(r.jobs) && r.myJobs == s.myJobs
  {
  }

  /** Deleting undoes a creation when the id was new to both lists. */
  lemma DeleteUndoesCreate(s: State, j: JobDoc)
    requires j.id !in IdsOf(s.jobs) && j.id !in IdsOf(s.myJobs)
    ensures var r := Reduce(Reduce(s, JobCreated(j)), JobDeleted(j.id));
            r.jobs == s.jobs && r.myJobs == s.myJobs
  {
    RemoveAppendedFresh(s.jobs, j);
    RemoveAppendedFresh(s.myJobs, j);
  }
}

=== FILE: lists.dfy ===
/** The list operations the client and server share: `Array.prototype.filter`,
    `findIndex` on `_id`, replace-first-by-id, remove-all-by-id, and the
    order-preserving subsequence relation that specifies them. */
module Lists {

  /** A record as the client holds it: its `_id` and the rest of its fields. */
  datatype Doc<T> = Doc(id: string, body: T)

  /** `a` is `b` with some elements deleted, the survivors in their order. */
  predicate Subseq<T(==)>(a: seq<T>, b: seq<T>)
    decreases |b|
  {
    if a == [] then true
    else if b == [] then false
    else if a[0] == b[0] then Subseq(a[1..], b[1..])
    else Subseq(a, b[1..])
  }

  /** Every list is a subsequence of itself. */
  lemma {:induction false} SubseqRefl<T>(a: seq<T>)
    ensures Subseq(a, a)
  {
    if a != [] { SubseqRefl(a[1..]); }
  }

  /** `s.filter(p)`: the elements of `s` that satisfy `p`, in their original
      order, and nothing else; `FilterMultiplicity` adds that each is kept as
      often as it occurs. */
  function Filter<T(==,!new)>(s: seq<T>, p: T -> bool): (r: seq<T>)
    ensures |r| <= |s|
    ensures forall k :: 0 <= k < |r| ==> p(r[k])
    ensures Subseq(r, s)
    ensures forall x :: x in r <==> x in s && p(x)
  {
    if s == [] then []
    else
      var rest := Filter(s[1..], p);
      assert s == [s[0]] + s[1..];
      if p(s[0]) then [s[0]] + rest else rest
  }

  /** An element survives filtering exactly when it was present and
      satisfies `p`. */
  lemma {:induction false} FilterMembers<T(!new)>(s: seq<T>, p: T -> bool, x: T)
    ensures x in Filter(s, p) <==> x in s && p(x)
  {
    if s != [] {
      FilterMembers(s[1..], p, x);
      assert s == [s[0]] + s[1..];
    }
  }

  /** Filtering keeps every element satisfying `p` as often as it occurs, and
      no other element. */
  lemma {:induction false} FilterMultiplicity<T(!new)>(s: seq<T>, p: T -> bool, x: T)
    ensures multiset(Filter(s, p))[x] == if p(x) then multiset(s)[x] else 0
  {
    if s != [] {
      FilterMultiplicity(s[1..], p, x);
      assert s == [s[0]] + s[1..];
    }
  }

  /** Filtering a concatenation filters each part. */
  lemma {:induction false} FilterAppend<T(!new)>(a: seq<T>, b: seq<T>, p: T -> bool)
    ensures Filter(a + b, p) == Filter(a, p) + Filter(b, p)
  {
    if a == [] {
      assert a + b == b;
    } else {
      var ab := a + b;
      assert ab[0] == a[0] && ab[1..] == a[1..] + b;
      FilterAppend(a[1..], b, p);
    }
  }

  /** Two filters commute. */
  lemma {:induction false} FilterCommute<T(!new)>(s: seq<T>, p: T -> bool, q: T -> bool)
    ensures Filter(Filter(s, p), q) == Filter(Filter(s, q), p)
  {
    if s != [] { FilterCommute(s[1..], p, q); }
  }

  /** Filtering with a predicate every element satisfies changes nothing. */
  lemma {:induction false} FilterAll<T(!new)>(s: seq<T>, p: T -> bool)
    requires forall k :: 0 <= k < |s| ==> p(s[k])
    ensures Filter(s, p) == s
  {
    if s != [] { FilterAll(s[1..], p); }
  }

  /** Filtering with a predicate no element satisfies leaves nothing. */
  lemma {:induction false} FilterNone<T(!new)>(s: seq<T>, p: T -> bool)
    requires forall k :: 0 <= k < |s| ==> !p(s[k])
    ensures Filter(s, p) == []
  {
    if s != [] { FilterNone(s[1..], p); }
  }

  /** `s.filter(p).length`. */
  function Count<T(==,!new)>(s: seq<T>, p: T -> bool): nat {
    |Filter(s, p)|
  }

  /** Counting under two predicates that never both hold adds up to at most
      the length. */
  lemma {:induction false} CountDisjoint<T(!new)>(s: seq<T>, p: T -> bool, q: T -> bool)
    requires forall x :: !(p(x) && q(x))
    ensures Count(s, p) + Count(s, q) <= |s|
  {
    if s != [] { CountDisjoint(s[1..], p, q); }
  }

  /** Three counts under predicates of which no two hold together add up to
      at most the length, and to exactly the length when one of them holds
      for every element. */
  lemma {:induction false} CountThree<T(!new)>(s: seq<T>, p: T -> bool, q: T -> bool, r: T -> bool)
    requires forall x :: !(p(x) && q(x)) && !(p(x) && r(x)) && !(q(x) && r(x))
    ensures Count(s, p) + Count(s, q) + Count(s, r) <= |s|
    ensures (forall k :: 0 <= k < |s| ==> p(s[k]) || q(s[k]) || r(s[k]))
            ==> Count(s, p) + Count(s, q) + Count(s, r) == |s|
  {
    if s != [] {
      CountThree(s[1..], p, q, r);
      assert forall k :: 1 <= k < |s| ==> s[1..][k - 1] == s[k];
    }
  }

  /** `s.findIndex(d => d._id === id)`: the first position holding `id`, or
      -1 when no element has it. */
  function IndexOfId<T>(s: seq<Doc<T>>, id: string): (r: int)
    ensures -1 <= r < |s|
    ensures r >= 0 ==> s[r].id == id
    ensures forall k :: 0 <= k < |s| && (r == -1 || k < r) ==> s[k].id != id
  {
    if s == [] then -1
    else if s[0].id == id then 0
    else
      var i := IndexOfId(s[1..], id);
      if i == -1 then -1 else i + 1
  }

  /** The update idiom `i = findIndex(...); if (i !== -1) s[i] = d`: the first
      element sharing `d`'s id is replaced by `d`; every other position keeps
      its element, and a list without that id is returned unchanged. */
  function ReplaceFirst<T>(s: seq<Doc<T>>, d: Doc<T>): (r: seq<Doc<T>>)
    ensures |r| == |s|
    ensures (forall k :: 0 <= k < |s| ==> s[k].id != d.id) ==> r == s
    ensures forall k :: 0 <= k < |s| ==>
              r[k] == if k == IndexOfId(s, d.id) then d else s[k]
    ensures d.id in IdsOf(s) ==> d in r
  {
    var i := IndexOfId(s, d.id);
    if i == -1 then s else s[i := d]
  }

  /** The ids occurring in `s`. */
  function IdsOf<T>(s: seq<Doc<T>>): set<string> {
    set k | 0 <= k < |s| :: s[k].id
  }

  /** The filter callback `d => d._id !== id`. */
  function OtherId<T>(id: string): Doc<T> -> bool {
    (d: Doc<T>) => d.id != id
  }

  /** `s.filter(d => d._id !== id)`: every element with that id is removed and
      every other one kept, in order. */
  function RemoveId<T(==,!new)>(s: seq<Doc<T>>, id: string): (r: seq<Doc<T>>)
    ensures id !in IdsOf(r)
    ensures forall d :: d in r <==> d in s && d.id != id
    ensures Subseq(r, s)
    ensures id !in IdsOf(s) ==> r == s
    ensures IdsOf(r) == IdsOf(s) - {id}
  {
    var r := Filter(s, OtherId<T>(id));
    RemoveIdIds(s, id, r);
    forall d ensures d in r <==> d in s && d.id != id {
      FilterMembers(s, OtherId<T>(id), d);
    }
    r
  }

  lemma RemoveIdIds<T(!new)>(s: seq<Doc<T>>, id: string, r: seq<Doc<T>>)
    requires r == Filter(s, OtherId<T>(id))
    ensures id !in IdsOf(s) ==> r == s
    ensures IdsOf(r) == IdsOf(s) - {id}
  {
    if id !in IdsOf(s) {
      FilterAll(s, OtherId<T>(id));
    }
    forall x | x in IdsOf(r) ensures x in IdsOf(s) - {id} {
      var k :| 0 <= k < |r| && r[k].id == x;
      FilterMembers(s, OtherId<T>(id), r[k]);
      var j :| 0 <= j < |s| && s[j] == r[k];
    }
    forall x | x in IdsOf(s) - {id} ensures x in IdsOf(r) {
      var k :| 0 <= k < |s| && s[k].id == x;
      FilterMembers(s, OtherId<T>(id), s[k]);
      var j :| 0 <= j < |r| && r[j] == s[k];
    }
  }

  /** No two elements share an id. */
  predicate UniqueIds<T>(s: seq<Doc<T>>) {
    forall i, j :: 0 <= i < j < |s| ==> s[i].id != s[j].id
  }

  /** In a list with unique ids, removing the id found at position `i` deletes
      exactly position `i`. */
  lemma {:induction false} RemoveUniqueAt<T(!new)>(s: seq<Doc<T>>, i: nat)
    requires UniqueIds(s) && i < |s|
    ensures RemoveId(s, s[i].id) == s[..i] + s[i + 1..]
  {
    var p := OtherId<T>(s[i].id);
    var a, b := s[..i], s[i + 1..];
    assert s == a + [s[i]] + b;
    forall k | 0 <= k < |a| ensures p(a[k]) {
      assert a[k] == s[k];
    }
    forall k | 0 <= k < |b| ensures p(b[k]) {
      assert b[k] == s[i + 1 + k];
    }
    FilterDropsOne(a, s[i], b, p);
  }

  /** Filtering out exactly one element from between two runs that pass. */
  lemma FilterDropsOne<T(!new)>(a: seq<T>, x: T, b: seq<T>, p: T -> bool)
    requires forall k :: 0 <= k < |a| ==> p(a[k])
    requires !p(x)
    requires forall k :: 0 <= k < |b| ==> p(b[k])
    ensures Filter(a + [x] + b, p) == a + b
  {
    FilterAppend(a, [x], p);
    FilterAll(a, p);
    FilterRejectsOne(x, p);
    assert Filter(a + [x], p) == a;
    FilterAppend(a + [x], b, p);
    FilterAll(b, p);
  }

  lemma FilterRejectsOne<T(!new)>(x: T, p: T -> bool)
    requires !p(x)
    ensures Filter([x], p) == []
  {
    assert [x][1..] == [];
  }

  /** `s` back to front. */
  function Reverse<T>(s: seq<T>): (r: seq<T>)
    ensures |r| == |s|
    ensures forall k :: 0 <= k < |s| ==> r[k] == s[|s| - 1 - k]
  {
    if s == [] then [] else Reverse(s[1..]) + [s[0]]
  }

  /** Reversing keeps exactly the same elements. */
  lemma ReverseIn<T>(s: seq<T>, x: T)
    ensures x in Reverse(s) <==> x in s
  {
    var r := Reverse(s);
    if x in s {
      var k :| 0 <= k < |s| && s[k] == x;
      assert r[|s| - 1 - k] == x;
    }
  }

  /** Reversing twice gives the list back. */
  lemma ReverseReverse<T>(s: seq<T>)
    ensures Reverse(Reverse(s)) == s
  {
  }

  /** Removing the id of an element just appended under a fresh id gives the
      list back. */
  lemma RemoveAppendedFresh<T(!new)>(s: seq<Doc<T>>, d: Doc<T>)
    requires d.id !in IdsOf(s)
    ensures RemoveId(s + [d], d.id) == s
  {
    var p := OtherId<T>(d.id);
    FilterAppend(s, [d], p);
    FilterAll(s, p);
    FilterRejectsOne(d, p);
  }
}

=== FILE: notifications.dfy ===
/** The notifications page: notifications grouped under their calendar date,
    the message shown for each kind of notification, and when "Mark all as
    read" is enabled. */
module Notifications {
  import opened Base
  import opened Text
  import opened Lists

  /** A notification as the page reads it. `date` is the locale date string
      of its creation time, which the browser computes; the sender and job
      fields are absent when not populated; `isRead` is absent on a document
      that never had it set. */
  datatype Notification = Notification(
    kind: string, date: string,
    senderFirstName: Option<string>, senderLastName: Option<string>,
    jobTitle: Option<string>, jobCompany: Option<string>,
    message: Option<string>, isRead: Option<bool>)

  datatype Group = Group(date: string, items: seq<Notification>)

  function OnDate(d: string): Notification -> bool {
    (n: Notification) => n.date == d
  }

  /** The position of the group for date `d`, or -1. */
  function GroupIndex(gs: seq<Group>, d: string): (r: int)
    ensures -1 <= r < |gs|
    ensures r >= 0 ==> gs[r].date == d
    ensures r == -1 ==> forall i :: 0 <= i < |gs| ==> gs[i].date != d
  {
    if gs == [] then -1
    else
      var i := GroupIndex(gs[..|gs| - 1], d);
      if i >= 0 then i else if gs[|gs| - 1].date == d then |gs| - 1 else -1
  }

  /** One step of the `forEach`: the notification joins its date's group,
      which is created at the end when the date is new. */
  function Insert(gs: seq<Group>, n: Notification): seq<Group> {
    var i := GroupIndex(gs, n.date);
    if i == -1 then gs + [Group(n.date, [n])] else gs[i := Group(n.date, gs[i].items + [n])]
  }

  /** The position of the first notification dated `d`, or `|ns|`. */
  function FirstOn(ns: seq<Notification>, d: string): (r: nat)
    ensures r <= |ns|
    ensures r < |ns| ==> ns[r].date == d
    ensures forall k :: 0 <= k < r ==> ns[k].date != d
  {
    if ns == [] then 0
    else if ns[0].date == d then 0
    else FirstOn(ns[1..], d) + 1
  }

  function Total(gs: seq<Group>): nat {
    if gs == [] then 0 else Total(gs[..|gs| - 1]) + |gs[|gs| - 1].items|
  }

  /** What the grouping keeps true of the notifications seen so far: one
      group per date that occurs, in order of each date's first occurrence,
      each holding exactly the notifications of its date in their order,
      and every notification in exactly one group. */
  predicate Grouped(gs: seq<Group>, ns: seq<Notification>) {
    && (forall i, j :: 0 <= i < j < |gs| ==> FirstOn(ns, gs[i].date) < FirstOn(ns, gs[j].date))
    && (forall i :: 0 <= i < |gs| ==> gs[i].items == Filter(ns, OnDate(gs[i].date)))
    && (forall i :: 0 <= i < |gs| ==> FirstOn(ns, gs[i].date) < |ns|)
    && (forall k :: 0 <= k < |ns| ==> GroupIndex(gs, ns[k].date) >= 0)
    && Total(gs) == |ns|
  }

  /** `groupByDate`. */
  function GroupByDate(ns: seq<Notification>): (gs: seq<Group>)
    ensures Grouped(gs, ns)
  {
    if ns == [] then []
    else
      var gs := GroupByDate(ns[..|ns| - 1]);
      GroupLast(gs, ns);
      Insert(gs, ns[|ns| - 1])
  }

  /** Inserting the last notification into a grouping of the others groups
      them all. */
  lemma GroupLast(gs: seq<Group>, ns: seq<Notification>)
    requires ns != [] && Grouped(gs, ns[..|ns| - 1])
    ensures Grouped(Insert(gs, ns[|ns| - 1]), ns)
  {
    var prefix, n := ns[..|ns| - 1], ns[|ns| - 1];
    assert prefix + [n] == ns;
    InsertKeepsGrouped(gs, prefix, n);
  }

  lemma TotalAppend(gs: seq<Group>, g: Group)
    ensures Total(gs + [g]) == Total(gs) + |g.items|
  {
    assert (gs + [g])[..|gs|] == gs;
  }

  lemma {:induction false} TotalUpdate(gs: seq<Group>, i: nat, g: Group)
    requires i < |gs|
    ensures Total(gs[i := g]) == Total(gs) - |gs[i].items| + |g.items|
    decreases |gs|
  {
    var last := |gs| - 1;
    if i < last {
      TotalUpdate(gs[..last], i, g);
      assert gs[i := g][..last] == gs[..last][i := g];
    } else {
      assert gs[i := g][..last] == gs[..last];
    }
  }

  /** A date's first occurrence does not move when a notification is
      appended after it. */
  lemma {:induction false} FirstOnAppend(ns: seq<Notification>, n: Notification, d: string)
    ensures FirstOn(ns + [n], d) == if FirstOn(ns, d) < |ns| then FirstOn(ns, d)
                                    else if n.date == d then |ns| else |ns| + 1
  {
    if ns != [] {
      FirstOnAppend(ns[1..], n, d);
      assert (ns + [n])[1..] == ns[1..] + [n];
    }
  }

  lemma FilterOnDateAppend(ns: seq<Notification>, n: Notification, d: string)
    ensures Filter(ns + [n], OnDate(d)) == Filter(ns, OnDate(d)) + (if n.date == d then [n] else [])
  {
    FilterAppend(ns, [n], OnDate(d));
    assert Filter([n], OnDate(d)) == (if n.date == d then [n] else []) by {
      assert [n][1..] == [];
    }
  }

  /** A date without a group has not occurred yet. */
  lemma NewDateUnseen(gs: seq<Group>, ns: seq<Notification>, d: string)
    requires Grouped(gs, ns) && GroupIndex(gs, d) == -1
    ensures FirstOn(ns, d) == |ns|
  {
    if FirstOn(ns, d) < |ns| {
      assert GroupIndex(gs, ns[FirstOn(ns, d)].date) >= 0;
    }
  }

  /** Insertion keeps every group's date and adds at most one group, for a
      date that had none. */
  lemma InsertDates(gs: seq<Group>, n: Notification)
    ensures var gs' := Insert(gs, n);
            && |gs| <= |gs'| <= |gs| + 1
            && (|gs'| > |gs| ==> GroupIndex(gs, n.date) == -1)
            && forall i :: 0 <= i < |gs'| ==> gs'[i].date == (if i < |gs| then gs[i].date else n.date)
  {
  }

  /** Each group's first occurrence stays where it was; a new group's is the
      appended notification. */
  lemma InsertFirstOn(gs: seq<Group>, ns: seq<Notification>, n: Notification)
    requires Grouped(gs, ns)
    ensures var gs', ns' := Insert(gs, n), ns + [n];
            forall i :: 0 <= i < |gs'| ==>
              FirstOn(ns', gs'[i].date) == if i < |gs| then FirstOn(ns, gs[i].date) else |ns|
  {
    var gs', ns' := Insert(gs, n), ns + [n];
    InsertDates(gs, n);
    forall i | 0 <= i < |gs'|
      ensures FirstOn(ns', gs'[i].date) == if i < |gs| then FirstOn(ns, gs[i].date) else |ns|
    {
      FirstOnAppend(ns, n, gs'[i].date);
      if i >= |gs| { NewDateUnseen(gs, ns, n.date); }
    }
  }

  /** Insertion keeps the groups in order of first occurrence. */
  lemma InsertKeepsOrder(gs: seq<Group>, ns: seq<Notification>, n: Notification)
    requires Grouped(gs, ns)
    ensures var gs', ns' := Insert(gs, n), ns + [n];
            && (forall i, j :: 0 <= i < j < |gs'| ==> FirstOn(ns', gs'[i].date) < FirstOn(ns', gs'[j].date))
            && (forall i :: 0 <= i < |gs'| ==> FirstOn(ns', gs'[i].date) < |ns'|)
  {
    InsertDates(gs, n);
    InsertFirstOn(gs, ns, n);
  }

  /** Insertion keeps every group equal to its date's notifications. */
  lemma InsertKeepsItems(gs: seq<Group>, ns: seq<Notification>, n: Notification)
    requires Grouped(gs, ns)
    ensures var gs', ns' := Insert(gs, n), ns + [n];
            forall i :: 0 <= i < |gs'| ==> gs'[i].items == Filter(ns', OnDate(gs'[i].date))
  {
    var gs', ns' := Insert(gs, n), ns + [n];
    var i := GroupIndex(gs, n.date);
    forall j | 0 <= j < |gs'| ensures gs'[j].items == Filter(ns', OnDate(gs'[j].date)) {
      FilterOnDateAppend(ns, n, gs'[j].date);
      if j >= |gs| {
        NewDateUnseen(gs, ns, n.date);
        FilterNone(ns, OnDate(n.date));
      }
    }
  }

  /** After insertion every notification seen has a group. */
  lemma InsertKeepsCover(gs: seq<Group>, ns: seq<Notification>, n: Notification)
    requires Grouped(gs, ns)
    ensures var gs', ns' := Insert(gs, n), ns + [n];
            forall k :: 0 <= k < |ns'| ==> GroupIndex(gs', ns'[k].date) >= 0
  {
    var gs', ns' := Insert(gs, n), ns + [n];
    var i := GroupIndex(gs, n.date);
    forall k | 0 <= k < |ns'| ensures GroupIndex(gs', ns'[k].date) >= 0 {
      if k < |ns| {
        assert ns'[k] == ns[k];
        var j := GroupIndex(gs, ns[k].date);
        assert gs'[j].date == gs[j].date;
        GroupIndexFinds(gs', j);
      } else if i == -1 {
        GroupIndexFinds(gs', |gs|);
      } else {
        GroupIndexFinds(gs', i);
      }
    }
  }

  /** Insertion adds one to the total size. */
  lemma InsertCounts(gs: seq<Group>, n: Notification)
    ensures Total(Insert(gs, n)) == Total(gs) + 1
  {
    var i := GroupIndex(gs, n.date);
    if i == -1 {
      TotalAppend(gs, Group(n.date, [n]));
    } else {
      TotalUpdate(gs, i, Group(n.date, gs[i].items + [n]));
    }
  }

  /** One step of the grouping keeps `Grouped`. */
  lemma InsertKeepsGrouped(gs: seq<Group>, ns: seq<Notification>, n: Notification)
    requires Grouped(gs, ns)
    ensures Grouped(Insert(gs, n), ns + [n])
  {
    InsertKeepsOrder(gs, ns, n);
    InsertKeepsItems(gs, ns, n);
    InsertKeepsCover(gs, ns, n);
    InsertCounts(gs, n);
  }

  /** A group's date is found at some position. */
  lemma GroupIndexFinds(gs: seq<Group>, j: nat)
    requires j < |gs|
    ensures GroupIndex(gs, gs[j].date) >= 0
  {
  }

  /** Every notification is in exactly one group: the group sizes add up to
      the number of notifications. */
  lemma GroupSizesAddUp(ns: seq<Notification>)
    ensures Total(GroupByDate(ns)) == |ns|
  {
  }

  /** Each group holds the notifications of its date, in their order, and
      no two groups share a date. */
  lemma GroupsByDate(ns: seq<Notification>)
    ensures var gs := GroupByDate(ns);
            && (forall i :: 0 <= i < |gs| ==>
                  gs[i].items != [] && Subseq(gs[i].items, ns)
                  && forall k :: 0 <= k < |gs[i].items| ==> gs[i].items[k].date == gs[i].date)
            && (forall i, j :: 0 <= i < j < |gs| ==> gs[i].date != gs[j].date)
  {
    var gs := GroupByDate(ns);
    forall i | 0 <= i < |gs| ensures gs[i].items != [] {
      var f := FirstOn(ns, gs[i].date);
      FilterMembers(ns, OnDate(gs[i].date), ns[f]);
    }
  }

  /** `undefined` inside a template literal prints as "undefined". */
  function Render(s: Option<string>): (r: string)
    ensures s.Some? ==> r == s.value
    ensures s.None? ==> r == "undefined"
  {
    s.GetOr("undefined")
  }

  const Quote: string := "\""

  /** `${pre}${x}${mid}${y}${post}`: a template with two interpolated
      parts, each of which the sentence includes. */
  function Sentence(pre: string, x: string, mid: string, y: string, post: string): (r: string)
    ensures Includes(r, x) && Includes(r, y)
    ensures |r| == |pre| + |x| + |mid| + |y| + |post|
  {
    IncludesMiddle(pre, x, mid + y + post);
    IncludesMiddle(pre + x + mid, y, post);
    assert pre + x + (mid + y + post) == pre + x + mid + y + post;
    pre + x + mid + y + post
  }

  /** A sentence whose first part is quoted, spelled out left to right. */
  lemma SentenceSpelled(pre: string, q: string, t: string, mid: string, y: string, post: string)
    ensures Sentence(pre, q + t + q, mid, y, post) == pre + q + t + q + mid + y + post
  {
    Regroup(pre, q + t, q);
    Regroup(pre, q, t);
  }

  /** Concatenation regroups freely. */
  lemma Regroup(a: string, b: string, c: string)
    ensures a + (b + c) == a + b + c
  {
  }

  /** A sentence that ends on its quoted second part, spelled out left to
      right. */
  lemma SentenceSpelledLast(x: string, mid: string, q: string, t: string)
    ensures Sentence("", x, mid, q + t + q, "") == x + mid + q + t + q
  {
    assert [] + x == x;
    Regroup(x + mid, q + t, q);
    Regroup(x + mid, q, t);
  }

  /** The sender's names, then the quoted job title. */
  function ApplicationSentence(n: Notification): (r: string)
    ensures r == Render(n.senderFirstName) + " " + Render(n.senderLastName)
                 + " applied to your job posting for " + Quote + Render(n.jobTitle) + Quote
    ensures Includes(r, Render(n.senderFirstName) + " " + Render(n.senderLastName))
    ensures Includes(r, Quote + Render(n.jobTitle) + Quote)
  {
    var sender := Render(n.senderFirstName) + " " + Render(n.senderLastName);
    var title := Quote + Render(n.jobTitle) + Quote;
    SentenceSpelledLast(sender, " applied to your job posting for ", Quote, Render(n.jobTitle));
    Sentence("", sender, " applied to your job posting for ", title, "")
  }

  /** The quoted job title and the company between a fixed opening and a
      fixed ending. */
  function JobSentence(pre: string, n: Notification, post: string): (r: string)
    ensures r == pre + Quote + Render(n.jobTitle) + Quote + " at " + Render(n.jobCompany) + post
    ensures Includes(r, Quote + Render(n.jobTitle) + Quote) && Includes(r, Render(n.jobCompany))
  {
    SentenceSpelled(pre, Quote, Render(n.jobTitle), " at ", Render(n.jobCompany), post);
    Sentence(pre, Quote + Render(n.jobTitle) + Quote, " at ", Render(n.jobCompany), post)
  }

  /** `getNotificationMessage`: a sentence per known kind, naming the job
      (absent fields print as "undefined"); any other kind shows its own
      message, or "New notification" when it has none. */
  function Message(n: Notification): (r: string)
    ensures n.kind in {"job_application", "application_accepted", "application_rejected", "job_match"}
            ==> Includes(r, Quote + Render(n.jobTitle) + Quote)
    ensures n.kind in {"application_accepted", "application_rejected", "job_match"}
            ==> Includes(r, Render(n.jobCompany))
    ensures n.kind == "job_application" ==> Includes(r, Render(n.senderFirstName) + " " + Render(n.senderLastName))
    ensures n.kind !in {"job_application", "application_accepted", "application_rejected", "job_match"}
            ==> r == StrOr(n.message, "New notification")
    ensures n.kind == "job_application" ==>
              r == Render(n.senderFirstName) + " " + Render(n.senderLastName)
                   + " applied to your job posting for " + Quote + Render(n.jobTitle) + Quote
    ensures n.kind == "application_accepted" ==>
              r == "Your application for " + Quote + Render(n.jobTitle) + Quote
                   + " at " + Render(n.jobCompany) + " has been accepted!"
    ensures n.kind == "application_rejected" ==>
              r == "Your application for " + Quote + Render(n.jobTitle) + Quote
                   + " at " + Render(n.jobCompany) + " has been rejected."
    ensures n.kind == "job_match" ==>
              r == "New job match! " + Quote + Render(n.jobTitle) + Quote
                   + " at " + Render(n.jobCompany) + " matches your skills."
    ensures r != ""
  {
    if n.kind == "job_application" then ApplicationSentence(n)
    else if n.kind == "application_accepted" then JobSentence("Your application for ", n, " has been accepted!")
    else if n.kind == "application_rejected" then JobSentence("Your application for ", n, " has been rejected.")
    else if n.kind == "job_match" then JobSentence("New job match! ", n, " matches your skills.")
    else StrOr(n.message, "New notification")
  }

  /** Whatever the job and the sender, the accepted and the rejected
      message about the same notification read differently. */
  lemma AcceptedRejectedDiffer(n: Notification)
    ensures Message(n.(kind := "application_accepted")) != Message(n.(kind := "application_rejected"))
  {
    var a := Message(n.(kind := "application_accepted"));
    var b := Message(n.(kind := "application_rejected"));
    assert a[|a| - 9] == 'a';
    assert b[|b| - 9] == 'r';
  }

  /** A notification counts as unread unless `isRead` is true. */
  predicate Unread(n: Notification) {
    n.isRead != Some(true)
  }

  /** `notifications?.some(n => !n.isRead)`, `false` when the list is
      absent. */
  function AnyUnread(ns: seq<Notification>): (r: bool)
    ensures r <==> exists k :: 0 <= k < |ns| && Unread(ns[k])
  {
    if ns == [] then false
    else if Unread(ns[0]) then true
    else
      assert forall k :: 1 <= k < |ns| ==> ns[k] == ns[1..][k - 1];
      AnyUnread(ns[1..])
  }

  /** "Mark all as read" is enabled exactly when the list is loaded and some
      notification in it is unread. */
  function MarkAllEnabled(ns: Option<seq<Notification>>): (r: bool)
    ensures r <==> ns.Some? && exists k :: 0 <= k < |ns.value| && Unread(ns.value[k])
  {
    ns.Some? && AnyUnread(ns.value)
  }
}

=== FILE: profile_form.dfy ===
/** The profile editor: the editable copy of the user's profile, the drafts
    for a new skill, experience, education entry and project, the list edits
    with their required-field guards, and the accept/reject choice the
    profile card offers a reviewer. */
module ProfileForm {
  import opened Base
  import opened Text
  import opened Views

  datatype Experience = Experience(role: string, company: string, startDate: string, endDate: string, description: string)
  datatype Education = Education(degree: string, institution: string, year: string)
  datatype Project = Project(name: string, description: string)

  const BlankExperience: Experience := Experience("", "", "", "", "")
  const BlankEducation: Education := Education("", "", "")
  const BlankProject: Project := Project("", "")

  /** The text fields of the editable copy. */
  const TextFields: seq<string> :=
    ["firstName", "lastName", "email", "phone", "location", "bio", "githubUrl", "linkedinUrl", "portfolioUrl"]

  /** The editable copy: the text fields by name, and the four lists. */
  datatype ProfileData = ProfileData(
    text: map<string, string>,
    skills: seq<string>,
    experience: seq<Experience>,
    education: seq<Education>,
    projects: seq<Project>)

  /** The user the card shows, with the fields the copy reads; an absent text
      field is simply not in `text`. */
  datatype UserView = UserView(
    text: map<string, string>,
    skills: Option<seq<string>>,
    experience: Option<seq<Experience>>,
    education: Option<seq<Education>>,
    projects: Option<seq<Project>>)

  /** The editable copy of a user (or of no user): each text field is the
      user's value or the empty string, each list the user's list or empty. */
  function FromUser(u: Option<UserView>): (p: ProfileData)
    ensures p.text.Keys == set k | k in TextFields
    ensures forall k :: k in TextFields ==>
              p.text[k] == if u.Some? && k in u.value.text then u.value.text[k] else ""
    ensures u.None? ==> p.skills == [] && p.experience == [] && p.education == [] && p.projects == []
    ensures u.Some? ==> && p.skills == u.value.skills.GetOr([])
                        && p.experience == u.value.experience.GetOr([])
                        && p.education == u.value.education.GetOr([])
                        && p.projects == u.value.projects.GetOr([])
  {
    var text := map k | k in TextFields :: if u.Some? && k in u.value.text then u.value.text[k] else "";
    match u
    case None => ProfileData(text, [], [], [], [])
    case Some(v) =>
      ProfileData(text, v.skills.GetOr([]), v.experience.GetOr([]), v.education.GetOr([]), v.projects.GetOr([]))
  }

  /** `handleInputChange`: exactly the named field takes the new value. */
  function InputChange(p: ProfileData, name: string, value: string): (r: ProfileData)
    ensures r.text.Keys == p.text.Keys + {name}
    ensures r.text[name] == value
    ensures forall k :: k in p.text && k != name ==> r.text[k] == p.text[k]
    ensures r.(text := p.text) == p
  {
    p.(text := p.text[name := value])
  }

  /** `list.filter((_, i) => i !== index)`: the element at `index` is
      dropped, if there is one. */
  function RemoveAt<T>(s: seq<T>, index: int): (r: seq<T>)
    ensures 0 <= index < |s| ==> r == s[..index] + s[index + 1..]
    ensures !(0 <= index < |s|) ==> r == s
  {
    if s == [] then []
    else
      var rest := RemoveAt(s[1..], index - 1);
      if index == 0 then
        assert rest == s[1..];
        rest
      else
        assert s == [s[0]] + s[1..];
        [s[0]] + rest
  }

  /** Removing keeps every other element in order: the survivors before the
      index keep their positions, those after it move down by one. */
  lemma RemoveAtShifts<T>(s: seq<T>, index: int, k: int)
    requires 0 <= index < |s| && 0 <= k < |s| - 1
    ensures RemoveAt(s, index)[k] == if k < index then s[k] else s[k + 1]
  {
  }

  /** The editor: the copy and the four drafts. */
  datatype Editor = Editor(
    data: ProfileData,
    newSkill: string,
    newExperience: Experience,
    newEducation: Education,
    newProject: Project)

  /** `handleAddSkill`: the trimmed draft is appended and the draft cleared
      when it is not blank; otherwise nothing happens. */
  function AddSkill(e: Editor): (r: Editor)
    ensures Trim(e.newSkill) != "" ==>
              r == e.(data := e.data.(skills := e.data.skills + [Trim(e.newSkill)]), newSkill := "")
    ensures Trim(e.newSkill) == "" ==> r == e
  {
    var t := Trim(e.newSkill);
    if t != "" then e.(data := e.data.(skills := e.data.skills + [t]), newSkill := "") else e
  }

  /** A blank draft adds nothing, whatever its whitespace. */
  lemma AddBlankSkill(e: Editor)
    requires AllSpace(e.newSkill)
    ensures AddSkill(e) == e
  {
    TrimEmptyIffAllSpace(e.newSkill);
  }

  /** An added skill never carries surrounding whitespace. */
  lemma AddedSkillTrimmed(e: Editor)
    requires !AllSpace(e.newSkill)
    ensures var s := AddSkill(e).data.skills; |s| > 0 && Trimmed(s[|s| - 1]) && s[|s| - 1] != ""
  {
    TrimEmptyIffAllSpace(e.newSkill);
  }

  /** `handleAddExperience`: role and company are required; the draft is then
      appended as it is and reset. */
  function AddExperience(e: Editor): (r: Editor)
    ensures e.newExperience.role != "" && e.newExperience.company != "" ==>
              r == e.(data := e.data.(experience := e.data.experience + [e.newExperience]), newExperience := BlankExperience)
    ensures e.newExperience.role == "" || e.newExperience.company == "" ==> r == e
  {
    if e.newExperience.role != "" && e.newExperience.company != "" then
      e.(data := e.data.(experience := e.data.experience + [e.newExperience]), newExperience := BlankExperience)
    else e
  }

  /** `handleAddEducation`: degree and institution are required. */
  function AddEducation(e: Editor): (r: Editor)
    ensures e.newEducation.degree != "" && e.newEducation.institution != "" ==>
              r == e.(data := e.data.(education := e.data.education + [e.newEducation]), newEducation := BlankEducation)
    ensures e.newEducation.degree == "" || e.newEducation.institution == "" ==> r == e
  {
    if e.newEducation.degree != "" && e.newEducation.institution != "" then
      e.(data := e.data.(education := e.data.education + [e.newEducation]), newEducation := BlankEducation)
    else e
  }

  /** `handleAddProject`: name and description are required. */
  function AddProject(e: Editor): (r: Editor)
    ensures e.newProject.name != "" && e.newProject.description != "" ==>
              r == e.(data := e.data.(projects := e.data.projects + [e.newProject]), newProject := BlankProject)
    ensures e.newProject.name == "" || e.newProject.description == "" ==> r == e
  {
    if e.newProject.name != "" && e.newProject.description != "" then
      e.(data := e.data.(projects := e.data.projects + [e.newProject]), newProject := BlankProject)
    else e
  }

  /** Removing the last position of a list that was just extended gives the
      list back. */
  lemma RemoveAtUndoesAppend<T>(s: seq<T>, x: T)
    ensures RemoveAt(s + [x], |s|) == s
  {
    assert (s + [x])[..|s|] == s;
  }

  /** Removing a skill that was just added, at the position it was added at,
      gives the previous list back. */
  lemma RemoveUndoesAddSkill(e: Editor)
    requires !AllSpace(e.newSkill)
    ensures RemoveAt(AddSkill(e).data.skills, |e.data.skills|) == e.data.skills
  {
    TrimEmptyIffAllSpace(e.newSkill);
    RemoveAtUndoesAppend(e.data.skills, Trim(e.newSkill));
  }

  /** The same for an experience entry. */
  lemma RemoveUndoesAddExperience(e: Editor)
    requires e.newExperience.role != "" && e.newExperience.company != ""
    ensures RemoveAt(AddExperience(e).data.experience, |e.data.experience|) == e.data.experience
  {
    RemoveAtUndoesAppend(e.data.experience, e.newExperience);
  }

  /** What pressing accept or reject on the profile card does. */
  datatype Effect = CallHandler | UpdateStatus(referralId: string, status: string) | NoEffect

  /** A handler passed in wins; otherwise a (non-empty) referral id gets a
      status update; otherwise nothing happens. */
  function Decide(hasHandler: bool, referralId: Option<string>, accept: bool): (r: Effect)
    ensures hasHandler <==> r == CallHandler
    ensures !hasHandler && referralId.Some? && referralId.value != "" ==>
              r == UpdateStatus(referralId.value, if accept then AcceptedName else RejectedName)
    ensures r == NoEffect <==> !hasHandler && (referralId.None? || referralId.value == "")
  {
    if hasHandler then CallHandler
    else if referralId.Some? && referralId.value != "" then
      UpdateStatus(referralId.value, if accept then AcceptedName else RejectedName)
    else NoEffect
  }
}

=== FILE: referral_model.dfy ===
/** The Referral document: the schema's enumerations, their spellings, the
    default status and the fields a referral cannot be saved without. */
module ReferralModel {
  import opened Base

  /** Document ids (MongoDB ObjectIds). */
  type Id = nat

  /** The only statuses the schema admits. */
  datatype Status = Pending | Shortlisted | Referred | Rejected | Hired

  function StatusName(s: Status): string {
    match s
    case Pending => "pending"
    case Shortlisted => "shortlisted"
    case Referred => "referred"
    case Rejected => "rejected"
    case Hired => "hired"
  }

  /** The enum validator: a string is a status exactly when it is the
      spelling of one. */
  function ParseStatus(t: string): (r: Option<Status>)
    ensures r.Some? ==> StatusName(r.value) == t
    ensures r.None? ==> forall s: Status :: StatusName(s) != t
  {
    if t == "pending" then Some(Pending)
    else if t == "shortlisted" then Some(Shortlisted)
    else if t == "referred" then Some(Referred)
    else if t == "rejected" then Some(Rejected)
    else if t == "hired" then Some(Hired)
    else None
  }

  /** Every status reads back from its spelling. */
  lemma StatusRoundTrip(s: Status)
    ensures ParseStatus(StatusName(s)) == Some(s)
  {
  }

  /** The client's 'accepted' is not a status of this schema. */
  lemma AcceptedIsNotAStatus()
    ensures ParseStatus("accepted") == None
  {
  }

  /** The status a referral is saved with when none is given. */
  const DefaultStatus: Status := Pending

  datatype InteractionType = View | Like | Message

  function InteractionTypeName(t: InteractionType): string {
    match t
    case View => "view"
    case Like => "like"
    case Message => "message"
  }

  function ParseInteractionType(t: string): (r: Option<InteractionType>)
    ensures r.Some? ==> InteractionTypeName(r.value) == t
    ensures r.None? ==> forall k: InteractionType :: InteractionTypeName(k) != t
  {
    if t == "view" then Some(View)
    else if t == "like" then Some(Like)
    else if t == "message" then Some(Message)
    else None
  }

  /** Which party of the referral performed an interaction. */
  datatype Initiator = RefereeSide | ReferrerSide

  function InitiatorName(i: Initiator): string {
    match i
    case RefereeSide => "referee"
    case ReferrerSide => "referrer"
  }

  function ParseInitiator(t: string): (r: Option<Initiator>)
    ensures r.Some? ==> InitiatorName(r.value) == t
    ensures r.None? ==> forall i: Initiator :: InitiatorName(i) != t
  {
    if t == "referee" then Some(RefereeSide)
    else if t == "referrer" then Some(ReferrerSide)
    else None
  }

  /** One entry of the interaction log (its timestamp comes from the clock
      and is not modelled). */
  datatype Interaction = Interaction(kind: InteractionType, initiator: Initiator, content: Option<string>)

  datatype Referral = Referral(
    id: Id,
    job: Id,
    referee: Id,
    referrer: Id,
    status: Status,
    notes: Option<string>,
    interactions: seq<Interaction>)

  /** Building and validating a new referral document: it saves only when the
      job, referee and referrer references are all given, and it always starts
      in the default status whatever the caller wanted. */
  function NewReferral(id: Id, job: Option<Id>, referee: Option<Id>, referrer: Option<Id>,
                       notes: Option<string>, log: seq<Interaction>): (r: Option<Referral>)
    ensures r.Some? <==> job.Some? && referee.Some? && referrer.Some?
    ensures r.Some? ==> r.value.status == DefaultStatus && r.value.id == id
    ensures r.Some? ==> r.value.job == job.value && r.value.referee == referee.value
                        && r.value.referrer == referrer.value
    ensures r.Some? ==> r.value.notes == notes && r.value.interactions == log
  {
    if job.Some? && referee.Some? && referrer.Some? then
      Some(Referral(id, job.value, referee.value, referrer.value, DefaultStatus, notes, log))
    else None
  }
}

=== FILE: referral_routes.dfy ===
/** The `/api/referrals` handlers as pure functions over an in-memory
    referral store: listing, lookup, creation, status update and the
    interaction log. The caller is the authenticated user id the auth
    middleware puts on the request. */
module ReferralRoutes {
  import opened Base
  import opened Http
  import opened Lists
  import opened ReferralModel

  /** The referral collection in creation order, and the next fresh id. */
  datatype Store = Store(referrals: seq<Referral>, nextId: Id)

  /** Ids are distinct and all below the next fresh id. */
  predicate Valid(st: Store) {
    && (forall i, j :: 0 <= i < j < |st.referrals| ==> st.referrals[i].id != st.referrals[j].id)
    && (forall k :: 0 <= k < |st.referrals| ==> st.referrals[k].id < st.nextId)
  }

  /** The store after a request, and the reply sent. */
  datatype Step<T> = Step(store: Store, reply: Reply<T>)

  const NotFoundMessage: string := "Referral not found"

  /** `Referral.findById(id)`: the position of the referral with that id, or
      -1. */
  function Find(st: Store, id: Id): (r: int)
    ensures -1 <= r < |st.referrals|
    ensures r >= 0 ==> st.referrals[r].id == id
    ensures r == -1 <==> forall k :: 0 <= k < |st.referrals| ==> st.referrals[k].id != id
    decreases |st.referrals|
  {
    if st.referrals == [] then -1
    else
      var last := |st.referrals| - 1;
      if st.referrals[last].id == id then last
      else Find(Store(st.referrals[..last], st.nextId), id)
  }

  /** Every earlier referral is still there, at its position, and its
      interaction log has only grown at the end. */
  predicate LogsExtend(st: Store, st': Store) {
    && |st.referrals| <= |st'.referrals|
    && forall k :: 0 <= k < |st.referrals| ==>
         && st'.referrals[k].id == st.referrals[k].id
         && st.referrals[k].interactions <= st'.referrals[k].interactions
  }

  /** The caller takes part in the referral, on either side. */
  predicate Involves(r: Referral, caller: Id) {
    r.referee == caller || r.referrer == caller
  }

  /** GET /: the referrals the caller takes part in, newest first. */
  function ListReferrals(st: Store, caller: Id): (r: seq<Referral>)
    ensures forall x :: x in r ==> x in st.referrals && Involves(x, caller)
    ensures forall k :: 0 <= k < |st.referrals| && Involves(st.referrals[k], caller)
              ==> st.referrals[k] in r
    ensures Subseq(Reverse(r), st.referrals)
  {
    var mine := Filter(st.referrals, InvolvesOf(caller));
    forall x ensures x in Reverse(mine) <==> x in st.referrals && Involves(x, caller) {
      FilterMembers(st.referrals, InvolvesOf(caller), x);
      ReverseIn(mine, x);
    }
    ReverseReverse(mine);
    Reverse(mine)
  }

  /** The filter callback of the listing. */
  function InvolvesOf(caller: Id): Referral -> bool {
    (x: Referral) => Involves(x, caller)
  }

  /** GET /:id. */
  function GetReferral(st: Store, id: Id): (r: Reply<Referral>)
    ensures r.NotFound? <==> forall k :: 0 <= k < |st.referrals| ==> st.referrals[k].id != id
    ensures r.Ok? ==> r.body in st.referrals && r.body.id == id
    ensures r.Ok? || r.NotFound?
  {
    var i := Find(st, id);
    if i == -1 then NotFound(NotFoundMessage) else Ok(st.referrals[i])
  }

  /** The fields of a create request body; `status` is accepted from the
      client but never read. */
  datatype CreateBody = CreateBody(jobId: Option<Id>, referrerId: Option<Id>, notes: Option<string>, status: Option<string>)

  const CreatedEntry: Interaction := Interaction(View, RefereeSide, Some("Referral request created"))

  /** POST /: the caller becomes the referee, the status is the schema default
      whatever the body says, and the log starts with one creation entry.
      Without a job or referrer the save fails and nothing is stored. */
  function CreateReferral(st: Store, caller: Id, body: CreateBody): (r: Step<Referral>)
    ensures r.reply.Created? <==> body.jobId.Some? && body.referrerId.Some?
    ensures r.reply.Created? || r.reply.ServerError?
    ensures r.reply.ServerError? ==> r.store == st
    ensures r.reply.Created? ==>
              && r.reply.body.referee == caller
              && r.reply.body.job == body.jobId.value
              && r.reply.body.referrer == body.referrerId.value
              && r.reply.body.status == Pending
              && r.reply.body.interactions == [CreatedEntry]
              && r.store.referrals == st.referrals + [r.reply.body]
    ensures LogsExtend(st, r.store)
    ensures Valid(st) ==> Valid(r.store)
  {
    match NewReferral(st.nextId, body.jobId, Some(caller), body.referrerId, body.notes, [CreatedEntry])
    case None => Step(st, ServerError(ServerErrorMessage))
    case Some(x) => Step(Store(st.referrals + [x], st.nextId + 1), Created(x))
  }

  function StatusEntry(status: string): Interaction {
    Interaction(View, ReferrerSide, Some("Status updated to " + status))
  }

  /** PUT /:id/status: 404 for an unknown id, 401 unless the caller is the
      referral's referrer, and otherwise the requested status is written and
      one log entry appended, whatever the current status is. A requested
      value outside the schema's enumeration fails validation on save: 500,
      nothing stored. */
  function UpdateStatus(st: Store, caller: Id, id: Id, status: string): (r: Step<Referral>)
    ensures r.reply.NotFound? <==> forall k :: 0 <= k < |st.referrals| ==> st.referrals[k].id != id
    ensures !r.reply.Ok? ==> r.store == st
    ensures r.reply.Unauthorized? ==> exists k :: 0 <= k < |st.referrals| && st.referrals[k].id == id
                                                 && st.referrals[k].referrer != caller
    ensures r.reply.ServerError? ==> ParseStatus(status).None?
    ensures r.reply.Ok? || r.reply.NotFound? || r.reply.Unauthorized? || r.reply.ServerError?
    ensures Valid(st) && (exists k :: 0 <= k < |st.referrals| && st.referrals[k].id == id
                                      && st.referrals[k].referrer != caller)
            ==> r.reply.Unauthorized?
    ensures r.reply.Ok? ==>
              exists k :: 0 <= k < |st.referrals| && st.referrals[k].id == id
                && st.referrals[k].referrer == caller
                && ParseStatus(status).Some?
                && r.reply.body == st.referrals[k].(status := ParseStatus(status).value,
                      interactions := st.referrals[k].interactions + [StatusEntry(status)])
                && r.store == st.(referrals := st.referrals[k := r.reply.body])
    ensures r.reply.Ok? ==> StatusName(r.reply.body.status) == status
    ensures LogsExtend(st, r.store)
    ensures Valid(st) ==> Valid(r.store)
  {
    var i := Find(st, id);
    if i == -1 then Step(st, NotFound(NotFoundMessage))
    else
      var x := st.referrals[i];
      if x.referrer != caller then Step(st, Unauthorized(NotAuthorizedMessage))
      else match ParseStatus(status)
        case None => Step(st, ServerError(ServerErrorMessage))
        case Some(s) =>
          var y := x.(status := s, interactions := x.interactions + [StatusEntry(status)]);
          Step(st.(referrals := st.referrals[i := y]), Ok(y))
  }

  /** POST /:id/interactions: anyone may append; the entry is marked as the
      referee's exactly when the caller is the referee. An interaction type
      outside the schema's enumeration fails validation on save. */
  function AddInteraction(st: Store, caller: Id, id: Id, kind: string, content: Option<string>): (r: Step<Referral>)
    ensures r.reply.NotFound? <==> forall k :: 0 <= k < |st.referrals| ==> st.referrals[k].id != id
    ensures !r.reply.Ok? ==> r.store == st
    ensures r.reply.ServerError? ==> ParseInteractionType(kind).None?
    ensures r.reply.Ok? || r.reply.NotFound? || r.reply.ServerError?
    ensures ParseInteractionType(kind).Some? && (exists k :: 0 <= k < |st.referrals| && st.referrals[k].id == id)
            ==> r.reply.Ok?
    ensures r.reply.Ok? ==>
              exists k :: 0 <= k < |st.referrals| && st.referrals[k].id == id
                && |r.reply.body.interactions| == |st.referrals[k].interactions| + 1
                && r.reply.body == st.referrals[k].(interactions := r.reply.body.interactions)
                && r.store == st.(referrals := st.referrals[k := r.reply.body])
    ensures r.reply.Ok? ==>
              var e := r.reply.body.interactions[|r.reply.body.interactions| - 1];
              && InteractionTypeName(e.kind) == kind && e.content == content
              && (e.initiator == RefereeSide <==> r.reply.body.referee == caller)
    ensures LogsExtend(st, r.store)
    ensures Valid(st) ==> Valid(r.store)
  {
    var i := Find(st, id);
    if i == -1 then Step(st, NotFound(NotFoundMessage))
    else
      var x := st.referrals[i];
      var initiator := if x.referee == caller then RefereeSide else ReferrerSide;
      match ParseInteractionType(kind)
      case None => Step(st, ServerError(ServerErrorMessage))
      case Some(t) =>
        var y := x.(interactions := x.interactions + [Interaction(t, initiator, content)]);
        Step(st.(referrals := st.referrals[i := y]), Ok(y))
  }

  /** No transition rule guards the status: the referrer can move a referral
      from any status to any status of the schema, including back to
      pending. */
  lemma AnyTransitionAllowed(st: Store, caller: Id, k: nat, target: Status)
    requires Valid(st) && k < |st.referrals| && st.referrals[k].referrer == caller
    ensures var r := UpdateStatus(st, caller, st.referrals[k].id, StatusName(target));
            r.reply.Ok? && r.reply.body.status == target && r.store.referrals[k].status == target
  {
    var i := Find(st, st.referrals[k].id);
    assert i == k;
    StatusRoundTrip(target);
  }

  /** The client's 'accepted' can never be stored: whoever asks, the store is
      unchanged and the answer is not a success. */
  lemma AcceptedNeverStored(st: Store, caller: Id, id: Id)
    ensures var r := UpdateStatus(st, caller, id, "accepted");
            r.store == st && !r.reply.Ok?
  {
    AcceptedIsNotAStatus();
  }

  /** Logging an interaction touches only the one referral's log: every
      status stays as it was, every other referral is untouched, and the
      updated referral is still listed for both its referee and its
      referrer. */
  lemma InteractionKeepsRest(st: Store, caller: Id, id: Id, kind: string, content: Option<string>)
    ensures var r := AddInteraction(st, caller, id, kind, content);
            && |r.store.referrals| == |st.referrals|
            && (forall k :: 0 <= k < |st.referrals| ==> r.store.referrals[k].status == st.referrals[k].status)
            && (forall k :: 0 <= k < |st.referrals| && st.referrals[k].id != id ==>
                  r.store.referrals[k] == st.referrals[k])
            && (r.reply.Ok? ==> && r.reply.body in ListReferrals(r.store, r.reply.body.referee)
                                && r.reply.body in ListReferrals(r.store, r.reply.body.referrer))
  {
    var r := AddInteraction(st, caller, id, kind, content);
    if r.reply.Ok? {
      var i := Find(st, id);
      assert r.store.referrals[i] == r.reply.body;
    }
  }

  /** Listing after a successful creation shows the new referral first, both
      to the referee and to the referrer. */
  lemma CreatedReferralListedFirst(st: Store, caller: Id, body: CreateBody, viewer: Id)
    requires body.jobId.Some? && body.referrerId.Some?
    requires viewer == caller || viewer == body.referrerId.value
    ensures var r := CreateReferral(st, caller, body);
            var l := ListReferrals(r.store, viewer);
            |l| > 0 && l[0] == r.reply.body
  {
    var r := CreateReferral(st, caller, body);
    var p := InvolvesOf(viewer);
    FilterAppend(st.referrals, [r.reply.body], p);
    assert Filter([r.reply.body], p) == [r.reply.body];
  }
}

=== FILE: referral_slice.dfy ===
/** The `referrals` slice: the referral list, the referral being viewed with
    its message thread, the loading flag, the last error and the filters. */
module ReferralSlice {
  import opened Base
  import opened Lists
  import opened Views

  datatype State = State(
    referrals: seq<ReferralDoc>,
    currentReferral: Option<ReferralDoc>,
    loading: bool,
    error: Option<Json>,
    filters: Record)

  /** Four empty filter strings. */
  const InitialFilters: Record :=
    map["status" := Str(""), "jobId" := Str(""), "refereeId" := Str(""), "referrerId" := Str("")]

  const Initial: State := State([], None, false, None, InitialFilters)

  datatype Action =
    | SetCurrentReferral(current: Option<ReferralDoc>)
    | SetFilters(changes: Record)
    | ClearFilters
    | ClearReferralError
    | AddMessage(message: Json)
    | Pending
    | ReferralsFetched(referrals: seq<ReferralDoc>)
    | ReferralCreated(referral: ReferralDoc)
    | StatusUpdated(referral: ReferralDoc)
    | MessageSent(message: Json)
    | Rejected(payload: Option<Json>)

  /** The current referral's thread with one message appended, an absent
      thread counting as empty; with no current referral, nothing. */
  function AppendMessage(current: Option<ReferralDoc>, m: Json): (r: Option<ReferralDoc>)
    ensures r.None? <==> current.None?
    ensures current.Some? ==>
              && r.value.id == current.value.id
              && r.value.body == current.value.body.(messages := r.value.body.messages)
              && r.value.body.messages == Some(current.value.body.messages.GetOr([]) + [m])
  {
    match current
    case None => None
    case Some(d) => Some(d.(body := d.body.(messages := Some(d.body.messages.GetOr([]) + [m]))))
  }

  /** The viewed referral takes the updated one only when the ids agree. */
  function RefreshCurrent(current: Option<ReferralDoc>, d: ReferralDoc): (r: Option<ReferralDoc>)
    ensures current.Some? && current.value.id == d.id ==> r == Some(d)
    ensures current.None? || current.value.id != d.id ==> r == current
  {
    if current.Some? && current.value.id == d.id then Some(d) else current
  }

  function Reduce(s: State, a: Action): (r: State)
    ensures a.SetCurrentReferral? ==> r == s.(currentReferral := a.current)
    ensures a.SetFilters? ==> r == s.(filters := Spread(s.filters, a.changes))
    ensures a.ClearFilters? ==> r == s.(filters := InitialFilters)
    ensures a.ClearReferralError? ==> r == s.(error := None)
    ensures a.AddMessage? ==> r == s.(currentReferral := AppendMessage(s.currentReferral, a.message))
    ensures a.Pending? ==> r == s.(loading := true, error := None)
    ensures a.ReferralsFetched? ==> r == s.(loading := false, referrals := a.referrals)
    ensures a.ReferralCreated? ==> r == s.(loading := false, referrals := s.referrals + [a.referral])
    ensures a.StatusUpdated? ==>
              r == s.(loading := false, referrals := ReplaceFirst(s.referrals, a.referral),
                      currentReferral := RefreshCurrent(s.currentReferral, a.referral))
    ensures a.MessageSent? ==>
              r == s.(loading := false, currentReferral := AppendMessage(s.currentReferral, a.message))
    ensures a.Rejected? ==> r == s.(loading := false, error := a.payload)
  {
    match a
    case SetCurrentReferral(c) => s.(currentReferral := c)
    case SetFilters(p) => s.(filters := s.filters + p)
    case ClearFilters => s.(filters := InitialFilters)
    case ClearReferralError => s.(error := None)
    case AddMessage(m) => s.(currentReferral := AppendMessage(s.currentReferral, m))
    case Pending => s.(loading := true, error := None)
    case ReferralsFetched(rs) => s.(loading := false, referrals := rs)
    case ReferralCreated(d) => s.(loading := false, referrals := s.referrals + [d])
    case StatusUpdated(d) =>
      s.(loading := false, referrals := ReplaceFirst(s.referrals, d),
         currentReferral := RefreshCurrent(s.currentReferral, d))
    case MessageSent(m) => s.(loading := false, currentReferral := AppendMessage(s.currentReferral, m))
    case Rejected(p) => s.(loading := false, error := p)
  }

  /** A sent message lands exactly where `addMessage` puts it; the two
      differ only in the loading flag. */
  lemma MessageSentIsAddMessage(s: State, m: Json)
    ensures Reduce(s, MessageSent(m)) == Reduce(s, AddMessage(m)).(loading := false)
  {
  }

  /** Adding messages one after another keeps them in order after the
      existing thread. */
  lemma AddMessagesInOrder(s: State, m1: Json, m2: Json)
    requires s.currentReferral.Some?
    ensures var r := Reduce(Reduce(s, AddMessage(m1)), AddMessage(m2));
            r.currentReferral.value.body.messages
              == Some(s.currentReferral.value.body.messages.GetOr([]) + [m1, m2])
  {
    var t := s.currentReferral.value.body.messages.GetOr([]);
    assert t + [m1] + [m2] == t + [m1, m2];
  }

  /** A status update keeps the length of the list, leaves a list without the
      referral's id unchanged, and never changes which referral is viewed
      unless the ids agree. */
  lemma StatusUpdateShape(s: State, d: ReferralDoc)
    ensures var r := Reduce(s, StatusUpdated(d));
            && |r.referrals| == |s.referrals|
            && (d.id !in IdsOf(s.referrals) ==> r.referrals == s.referrals)
            && (r.currentReferral.Some? ==> r.currentReferral == s.currentReferral || r.currentReferral == Some(d))
  {
  }

  /** A created referral comes last, after the earlier ones. */
  lemma CreatedReferralAppended(s: State, d: ReferralDoc)
    ensures var r := Reduce(s, ReferralCreated(d));
            |r.referrals| == |s.referrals| + 1 && r.referrals[..|s.referrals|] == s.referrals
            && r.referrals[|s.referrals|] == d
  {
    assert (s.referrals + [d])[..|s.referrals|] == s.referrals;
  }
}

=== FILE: register_form.dfy ===
/** The registration page: its form, the clearing of the password message
    on edits, the two password checks of a submit, and the body sent
    without the confirmation field. */
module RegisterForm {
  import opened Base

  datatype Field = FirstName | LastName | Email | Password | ConfirmPassword | Role

  datatype Form = Form(
    firstName: string, lastName: string, email: string,
    password: string, confirmPassword: string, role: string)

  /** The form and the password message shown under it (`""` shows none). */
  datatype Page = Page(form: Form, passwordError: string)

  const Initial: Page := Page(Form("", "", "", "", "", ""), "")

  const Mismatch: string := "Passwords do not match"
  const TooShort: string := "Password must be at least 8 characters long"
  const MinLength: nat := 8

  function Get(f: Form, field: Field): string {
    match field
    case FirstName => f.firstName
    case LastName => f.lastName
    case Email => f.email
    case Password => f.password
    case ConfirmPassword => f.confirmPassword
    case Role => f.role
  }

  /** The form with one field replaced. */
  function Set(f: Form, field: Field, value: string): (r: Form)
    ensures Get(r, field) == value
    ensures forall g :: g != field ==> Get(r, g) == Get(f, g)
  {
    match field
    case FirstName => f.(firstName := value)
    case LastName => f.(lastName := value)
    case Email => f.(email := value)
    case Password => f.(password := value)
    case ConfirmPassword => f.(confirmPassword := value)
    case Role => f.(role := value)
  }

  /** `handleChange`: the edited field takes the text; the password message
      is cleared exactly when one of the two password fields was edited. */
  function Change(p: Page, field: Field, value: string): (r: Page)
    ensures Get(r.form, field) == value
    ensures forall g :: g != field ==> Get(r.form, g) == Get(p.form, g)
    ensures field == Password || field == ConfirmPassword ==> r.passwordError == ""
    ensures field != Password && field != ConfirmPassword ==> r.passwordError == p.passwordError
  {
    var form := Set(p.form, field, value);
    if field == Password || field == ConfirmPassword then Page(form, "") else Page(form, p.passwordError)
  }

  /** `handleRoleChange`: the role select sets the role alone. */
  function RoleChange(p: Page, value: string): (r: Page)
    ensures r.form.role == value && r.passwordError == p.passwordError
    ensures forall g :: g != Role ==> Get(r.form, g) == Get(p.form, g)
  {
    Page(Set(p.form, Role, value), p.passwordError)
  }

  /** The body of the register request: the form without `confirmPassword`. */
  datatype RegisterData = RegisterData(
    firstName: string, lastName: string, email: string, password: string, role: string)

  /** The browser blocked the submit, the page refused it with a message, or
      the form was sent. */
  datatype Outcome = Blocked | Refused(message: string) | Sent(data: RegisterData)

  /** Every input and the role select are marked `required`; the select
      starts without a value. */
  predicate Filled(f: Form) {
    forall field: Field :: Get(f, field) != ""
  }

  /** Pressing "Create account": the browser's constraint validation blocks
      the submit while a required field is empty, and `handleSubmit` never
      runs. Then `handleSubmit`'s checks, in order: the two passwords must
      agree, then the password must have at least eight characters; only
      then is the form sent, every field but the confirmation copied. */
  function Submit(f: Form): (r: Outcome)
    ensures r == Blocked <==> !Filled(f)
    ensures r == Refused(Mismatch) <==> Filled(f) && f.password != f.confirmPassword
    ensures r == Refused(TooShort) <==> Filled(f) && f.password == f.confirmPassword && |f.password| < MinLength
    ensures r.Sent? <==> Filled(f) && f.password == f.confirmPassword && |f.password| >= MinLength
    ensures r.Sent? ==> r.data == RegisterData(f.firstName, f.lastName, f.email, f.password, f.role)
  {
    if !Filled(f) then Blocked
    else if f.password != f.confirmPassword then Refused(Mismatch)
    else if |f.password| < MinLength then Refused(TooShort)
    else Sent(RegisterData(f.firstName, f.lastName, f.email, f.password, f.role))
  }

  /** The page after a submit: a refusal shows its message; a blocked or
      sent form leaves the page as it was. */
  function AfterSubmit(p: Page): (r: Page)
    ensures r.form == p.form
    ensures Submit(p.form).Refused? ==> r.passwordError == Submit(p.form).message
    ensures !Submit(p.form).Refused? ==> r.passwordError == p.passwordError
  {
    match Submit(p.form)
    case Refused(m) => Page(p.form, m)
    case _ => p
  }

  /** Whatever a refused submit showed, editing either password field clears
      it, and editing any other field keeps it. */
  lemma EditClearsRefusal(p: Page, field: Field, value: string)
    requires Submit(p.form).Refused?
    ensures AfterSubmit(p).passwordError != ""
    ensures Change(AfterSubmit(p), field, value).passwordError == ""
            <==> field == Password || field == ConfirmPassword
  {
  }

  /** Typing the same password twice clears a mismatch on the next submit;
      a password of eight or more characters is then sent, once the names,
      the email and the role are filled in. */
  lemma MatchingPasswordSent(p: Page, pw: string)
    requires |pw| >= MinLength
    ensures var q := Change(Change(p, Password, pw), ConfirmPassword, pw);
            && (Submit(q.form).Sent? <==> Filled(q.form))
            && (Submit(q.form).Sent? ==> Submit(q.form).data.password == pw)
  {
  }

  /** The page as it opens cannot be submitted: every field is empty. */
  lemma InitialBlocked()
    ensures Submit(Initial.form) == Blocked
  {
    assert Get(Initial.form, Role) == "";
  }
}

=== FILE: register_route.dfy ===
/** How the registration handler assembles the new user's document from the
    request body, and what the user schema then makes of a body the
    registration page sends. */
module RegisterRoute {
  import opened Base
  import UserModel
  import RegisterForm

  /** The fields of the request body the handler reads; `None` is an absent
      key. */
  datatype Body = Body(
    email: string, password: string, firstName: string, lastName: string, role: string,
    googleId: Option<string>, authProvider: Option<string>)

  /** The body the registration page sends: its five fields, and neither a
      Google id nor a provider. */
  function FromPage(d: RegisterForm.RegisterData): (b: Body)
    ensures b.authProvider.None? && b.googleId.None?
  {
    Body(d.email, d.password, d.firstName, d.lastName, d.role, None, None)
  }

  /** The fields every new user gets: email, names, role, and the provider
      defaulted to local. */
  function Common(b: Body): (r: Record)
    ensures r.Keys == {"email", "firstName", "lastName", "role", "authProvider"}
    ensures r["authProvider"] == Str(StrOr(b.authProvider, "local"))
  {
    map["email" := Str(b.email), "firstName" := Str(b.firstName),
        "lastName" := Str(b.lastName), "role" := Str(b.role),
        "authProvider" := Str(StrOr(b.authProvider, "local"))]
  }

  /** The document as the handler builds it: the password is copied only when
      the body itself names the local provider, the Google id only when it
      names Google. */
  function UserDataAsWritten(b: Body): (r: Record)
    ensures "password" in r <==> b.authProvider == Some("local")
    ensures "googleId" in r <==> b.authProvider == Some("google") && b.googleId.Some?
    ensures forall k :: k in Common(b) ==> k in r && r[k] == Common(b)[k]
  {
    if b.authProvider == Some("local") then Common(b)["password" := Str(b.password)]
    else if b.authProvider == Some("google") && b.googleId.Some? then
      Common(b)["googleId" := Str(b.googleId.value)]
    else Common(b)
  }

  /** A body without a provider gets the local provider, which requires a
      password, yet no password is copied: the registration page's body is
      never saved, whatever was typed. */
  lemma PageRegistrationNeverSavesAsWritten(f: RegisterForm.Form)
    requires RegisterForm.Submit(f).Sent?
    ensures var u := UserModel.WithDefaults(UserDataAsWritten(FromPage(RegisterForm.Submit(f).data)));
            UserModel.IsLocal(u) && "password" !in u && !UserModel.ValidUser(u)
  {
  }

  /** The document with the password copied whenever the provider, after its
      default, is local. */
  function UserData(b: Body): (r: Record)
    ensures "password" in r <==> StrOr(b.authProvider, "local") == "local"
    ensures "password" in r ==> r["password"] == Str(b.password)
    ensures "googleId" in r <==> b.authProvider == Some("google") && b.googleId.Some?
    ensures forall k :: k in Common(b) ==> k in r && r[k] == Common(b)[k]
  {
    if StrOr(b.authProvider, "local") == "local" then Common(b)["password" := Str(b.password)]
    else if b.authProvider == Some("google") && b.googleId.Some? then
      Common(b)["googleId" := Str(b.googleId.value)]
    else Common(b)
  }

  /** With the password copied for the defaulted provider, a registration the
      page sends is saved exactly when a role the schema knows was chosen:
      the browser has already made sure the names and the email are filled
      in. */
  lemma PageRegistrationSaves(f: RegisterForm.Form)
    requires RegisterForm.Submit(f).Sent?
    ensures var u := UserModel.WithDefaults(UserData(FromPage(RegisterForm.Submit(f).data)));
            UserModel.ValidUser(u) <==> UserModel.ParseRole(f.role).Some?
  {
    var u := UserModel.WithDefaults(UserData(FromPage(RegisterForm.Submit(f).data)));
    assert RegisterForm.Get(f, RegisterForm.FirstName) != "" && RegisterForm.Get(f, RegisterForm.LastName) != "";
    assert RegisterForm.Get(f, RegisterForm.Email) != "";
    assert u["password"] == Str(f.password) && f.password != "";
    assert UserModel.IsLocal(u);
  }

  /** A user registered through Google is stored without a password and is
      not a local account, so no candidate password ever matches it, whatever
      the hash comparison would answer. */
  lemma GoogleUserNeverPasses(b: Body, candidate: string, compare: (string, Json) -> bool)
    requires b.authProvider == Some("google")
    ensures "password" !in UserData(b)
    ensures !UserModel.ComparePassword(UserModel.WithDefaults(UserData(b)), candidate, compare)
  {
    var u := UserModel.WithDefaults(UserData(b));
    assert u["authProvider"] == Str("google");
  }

  /** A user registered from the page is local and keeps the typed password,
      so a login check is exactly the hash comparison against it. */
  lemma PageUserComparesTypedPassword(f: RegisterForm.Form, candidate: string, compare: (string, Json) -> bool)
    requires RegisterForm.Submit(f).Sent?
    ensures var u := UserModel.WithDefaults(UserData(FromPage(RegisterForm.Submit(f).data)));
            UserModel.ComparePassword(u, candidate, compare) == compare(candidate, Str(f.password))
  {
    var u := UserModel.WithDefaults(UserData(FromPage(RegisterForm.Submit(f).data)));
    assert u["password"] == Str(f.password) && f.password != "";
    assert UserModel.IsLocal(u);
  }

  /** The role select starts empty: the browser blocks a form whose role
      was never chosen, and had it been sent the schema would refuse that
      role too. */
  lemma UnchosenRoleRefused(f: RegisterForm.Form)
    requires f.role == RegisterForm.Initial.form.role
    ensures RegisterForm.Submit(f) == RegisterForm.Blocked
    ensures var d := RegisterForm.RegisterData(f.firstName, f.lastName, f.email, f.password, f.role);
            !UserModel.ValidUser(UserModel.WithDefaults(UserData(FromPage(d))))
  {
    assert RegisterForm.Get(f, RegisterForm.Role) == "";
  }
}

=== FILE: swipe.dfy ===
/** The state both swipe browsers keep: a cursor into the shown list and one
    in-flight flag that disables both decision buttons. */
module Swipe {
  /** The component's own state. */
  datatype Browser = Browser(currentIndex: int, actionLoading: bool)

  const Start: Browser := Browser(0, false)

  /** Both buttons are disabled while a request is in flight. */
  predicate ButtonsEnabled(b: Browser) {
    !b.actionLoading
  }

  /** A button that sends a request raises the shared flag first. */
  function Begin(b: Browser): (r: Browser)
    ensures r.currentIndex == b.currentIndex && !ButtonsEnabled(r)
  {
    b.(actionLoading := true)
  }

  /** Start Over: the cursor goes back to the first entry. */
  function StartOver(b: Browser): (r: Browser)
    ensures r.currentIndex == 0 && r.actionLoading == b.actionLoading
  {
    b.(currentIndex := 0)
  }
}

=== FILE: text.dfy ===
/** The JavaScript string operations the application relies on, over
    `seq<char>`: `trim`, ASCII `toLowerCase`, `includes`, `split` on one
    character and `join`. */
module Text {

  /** The whitespace `String.prototype.trim` strips, restricted to the ASCII
      range (space, tab, line feed, vertical tab, form feed, carriage return). */
  predicate IsSpace(c: char) {
    c == ' ' || c == '\t' || c == '\n' || c == '\r' || c as int == 11 || c as int == 12
  }

  predicate AllSpace(s: string) {
    forall k :: 0 <= k < |s| ==> IsSpace(s[k])
  }

  /** The first position at or after `i` that does not hold whitespace, or
      the end of `s`. */
  function SkipStart(s: string, i: nat): (j: nat)
    requires i <= |s|
    ensures i <= j <= |s|
    ensures forall k :: i <= k < j ==> IsSpace(s[k])
    ensures j == |s| || !IsSpace(s[j])
    decreases |s| - i
  {
    if i < |s| && IsSpace(s[i]) then SkipStart(s, i + 1) else i
  }

  /** The end of `s[i..j]` once its trailing whitespace is dropped. */
  function SkipEnd(s: string, i: nat, j: nat): (e: nat)
    requires i <= j <= |s|
    ensures i <= e <= j
    ensures forall k :: e <= k < j ==> IsSpace(s[k])
    ensures e == i || !IsSpace(s[e - 1])
    decreases j
  {
    if j > i && IsSpace(s[j - 1]) then SkipEnd(s, i, j - 1) else j
  }

  /** `s` neither starts nor ends with whitespace. */
  predicate Trimmed(s: string) {
    s == [] || (!IsSpace(s[0]) && !IsSpace(s[|s| - 1]))
  }

  /** `s.trim()`: the longest infix of `s` that neither starts nor ends with
      whitespace, obtained by dropping whitespace from both ends. */
  function Trim(s: string): (r: string)
    ensures Trimmed(r)
    ensures exists i :: 0 <= i <= |s| - |r| && r == s[i..i + |r|]
                        && AllSpace(s[..i]) && AllSpace(s[i + |r|..])
  {
    var i := SkipStart(s, 0);
    var e := SkipEnd(s, i, |s|);
    assert AllSpace(s[..i]);
    assert AllSpace(s[e..]);
    s[i..e]
  }

  /** A string that is all whitespace trims to the empty string, and only such
      a string does. */
  lemma TrimEmptyIffAllSpace(s: string)
    ensures Trim(s) == [] <==> AllSpace(s)
  {
    var i := SkipStart(s, 0);
    if i < |s| {
      assert !IsSpace(s[i]);
      assert SkipEnd(s, i, |s|) > i;
    }
  }

  /** Trimming a string that is already trimmed changes nothing. */
  lemma TrimOfTrimmed(s: string)
    requires Trimmed(s)
    ensures Trim(s) == s
  {
    if s != [] {
      assert SkipStart(s, 0) == 0;
      assert SkipEnd(s, 0, |s|) == |s|;
    }
  }

  /** `trim` is idempotent. */
  lemma TrimIdempotent(s: string)
    ensures Trim(Trim(s)) == Trim(s)
  {
    TrimOfTrimmed(Trim(s));
  }

  /** One leading space in front of a trimmed string is stripped again. */
  lemma TrimLeadingSpace(x: string)
    requires Trimmed(x)
    ensures Trim(" " + x) == x
  {
    var s := " " + x;
    if x == [] {
      assert SkipStart(s, 0) == 1;
    } else {
      assert s[1] == x[0];
      assert SkipStart(s, 0) == 1;
      assert s[|s| - 1] == x[|x| - 1];
      assert SkipEnd(s, 1, |s|) == |s|;
      assert s[1..] == x;
    }
  }

  /** ASCII `toLowerCase` of one character. */
  function LowerChar(c: char): char {
    if 'A' <= c <= 'Z' then (c as int + 32) as char else c
  }

  /** `s.toLowerCase()`, restricted to ASCII case folding. */
  function ToLower(s: string): (r: string)
    ensures |r| == |s|
    ensures forall k :: 0 <= k < |s| ==> r[k] == LowerChar(s[k])
  {
    if s == [] then [] else [LowerChar(s[0])] + ToLower(s[1..])
  }

  /** `needle` occurs in `hay` at some offset. */
  ghost predicate OccursIn(needle: string, hay: string) {
    exists i :: 0 <= i <= |hay| && needle <= hay[i..]
  }

  /** `hay.includes(needle)`. */
  function Includes(hay: string, needle: string): (r: bool)
    ensures r <==> OccursIn(needle, hay)
    decreases |hay|
  {
    if needle <= hay then
      assert needle <= hay[0..];
      true
    else if hay == [] then
      false
    else
      OccursShift(hay, needle);
      Includes(hay[1..], needle)
  }

  /** When `needle` is not a prefix of `hay`, it occurs in `hay` exactly when
      it occurs in `hay` without its first character. */
  lemma OccursShift(hay: string, needle: string)
    requires hay != [] && !(needle <= hay)
    ensures OccursIn(needle, hay) <==> OccursIn(needle, hay[1..])
  {
    if OccursIn(needle, hay) {
      var i :| 0 <= i <= |hay| && needle <= hay[i..];
      assert i != 0;
      assert hay[1..][i - 1..] == hay[i..];
    }
    if OccursIn(needle, hay[1..]) {
      var i :| 0 <= i <= |hay[1..]| && needle <= hay[1..][i..];
      assert hay[1..][i..] == hay[i + 1..];
    }
  }

  /** Every string includes the empty string. */
  lemma IncludesEmpty(hay: string)
    ensures Includes(hay, "")
  {
    assert "" <= hay[0..];
  }

  /** A string includes each of the pieces it is concatenated from. */
  lemma IncludesMiddle(a: string, b: string, c: string)
    ensures Includes(a + b + c, b)
  {
    assert b <= (a + b + c)[|a|..];
  }

  /** `s.split(sep)` for a one-character separator: the pieces between
      occurrences of `sep`, in order; there is always at least one piece. */
  function Split(s: string, sep: char): (r: seq<string>)
    ensures |r| >= 1
    ensures forall k :: 0 <= k < |r| ==> sep !in r[k]
    ensures Join(r, [sep]) == s
  {
    if s == [] then [[]]
    else
      var rest := Split(s[1..], sep);
      if s[0] == sep then
        assert Join([[]] + rest, [sep]) == [] + [sep] + Join(rest, [sep]);
        [[]] + rest
      else
        var r := [[s[0]] + rest[0]] + rest[1..];
        JoinConsFirst(rest, [s[0]], [sep]);
        assert s == [s[0]] + s[1..];
        r
  }

  /** `parts.join(delim)`. */
  function Join(parts: seq<string>, delim: string): string {
    if parts == [] then []
    else if |parts| == 1 then parts[0]
    else parts[0] + delim + Join(parts[1..], delim)
  }

  /** Prefixing the first piece prefixes the joined string. */
  lemma JoinConsFirst(parts: seq<string>, pre: string, delim: string)
    requires |parts| >= 1
    ensures Join([pre + parts[0]] + parts[1..], delim) == pre + Join(parts, delim)
  {
    var q := [pre + parts[0]] + parts[1..];
    assert q[1..] == parts[1..];
  }

  /** Splitting a joined list of separator-free pieces gives the pieces back. */
  lemma {:induction false} SplitJoin(parts: seq<string>, sep: char)
    requires |parts| >= 1
    requires forall k :: 0 <= k < |parts| ==> sep !in parts[k]
    ensures Split(Join(parts, [sep]), sep) == parts
    decreases |parts|, |parts[0]|
  {
    if parts[0] == [] {
      if |parts| == 1 {
      } else {
        var tail := parts[1..];
        SplitJoin(tail, sep);
        assert Join(parts, [sep]) == [sep] + Join(tail, [sep]);
        assert ([sep] + Join(tail, [sep]))[1..] == Join(tail, [sep]);
        assert parts == [[]] + tail;
      }
    } else {
      var c := parts[0][0];
      assert c != sep by { assert c in parts[0]; }
      var shorter := [parts[0][1..]] + parts[1..];
      forall k | 0 <= k < |shorter| ensures sep !in shorter[k] {
        if k == 0 {
          assert shorter[0] == parts[0][1..];
        } else {
          assert shorter[k] == parts[k];
        }
      }
      SplitJoin(shorter, sep);
      assert shorter[1..] == parts[1..];
      JoinConsFirst(shorter, [c], [sep]);
      assert [c] + parts[0][1..] == parts[0];
      assert [parts[0]] + parts[1..] == parts;
      var s := Join(parts, [sep]);
      assert s == [c] + Join(shorter, [sep]);
      assert s[1..] == Join(shorter, [sep]);
      var rest := Split(s[1..], sep);
      assert rest == shorter;
      assert Split(s, sep) == [[c] + rest[0]] + rest[1..];
    }
  }
}

=== FILE: user_model.dfy ===
/** The User document, held as the key/value record MongoDB stores: the
    schema's paths, its role and provider enumerations, the conditional
    password requirement, its defaults and the `comparePassword` guard. */
module UserModel {
  import opened Base

  datatype Role = Jobseeker | Referrer | Recruiter

  function RoleName(r: Role): string {
    match r
    case Jobseeker => "jobseeker"
    case Referrer => "referrer"
    case Recruiter => "recruiter"
  }

  function ParseRole(t: string): (r: Option<Role>)
    ensures r.Some? ==> RoleName(r.value) == t
    ensures r.None? ==> forall x: Role :: RoleName(x) != t
  {
    if t == "jobseeker" then Some(Jobseeker)
    else if t == "referrer" then Some(Referrer)
    else if t == "recruiter" then Some(Recruiter)
    else None
  }

  datatype AuthProvider = Local | Google

  function ProviderName(p: AuthProvider): string {
    match p
    case Local => "local"
    case Google => "google"
  }

  function ParseProvider(t: string): (r: Option<AuthProvider>)
    ensures r.Some? ==> ProviderName(r.value) == t
    ensures r.None? ==> forall x: AuthProvider :: ProviderName(x) != t
  {
    if t == "local" then Some(Local)
    else if t == "google" then Some(Google)
    else None
  }

  /** The paths the schema declares; assignments to any other key are
      discarded by the schema's strict mode. */
  const UserPaths: set<string> := {
    "email", "password", "firstName", "lastName", "profilePicture", "googleId",
    "authProvider", "phone", "location", "bio", "role", "skills", "experience",
    "education", "projects", "resumeUrl", "githubUrl", "linkedinUrl",
    "portfolioUrl", "preferredRoles", "preferredLocations", "isProfileComplete",
    "isVerified" }

  /** A `required` string path holds a non-empty string. */
  predicate HasString(u: Record, k: string) {
    k in u && u[k].Str? && u[k].s != ""
  }

  /** An enumerated path holds one of the admitted spellings. */
  predicate RoleValid(u: Record) {
    "role" in u && u["role"].Str? && ParseRole(u["role"].s).Some?
  }

  predicate ProviderValid(u: Record) {
    "authProvider" !in u || (u["authProvider"].Str? && ParseProvider(u["authProvider"].s).Some?)
  }

  /** `this.authProvider === 'local'`. */
  predicate IsLocal(u: Record) {
    "authProvider" in u && u["authProvider"] == Str(ProviderName(Local))
  }

  /** The password path is required exactly for local accounts. */
  predicate PasswordRequired(u: Record) {
    IsLocal(u)
  }

  /** Everything `save()` validates. */
  predicate ValidUser(u: Record) {
    && HasString(u, "email") && HasString(u, "firstName") && HasString(u, "lastName")
    && RoleValid(u)
    && ProviderValid(u)
    && (PasswordRequired(u) ==> HasString(u, "password"))
  }

  /** A document with the schema's defaults applied to absent paths: local
      provider, profile incomplete, not verified. */
  function WithDefaults(u: Record): (r: Record)
    ensures r.Keys == u.Keys + {"authProvider", "isProfileComplete", "isVerified"}
    ensures forall k :: k in u ==> r[k] == u[k]
    ensures "authProvider" !in u ==> IsLocal(r)
    ensures "isProfileComplete" !in u ==> r["isProfileComplete"] == Bool(false)
    ensures "isVerified" !in u ==> r["isVerified"] == Bool(false)
  {
    var defaults := map["authProvider" := Str(ProviderName(Local)),
                        "isProfileComplete" := Bool(false),
                        "isVerified" := Bool(false)];
    defaults + u
  }

  /** A Google account needs no password; a local one does. */
  lemma GoogleAccountNeedsNoPassword(u: Record)
    requires ValidUser(u) && "authProvider" in u && u["authProvider"] == Str("google")
    ensures !PasswordRequired(u)
  {
  }

  /** `comparePassword(candidate)`: `false` for any account that is not local
      or has no (or an empty) stored password; otherwise whatever the hash
      comparison `compare` answers. */
  function ComparePassword(u: Record, candidate: string, compare: (string, Json) -> bool): (r: bool)
    ensures !IsLocal(u) ==> !r
    ensures !TruthyOpt(Lookup(u, "password")) ==> !r
    ensures IsLocal(u) && TruthyOpt(Lookup(u, "password")) ==> r == compare(candidate, u["password"])
  {
    if !IsLocal(u) || !TruthyOpt(Lookup(u, "password")) then false
    else compare(candidate, u["password"])
  }
}

=== FILE: user_routes.dfy ===
/** `PUT /api/users/profile`: a partial merge of the request body into the
    caller's stored user document, followed by schema validation on save. */
module UserRoutes {
  import opened Base
  import opened Http
  import opened UserModel

  type Id = nat

  /** The user collection, by id. */
  type UserStore = map<Id, Record>

  datatype Step = Step(store: UserStore, reply: Reply<Record>)

  const UserNotFound: string := "User not found"

  /** A body value the handler copies: anything but `null` (an absent key is
      simply not in the body). */
  predicate Copied(v: Json) {
    v != Null
  }

  /** `Object.keys(body).forEach(k => if (body[k] != null) user[k] = body[k])`
      on a strict schema: a present, non-null value under a schema path
      overwrites the field, empty strings included; every other field keeps
      its value, and keys outside the schema are dropped. */
  function Merge(u: Record, body: Record): (r: Record)
    ensures r.Keys == u.Keys + (set k | k in body && k in UserPaths && Copied(body[k]))
    ensures forall k :: k in body && k in UserPaths && Copied(body[k]) ==> r[k] == body[k]
    ensures forall k :: k in u && !(k in body && k in UserPaths && Copied(body[k])) ==> r[k] == u[k]
  {
    var taken := map k | k in body && k in UserPaths && Copied(body[k]) :: body[k];
    u + taken
  }

  /** Merging the same body twice is merging it once. */
  lemma MergeIdempotent(u: Record, body: Record)
    ensures Merge(Merge(u, body), body) == Merge(u, body)
  {
  }

  /** A body with only `null` values or keys outside the schema changes
      nothing. */
  lemma MergeOfNothing(u: Record, body: Record)
    requires forall k :: k in body && k in UserPaths ==> body[k] == Null
    ensures Merge(u, body) == u
  {
  }

  /** Another user already holds the value `u` has under `k`. */
  predicate Taken(st: UserStore, caller: Id, u: Record, k: string) {
    k in u && exists other :: other in st && other != caller && k in st[other] && st[other][k] == u[k]
  }

  /** The unique index on `email` and the sparse unique index on `googleId`
      refuse `u` as the caller's document: a document without the path is
      not indexed, one with it clashes with any other holding the same
      value. */
  predicate Duplicate(st: UserStore, caller: Id, u: Record) {
    Taken(st, caller, u, "email") || Taken(st, caller, u, "googleId")
  }

  /** No two users hold the same value under `k`. */
  predicate UniqueOn(st: UserStore, k: string) {
    forall a, b :: a in st && b in st && a != b && k in st[a] && k in st[b] ==> st[a][k] != st[b][k]
  }

  /** What the two unique indexes keep true of the collection. */
  predicate Unique(st: UserStore) {
    UniqueOn(st, "email") && UniqueOn(st, "googleId")
  }

  /** PUT /profile: 404 when the caller has no user document; otherwise the
      merged document is saved if it passes the schema's validators and the
      unique indexes. A failed validation or a duplicate key makes `save()`
      throw: 500 with the error's message `failMessage` (or the generic one
      when that is empty), and nothing is stored. */
  function UpdateProfile(st: UserStore, caller: Id, body: Record, failMessage: string): (r: Step)
    ensures r.reply.NotFound? <==> caller !in st
    ensures r.reply.NotFound? ==> r.reply.message == UserNotFound
    ensures r.reply.Ok? || r.reply.NotFound? || r.reply.ServerError?
    ensures r.reply.Ok? <==>
              caller in st && ValidUser(Merge(st[caller], body)) && !Duplicate(st, caller, Merge(st[caller], body))
    ensures !r.reply.Ok? ==> r.store == st
    ensures r.reply.ServerError? ==>
              && caller in st
              && (!ValidUser(Merge(st[caller], body)) || Duplicate(st, caller, Merge(st[caller], body)))
              && r.reply.message == StrOr(Some(failMessage), ServerErrorMessage)
    ensures r.reply.Ok? ==>
              && caller in st && r.reply.body == Merge(st[caller], body)
              && ValidUser(r.reply.body)
              && r.store == st[caller := r.reply.body]
    ensures r.store.Keys == st.Keys
  {
    if caller !in st then Step(st, NotFound(UserNotFound))
    else
      var merged := Merge(st[caller], body);
      if ValidUser(merged) && !Duplicate(st, caller, merged) then Step(st[caller := merged], Ok(merged))
      else Step(st, ServerError(StrOr(Some(failMessage), ServerErrorMessage)))
  }

  /** A profile update keeps every email and every Google id held by one
      user only. */
  lemma UpdateKeepsUnique(st: UserStore, caller: Id, body: Record, failMessage: string)
    requires Unique(st)
    ensures Unique(UpdateProfile(st, caller, body, failMessage).store)
  {
    var r := UpdateProfile(st, caller, body, failMessage);
    if r.reply.Ok? {
      var m := r.reply.body;
      forall k | k == "email" || k == "googleId" ensures UniqueOn(r.store, k) {
        forall a, b | a in r.store && b in r.store && a != b && k in r.store[a] && k in r.store[b]
          ensures r.store[a][k] != r.store[b][k]
        {
          if a == caller {
            assert !Taken(st, caller, m, k);
          } else if b == caller {
            assert !Taken(st, caller, m, k);
          }
        }
      }
    }
  }

  /** Taking another user's email is refused by the unique index: 500, and
      both documents stay as they were. */
  lemma TakenEmailRefused(st: UserStore, caller: Id, other: Id, failMessage: string)
    requires caller in st && other in st && other != caller
    requires "email" in st[other] && st[other]["email"] != Null
    ensures var r := UpdateProfile(st, caller, map["email" := st[other]["email"]], failMessage);
            r.reply.ServerError? && r.store == st
  {
    var body := map["email" := st[other]["email"]];
    var m := Merge(st[caller], body);
    assert "email" in UserPaths;
    assert m["email"] == st[other]["email"];
    assert Taken(st, caller, m, "email");
  }

  /** A profile update never touches another user's document. */
  lemma OtherUsersUntouched(st: UserStore, caller: Id, body: Record, failMessage: string, other: Id)
    requires other != caller && other in st
    ensures var r := UpdateProfile(st, caller, body, failMessage);
            other in r.store && r.store[other] == st[other]
  {
  }

  /** Sending an empty string for a required name field makes the save fail:
      the handler copies it, and the validator rejects it. */
  lemma EmptyRequiredFieldRejected(st: UserStore, caller: Id, failMessage: string)
    requires caller in st
    ensures var r := UpdateProfile(st, caller, map["firstName" := Str("")], failMessage);
            r.reply.ServerError? && r.store == st
  {
    var m := Merge(st[caller], map["firstName" := Str("")]);
    assert m["firstName"] == Str("");
  }

  /** A valid stored user in a collection the unique indexes have kept
      duplicate-free, sending only `null`s, gets the same document back. */
  lemma NullBodyKeepsUser(st: UserStore, caller: Id, body: Record, failMessage: string)
    requires caller in st && ValidUser(st[caller]) && Unique(st)
    requires forall k :: k in body ==> body[k] == Null
    ensures var r := UpdateProfile(st, caller, body, failMessage);
            r.reply.Ok? && r.reply.body == st[caller] && r.store == st
  {
    MergeOfNothing(st[caller], body);
  }
}

=== FILE: user_slice.dfy ===
/** The `user` slice of the profile feature: the user record, the loading
    flag, the last error and a success flag for the role and profile
    requests. */
module UserSlice {
  import opened Base

  datatype State = State(user: Option<Json>, loading: bool, error: Option<string>, success: bool)

  const Initial: State := State(None, false, None, false)

  datatype Request = SwitchRole | AddRole | UpdateProfile | GetProfile

  /** The message recorded when a request fails without one of its own. */
  function DefaultError(q: Request): string {
    match q
    case SwitchRole => "Failed to switch role"
    case AddRole => "Failed to add role"
    case UpdateProfile => "Failed to update profile"
    case GetProfile => "Failed to fetch profile"
  }

  /** Only fetching the profile leaves the success flag alone. */
  predicate Signals(q: Request) {
    q != GetProfile
  }

  datatype Action =
    | Reset
    | Pending(request: Request)
    | Fulfilled(request: Request, payload: Record)
    | Rejected(request: Request, reason: Option<ErrorBody>)

  function Reduce(s: State, a: Action): (r: State)
    ensures a.Reset? ==> r == s.(loading := false, error := None, success := false)
    ensures a.Pending? ==> r == s.(loading := true, error := None)
    ensures a.Fulfilled? ==> !r.loading && r.error == s.error && r.user == Lookup(a.payload, "data")
    ensures a.Fulfilled? ==> r.success == (Signals(a.request) || s.success)
    ensures a.Rejected? ==> r == s.(loading := false, error := Some(MessageOr(a.reason, DefaultError(a.request))))
  {
    match a
    case Reset => s.(loading := false, error := None, success := false)
    case Pending(_) => s.(loading := true, error := None)
    case Fulfilled(q, p) =>
      var u := if "data" in p then Some(p["data"]) else None;
      if q == GetProfile then s.(loading := false, user := u)
      else s.(loading := false, success := true, user := u)
    case Rejected(q, why) => s.(loading := false, error := Some(MessageOr(why, DefaultError(q))))
  }

  /** The four default messages are distinct, so the error says which request
      failed. */
  lemma DefaultErrorsDistinct(q1: Request, q2: Request)
    requires q1 != q2
    ensures DefaultError(q1) != DefaultError(q2)
  {
  }

  /** `reset` keeps the user, whatever happened before. */
  lemma ResetKeepsUser(s: State, a: Action)
    ensures Reduce(Reduce(s, a), Reset).user == Reduce(s, a).user
    ensures var r := Reduce(Reduce(s, a), Reset); !r.loading && r.error.None? && !r.success
  {
  }

  /** A fetched profile after a reset does not raise the success flag. */
  lemma GetProfileIsSilent(s: State, p: Record)
    ensures !Reduce(Reduce(s, Reset), Fulfilled(GetProfile, p)).success
  {
  }
}

=== FILE: views.dfy ===
/** The records the browser holds, as the components read them: each with
    its `_id` (see `Lists.Doc`) and only the fields the modelled code looks
    at. */
module Views {
  import opened Base
  import opened Lists

  /** A referral as the client receives it. `jobId` is `referral.job._id`,
      absent when the job has been deleted (see `JobGone`),
      `referee` the populated referee (falsy when missing), `applicant` a
      field the server's documents do not carry, and `messages` the
      client-side message list. */
  datatype ReferralView = ReferralView(
    status: string,
    jobId: Option<string>,
    referee: Option<Json>,
    applicant: Option<string>,
    messages: Option<seq<Json>>)

  type ReferralDoc = Doc<ReferralView>

  /** Deleting a job leaves its referrals, and populating one of them then
      gives `job: null`, so reading `ref.job._id` throws. */
  predicate JobGone(r: ReferralDoc) {
    r.body.jobId.None?
  }

  /** A job as the client receives it. `listedType` and `listedExperience`
      are `job.type` and `job.experience`, which the job search page reads;
      the server's documents name these fields `jobType` and
      `experienceLevel`, so they arrive absent. */
  datatype JobView = JobView(
    title: string,
    company: string,
    skills: seq<string>,
    listedType: Option<string>,
    listedExperience: Option<string>,
    postedBy: Option<string>)

  type JobDoc = Doc<JobView>

  /** The status spellings the client compares against. */
  const PendingName: string := "pending"
  const AcceptedName: string := "accepted"
  const RejectedName: string := "rejected"

  predicate IsPending(r: ReferralDoc) {
    r.body.status == PendingName
  }
}
